=== FILE: README.md ===
# Xplorer core, modelled in Dafny

Xplorer is a travel planner. A Next.js frontend holds a chat with an AI
trip planner, and a FastAPI backend signs users in through Firebase,
stores profiles and conversations, and builds the planner's prompt.
This project models the pure logic of both halves and proves what it
promises:

- the chat store's state machine (`useChatStore.js`);
- the projections that turn the planner's JSON replies into days, bubbles,
  markers and routes (`ItineraryPanel.js`, `MessageBubble.js`,
  `TripPlannerView.js`);
- the rules of the chat page, auth overlay and sidebar;
- the backend's prompt construction and reply cleaning
  (`travel_ai_service.py`, `ai_agent.py`);
- review batching and record flattening (`ingest_reviews.py`, `build_graph.py`);
- the profile-update whitelist, the sign-in error classification, the
  registration sequence and its rollback, and the request validators
  (`routes/user.py`, `auth_service.py`, `routes/auth.py`, `models/`).

JSON values are one datatype, `Json.J`
(`JNull | JBool | JNum | JStr | JArr | JObj(seq<(string, J)>)`). Objects keep
their fields in insertion order. JavaScript `||` and Python `or` are modelled
separately, because their truthiness rules differ (`Json.JsTruthy`,
`Json.PyTruthy`).

Every asynchronous store action is split into two pure transitions:
- a *begin* step, taken synchronously;
- a *complete* step, which takes the network outcome as a `Result`.

Runtime failures that the source would raise are modelled as `None`,
`Crashed` or `Unhandled`. Examples are a `TypeError` on a null day, a
`KeyError` on a missing field, or iterating over a number. Foreign code is
passed in as function parameters:
- regular-expression captures;
- `JSON.stringify`, `json.dumps` and `json.loads`;
- Python `str()` and `float()`;
- the e-mail validator, which returns the normalised address.

Modules, one per source file:
- `ChatStore`, `ItineraryPanel`, `MessageBubble`, `TripPlanner`, `ChatPage`,
  `AuthOverlay` and `Sidebar` cover the frontend;
- `TravelAi`, `AiAgent`, `IngestReviews`, `BuildGraph`, `UserRoutes`,
  `AuthService`, `Models` and `AuthRoutes` cover the backend;
- `Json`, `Text`, `Seqs`, `Sorting` and `Wrappers` hold the shared vocabulary.

## Model

| member | source | states |
|---|---|---|
| ChatStore.ToUIMessages | frontend/src/store/useChatStore.js:8-26 | A stored exchange becomes exactly two bubbles. The first is the user's: id `message_id + "_user"`, text, submitted data. The second is the AI's: id `message_id + "_ai"`, response = the output. Both carry the message's timestamp. |
| ChatStore.ToUIMessagesRoundTrip | frontend/src/store/useChatStore.js:8-26 | The pair of bubbles determines the stored message: reading the pair back gives the original exchange. |
| ChatStore.FlattenMessages | frontend/src/store/useChatStore.js:56 | The flat-mapped bubble list has length 2n, and slice `[2i, 2i+2)` is the pair of the i-th message, in order. |
| ChatStore.FlattenRoundTrip | frontend/src/store/useChatStore.js:56 | The flat bubble list can be read back into exactly the original message list. |
| ChatStore.FetchSessionsComplete | frontend/src/store/useChatStore.js:38-45 | On success only `sessions` changes, to the fetched list. On failure only `error` changes. |
| ChatStore.SetCurrentSessionBegin | frontend/src/store/useChatStore.js:47-52 | A null or empty id clears the current id, messages and itinerary and requests no fetch; loading is left as it was. A real id becomes current, sets loading and requests that id. Sessions, trip, route data and error never change. |
| ChatStore.SetCurrentSessionComplete | frontend/src/store/useChatStore.js:53-69 | On success the messages are the bubble pairs of the fetched history (length 2n, pair by pair), and the itinerary is the last exchange's. On failure messages and itinerary stay and `error` is set. Loading ends either way, and the current id is never checked or changed. |
| ChatStore.LatestItinerary | frontend/src/store/useChatStore.js:59-60 | With no exchange the itinerary is null. Otherwise it is the last exchange's itinerary when that is truthy, and null when it is not. |
| ChatStore.LatestItinerarySupersedes | frontend/src/store/useChatStore.js:59-60 | Only the last exchange decides the itinerary. Earlier exchanges contribute nothing. |
| ChatStore.StaleSessionResponseCommitted | frontend/src/store/useChatStore.js:52-66 | A response for session a that completes after the user switched to session b replaces b's bubbles with a's while b stays current. There is no relevance check. |
| ChatStore.SendErrorText | frontend/src/store/useChatStore.js:125 | The error text is the response detail if non-empty, else the error message if non-empty, else "Something went wrong. Please try again.". |
| ChatStore.ErrorBubble | frontend/src/store/useChatStore.js:128-133 | A failed send adds an assistant bubble with id clock + "_error", text "⚠️ " followed by the error text, and a null itinerary. |
| ChatStore.SendMessageBegin | frontend/src/store/useChatStore.js:73-83 | A temporary user bubble is appended last and loading is set. The session id read now is remembered for the completion. Nothing else changes. |
| ChatStore.SendMessageComplete | frontend/src/store/useChatStore.js:85-141 | On success the temporary bubble is removed with the others kept in order, the saved pair is appended last, and the itinerary is replaced only when the reply's itinerary is truthy. A new conversation adopts the returned id and triggers a session refresh. On failure one warning bubble is appended, `error` is set to the same text and the error is rethrown. Loading ends either way. |
| ChatStore.SendSuccessReplacesPending | frontend/src/store/useChatStore.js:76-122 | With a fresh temporary id, begin then a successful complete leaves exactly the earlier bubbles plus the saved pair. |
| ChatStore.SendFailureKeepsPending | frontend/src/store/useChatStore.js:76-141 | Begin then a failed complete keeps the user's bubble and adds one AI bubble whose text is the warning prefix plus the error text. The same text is stored as `error` and the error is rethrown. |
| ChatStore.SendWithoutSessionAdoptsNewConversation | frontend/src/store/useChatStore.js:87-93 | With no session open, a successful send makes the new conversation current and refreshes the list. |
| ChatStore.SendUsesSessionReadAtStart | frontend/src/store/useChatStore.js:73 | A session opened while a send is in flight is overwritten by the new conversation's id, because the id was read before the request. |
| ChatStore.DeleteSessionComplete | frontend/src/store/useChatStore.js:144-154 | On success every summary with that id is removed and every other one is kept. The five active fields are reset only if that id was current. On failure only `error` changes. |
| ChatStore.DeleteSessionIdempotent | frontend/src/store/useChatStore.js:148 | Deleting the same id a second time leaves the session list unchanged. |
| ChatStore.DeleteSessionMultiset | frontend/src/store/useChatStore.js:148 | After a deletion each summary with that id occurs zero times, and every other summary occurs as often as before. |
| ChatStore.DeleteSessionOrder | frontend/src/store/useChatStore.js:148 | Deleting from a concatenation deletes from each part, so the kept summaries stay in their order. |
| ChatStore.ConfirmItineraryBegin | frontend/src/store/useChatStore.js:157 | Only loading changes, and it becomes true. |
| ChatStore.NameStubs | frontend/src/store/useChatStore.js:174 | One `{name}` stub per input name, in order. |
| ChatStore.FallbackRoute | frontend/src/store/useChatStore.js:168-179 | The fallback route data records the input as `ordered_route`, empty legs and transport, a null total, one name stub per input, and a hotel stub exactly when the hotel name is truthy. |
| ChatStore.ConfirmItineraryComplete | frontend/src/store/useChatStore.js:156-181 | The confirmed trip is always the current itinerary, and loading ends. The route data is the server's on success and the fallback route on failure. Sessions, messages, itinerary and error are untouched. |
| ChatStore.ClearConfirmedTrip | frontend/src/store/useChatStore.js:183-185 | The confirmed trip and route data become null, and no other field changes. |
| ChatStore.ClearConfirmedTripIdempotent | frontend/src/store/useChatStore.js:156-185 | Clearing twice equals clearing once. A confirm followed by a clear keeps the messages and itinerary, with loading off. |
| ItineraryPanel.DayLabel | frontend/src/app/components/ItineraryPanel.js:90 | The fallback theme starts with "Day ". |
| ItineraryPanel.ActivityText | frontend/src/app/components/ItineraryPanel.js:92 | A null activity fails. A string is kept. Otherwise the result is the truthy description, else the truthy activity, else the JSON text. |
| ItineraryPanel.MapActivities | frontend/src/app/components/ItineraryPanel.js:91-93 | The mapping succeeds iff no activity is null, and then gives one text per activity, in order. |
| ItineraryPanel.ArrayDayActivities | frontend/src/app/components/ItineraryPanel.js:91-93 | An array-shaped day's activities fail iff its `activities` array holds a null. A non-array gives no activities, and an array gives one activity per element. |
| ItineraryPanel.ObjectDayActivities | frontend/src/app/components/ItineraryPanel.js:113-115 | An object-shaped day's activities fail iff its `activities` array holds a null. A lone string becomes the one activity, an array is mapped as for arrays, and anything else gives none. |
| ItineraryPanel.BuildDayFields | frontend/src/app/components/ItineraryPanel.js:88-96 | The theme is always truthy: `theme`, else `title`, else "Day i+1". Hotels are `null` iff `hotels` and `hotel` are both falsy, and otherwise are the truthy one of the two. Transport is the same with `transport` and `cab`. |
| ItineraryPanel.ArrayDay | frontend/src/app/components/ItineraryPanel.js:87-96 | An array element fails iff it is null or its activities array holds a null. |
| ItineraryPanel.ArrayDays | frontend/src/app/components/ItineraryPanel.js:87-97 | One day per array element, in order, each built at position start+i. It fails exactly when some element would throw. |
| ItineraryPanel.ObjectDays | frontend/src/app/components/ItineraryPanel.js:107-120 | There are at most as many days as keys. Parsing fails iff some object entry's day cannot be built, at that entry's own position. |
| ItineraryPanel.EntryDay | frontend/src/app/components/ItineraryPanel.js:108-119 | An object entry's day fails iff its activities array holds a null. |
| ItineraryPanel.EntryDayFields | frontend/src/app/components/ItineraryPanel.js:108-119 | An object entry's day is numbered by its key's digits, or by i+1 when they give 0. It takes the shared fallbacks of `BuildDayFields`, and a lone string activity becomes one activity. |
| ItineraryPanel.ObjectDaysCount | frontend/src/app/components/ItineraryPanel.js:107-110 | There is exactly one day per entry whose value is a non-null object. |
| ItineraryPanel.ObjectDaysSkip | frontend/src/app/components/ItineraryPanel.js:109-110 | An entry whose value is not an object gives no day, but later entries' positions still count it. |
| ItineraryPanel.ObjectDaysOne | frontend/src/app/components/ItineraryPanel.js:107-120 | A single entry gives its own `EntryDay` at its position when its value is an object, and nothing otherwise. |
| ItineraryPanel.ObjectDaysAppend | frontend/src/app/components/ItineraryPanel.js:107-120 | The days of two runs of entries are the first run's days followed by the second run's, whose positions continue after the first. With `ObjectDaysOne` this fixes every day: the object entries' days in entry order, each built at its sorted position. |
| ItineraryPanel.ObjectPositions | frontend/src/app/components/ItineraryPanel.js:107-110 | The positions of the entries that yield a day are ascending, and they are exactly the positions of entries whose value is a non-null object. |
| ItineraryPanel.ObjectDaysAt | frontend/src/app/components/ItineraryPanel.js:107-120 | Day k is the `EntryDay` of the k-th entry whose value is an object, built at that entry's position among all the entries, and there is one day per such entry. |
| ItineraryPanel.ParseItinerary | frontend/src/app/components/ItineraryPanel.js:83-125 | A falsy or non-object input gives no days. An array is read element by element with `ArrayDays`. An object is read with `ObjectDays` over its entries sorted by key number, which `SortByFacts` shows is a stable, ordered permutation. |
| ItineraryPanel.ObjectItineraryDays | frontend/src/app/components/ItineraryPanel.js:100-121 | For an object itinerary, day k is the `EntryDay` of the k-th entry, in key-number order, whose value is an object. It is numbered from that entry's position in the sorted order. |
| ItineraryPanel.ArrayDayFields | frontend/src/app/components/ItineraryPanel.js:88-96 | Day i of an array is numbered `day \|\| day_number \|\| i+1`, themed `theme \|\| title \|\| "Day i+1"`, with `hotels \|\| hotel \|\| null` and `transport \|\| cab \|\| null`. |
| ItineraryPanel.ObjectDaysCons | frontend/src/app/components/ItineraryPanel.js:102-121 | An entry whose value is not an object is skipped. Otherwise its day goes in front of the days of the later entries. |
| ItineraryPanel.ObjectDaysAtLeast | frontend/src/app/components/ItineraryPanel.js:111 | When every key has a non-zero digit value at least lo, every day's number is at least lo. |
| ItineraryPanel.ObjectDaysAscending | frontend/src/app/components/ItineraryPanel.js:102-111 | Keys sorted by digit value, with non-zero digits, give days with non-decreasing numbers. |
| ItineraryPanel.EmptyEntryDay | frontend/src/app/components/ItineraryPanel.js:108-121 | An empty day object gives a day numbered by its key's digits, or by its position when the key has none. |
| ItineraryPanel.ExtractPlaceName | frontend/src/app/components/ItineraryPanel.js:68-80 | A trimmed capture longer than 3 characters wins. Otherwise a text of length 4..39 is returned trimmed. Otherwise null. |
| ItineraryPanel.Places | frontend/src/app/components/ItineraryPanel.js:386-392 | The names collected for a day contain no duplicates. |
| ItineraryPanel.PlacesSound | frontend/src/app/components/ItineraryPanel.js:388-390 | Every collected name is the extracted name of some activity of that day. |
| ItineraryPanel.PlacesComplete | frontend/src/app/components/ItineraryPanel.js:388-390 | Every non-empty extracted name of an activity is collected. |
| ItineraryPanel.FirstWords | frontend/src/app/components/ItineraryPanel.js:395 | The fallback is the activity up to, but not including, its fifth space. It is a prefix with min(4, spaces) spaces, the whole activity when there are at most four, and otherwise followed in the activity by a space. |
| ItineraryPanel.GroupOf | frontend/src/app/components/ItineraryPanel.js:385-397 | A day's group is non-empty iff the day has activities, and it has no duplicates. It is the collected names when there are any. Otherwise it is exactly the first activity cut before its fifth space (`FirstWords`), which is a prefix of that activity. |
| ItineraryPanel.AllStrings | frontend/src/app/components/ItineraryPanel.js:387-388 | The confirm handler runs only when every activity is a string, and then sees exactly those strings. |
| ItineraryPanel.ConfirmGroups | frontend/src/app/components/ItineraryPanel.js:385-398 | One group per day that has activities. Each group is non-empty and duplicate-free, and days without activities are dropped. |
| ItineraryPanel.ConfirmGroupsContents | frontend/src/app/components/ItineraryPanel.js:385-398 | The groups are, in order, the `GroupOf` of each day that has activities. |
| ItineraryPanel.GroupsOf | frontend/src/app/components/ItineraryPanel.js:385-397 | Mapping the days to groups gives one group per day, group g being the `GroupOf` of day g's activities. |
| ItineraryPanel.ConfirmGroupsCons | frontend/src/app/components/ItineraryPanel.js:385-398 | The first day's group goes in front of the later days' groups when it has activities, and is dropped otherwise. |
| ItineraryPanel.HotelLabel | frontend/src/app/components/ItineraryPanel.js:404 | A string hotel value is its own label. Otherwise the label is its truthy `name`, or else its JSON text. |
| ItineraryPanel.HotelName | frontend/src/app/components/ItineraryPanel.js:400-407 | The hotel name is null iff no day has truthy hotels. Otherwise it is the label of the first such day's hotels. |
| ItineraryPanel.SplitTimeLabel | frontend/src/app/components/ItineraryPanel.js:133-139 | A time label is split off iff the first ':' is at index 1..19. The label and the rest are the trimmed halves; otherwise the activity is unchanged. |
| ItineraryPanel.DecorationsCycle | frontend/src/app/components/ItineraryPanel.js:44-60 | Gradient and emoji repeat with period 7. |
| MessageBubble.Project | frontend/src/app/components/MessageBubble.js:200-206 | Object content gives `text = content.text`, `ui_elements = content.ui_elements \|\| []` and `itinerary = content.itinerary`. Other content gives `text = content \|\| ""`, no ui elements and a null itinerary. |
| MessageBubble.UserBubbleProjection | frontend/src/app/components/MessageBubble.js:200-206 | A user bubble shows its own text, with no form elements and no itinerary. |
| MessageBubble.ErrorBubbleProjection | frontend/src/app/components/MessageBubble.js:200-206 | A failed send's bubble shows the warning text and renders no inline itinerary. |
| MessageBubble.TakeWhile | frontend/src/app/components/MessageBubble.js:71 | The longest prefix whose characters pass the test: every taken character passes, and the first one left out fails. |
| MessageBubble.TakeWhilePrefix | frontend/src/app/components/MessageBubble.js:71 | A prefix of passing characters followed by a failing one is exactly what the greedy run takes. |
| MessageBubble.NumberedItem | frontend/src/app/components/MessageBubble.js:71 | A match has a non-empty digit run followed by '.', then a non-empty body with no line terminator. `NumberedItemComplete` gives the converse for trimmed lines. |
| MessageBubble.NumberedItemComplete | frontend/src/app/components/MessageBubble.js:71 | On a trimmed line, a digit run followed by '.' and a blank always matches, and the match's number is exactly that digit run. |
| MessageBubble.ClassifyLine | frontend/src/app/components/MessageBubble.js:56-83 | A line is a spacer iff it trims to empty. It is a bullet iff the trimmed line has a bullet prefix, and the bullet strips 2 characters. It is numbered iff it has no bullet prefix and the numbered pattern matches, keeping the number and body. Otherwise it is a paragraph of the trimmed line. |
| MessageBubble.RichText | frontend/src/app/components/MessageBubble.js:49-58 | Empty text renders nothing. Otherwise there is one classified entry per '\n'-separated line, in order. |
| MessageBubble.TakeWhileAll | frontend/src/app/components/MessageBubble.js:71 | When every character passes, the whole string is taken. |
| MessageBubble.AssignAll | frontend/src/app/components/MessageBubble.js:111-113 | An object spread keeps the base's fields that are not overridden. Each spread field's last occurrence wins. |
| MessageBubble.InlineEntry | frontend/src/app/components/MessageBubble.js:111-114 | A non-object value becomes `{dayNumber, theme: String(val)}`. An object value keeps its fields, with `dayNumber` from the key digits unless the value overrides it. |
| MessageBubble.InlineEntries | frontend/src/app/components/MessageBubble.js:111-114 | One entry per key, none dropped, in order. |
| MessageBubble.InlineDays | frontend/src/app/components/MessageBubble.js:101-115 | An array passes through unchanged. For an object, day i is the normalised i-th entry of the entries sorted by the keys' digits. Anything else gives no days. |
| MessageBubble.InlineDaysOrder | frontend/src/app/components/MessageBubble.js:102-106 | An object itinerary's days come from a permutation of its entries, ordered by the keys' digits, with ties in object order. |
| MessageBubble.InlineGuardsIff | frontend/src/app/components/MessageBubble.js:98-117 | The inline itinerary passes the falsy and zero-day early returns (lines 98, 117) iff it is a non-empty array or a non-empty object. |
| MessageBubble.InlineDayNumbersAscending | frontend/src/app/components/MessageBubble.js:105-112 | When no value overrides `dayNumber`, the entries' day numbers are non-decreasing. |
| MessageBubble.ActivityText | frontend/src/app/components/MessageBubble.js:154 | A null activity fails. A string is kept. Otherwise the result is `description \|\| activity \|\| ""`. |
| MessageBubble.ExtractPlaceName | frontend/src/app/components/MessageBubble.js:37-46 | A result exists iff the capture trimmed has length 4..59, and then it is that trimmed capture. |
| MessageBubble.FieldChange | frontend/src/app/components/MessageBubble.js:210-212 | The edited key gets the new value and every other key keeps its value. |
| MessageBubble.FormSubmit | frontend/src/app/components/MessageBubble.js:214-217 | The current form is sent iff there is a handler, and the form is reset to empty either way. |
| MessageBubble.EditThenSubmit | frontend/src/app/components/MessageBubble.js:210-217 | Two edits to different keys, then a submit, send both values and leave an empty form. |
| TripPlanner.ListOf | frontend/src/app/components/TripPlannerView.js:176-178 | An array field gives Some of its items, and a falsy field gives Some([]). A truthy field that is not an array gives None, because the view's `filter`/`map` on it throws. |
| TripPlanner.MarkerLabelCode | frontend/src/app/components/TripPlannerView.js:52-54 | The label's UTF-16 code is 65+i: 'A' for 0 through 'Z' for 25, and '@' for -1. |
| TripPlanner.JsRem | frontend/src/app/components/TripPlannerView.js:393 | JavaScript `%` is the remainder of the quotient rounded toward zero: `a == b * JsQuot(a, b) + r`. A non-negative dividend gives the usual remainder, and a negative one gives a remainder in (-b, 0]. |
| TripPlanner.RouteColour | frontend/src/app/components/TripPlannerView.js:101 | Leg i is coloured with palette entry i mod 7. A negative index gives no colour unless it is a multiple of 7, which reads entry 0. |
| TripPlanner.LegColoursCycle | frontend/src/app/components/TripPlannerView.js:101 | Leg colours repeat with period 7. |
| TripPlanner.PlaceColour | frontend/src/app/components/TripPlannerView.js:251 | A place with route index i >= 0 gets palette entry (i mod 7). Index -1 reads `undefined` and falls back to the first colour "#6366f1". |
| TripPlanner.PlaceLabel | frontend/src/app/components/TripPlannerView.js:236-253 | Place i gets a letter iff some route entry is its name under `===`, namely the letter of its route index. Otherwise it gets "?". |
| TripPlanner.ServedIndex | frontend/src/app/components/TripPlannerView.js:385 | `indexOf` of a name that is no route entry itself: -1 iff no entry is `===` to it, else the first such entry. For a primitive name this is the structural `indexOf`. |
| TripPlanner.RouteIndex | frontend/src/app/components/TripPlannerView.js:236 | Place i's route index is -1 iff no route entry is its name under `===`, and otherwise the first entry that is. |
| TripPlanner.ServedRouteIndex | frontend/src/app/components/TripPlannerView.js:182 | On a served route a primitive name is found by content, and an array or object name is never found. |
| TripPlanner.MarkerBadge | frontend/src/app/components/TripPlannerView.js:385 | A marker is badged "H" iff it is a hotel. Any other marker gets the label code of its name's `===` route index, so an array or object name gets '@'. On a route of at most 26 names, a primitive name on the route gets the letter of its position. |
| TripPlanner.MarkerColour | frontend/src/app/components/TripPlannerView.js:393 | A hotel is amber. A place with a primitive name on the route gets palette entry (route index mod 7). A place off the route, or with an array or object name, gets no colour. |
| TripPlanner.MarkersOf | frontend/src/app/components/TripPlannerView.js:308-313 | A null entry throws (None). Otherwise marker i is built from the i-th entry whose lat and lng are both truthy: its lat, lng and name, and the given kind. |
| TripPlanner.AllMarkers | frontend/src/app/components/TripPlannerView.js:307-314 | A null entry in either list throws (None). Otherwise all hotel markers come before all place markers, and the count is the number of entries with truthy coordinates. |
| TripPlanner.UnmappedEntryHidden | frontend/src/app/components/TripPlannerView.js:311 | A non-null entry with a falsy lat or lng adds no marker wherever it stands in the list, and every other marker is unchanged. A null entry makes the marker list throw. |
| TripPlanner.PointFor | frontend/src/app/components/TripPlannerView.js:319-320 | A name has a point iff some marker's name is it under `===`, and the point is the first such marker's coordinates. |
| TripPlanner.RoutePath | frontend/src/app/components/TripPlannerView.js:317-322 | Point i is the position of the first marker named like the i-th route name that has a marker. There are never more points than names, and exactly as many when every name has a marker. |
| TripPlanner.NoMarkersNoPolyline | frontend/src/app/components/TripPlannerView.js:414 | With no markers the path is empty and no polyline is drawn. |
| Seqs.FilterNone | frontend/src/app/components/TripPlannerView.js:322 | Filtering where nothing passes leaves nothing. |
| TripPlanner.RouteKey | frontend/src/app/components/TripPlannerView.js:182-184 | A place's key is its `===` route index when it has one, and 999 otherwise. |
| TripPlanner.SortedPlaces | frontend/src/app/components/TripPlannerView.js:181-185 | The sorted list is a permutation of the places: shown place k is the place at position order[k]. |
| TripPlanner.SortedPlacesOrder | frontend/src/app/components/TripPlannerView.js:181-185 | The positions are ordered by route key, and ties keep their input order. For routes of at most 999 names, no unrouted place precedes a routed one. |
| TripPlanner.PlaceOrder | frontend/src/app/components/TripPlannerView.js:181-185 | The list order is a rearrangement of the positions 0..n-1 of the places. |
| TripPlanner.PlaceTiles | frontend/src/app/components/TripPlannerView.js:235-253 | Tile k shows shown place k, with the badge and colour of that place's own route index. |
| TripPlanner.UnroutedMarkerLabel | frontend/src/app/components/TripPlannerView.js:385-393 | A place marker whose name is off the route, or is an array or object, is labelled '@' and has no fill colour. |
| TripPlanner.StubsUnmapped | frontend/src/app/components/TripPlannerView.js:308-313 | The name stubs of the fallback route have no coordinates, so none of them is mapped. |
| TripPlanner.HotelStubUnmapped | frontend/src/app/components/TripPlannerView.js:308 | A hotel stub carrying only a name has no coordinates. |
| TripPlanner.StubsInRouteOrder | frontend/src/app/components/TripPlannerView.js:181-185 | When every route entry is found at its own position, the sort leaves the fallback stubs in route order, and tile k is stub k with letter k and colour k. |
| TripPlanner.FallbackRouteIndex | frontend/src/store/useChatStore.js:171-174 | On the fallback route stub i's index is i when its name is an array, and the first occurrence of its name otherwise. |
| TripPlanner.DistinctOwnPositions | frontend/src/app/components/TripPlannerView.js:182 | Distinct names are each found at their own position. |
| TripPlanner.NoMarkers | frontend/src/app/components/TripPlannerView.js:307-314 | When no hotel and no place has both coordinates, there is no marker, unless a null entry makes the list throw. |
| TripPlanner.FallbackView | frontend/src/app/components/TripPlannerView.js:307-322 | The fallback route shows no marker, no polyline, no legs and no transport options. |
| TripPlanner.FallbackMarkers | frontend/src/app/components/TripPlannerView.js:307-314 | Neither the place stubs nor the hotel stub of the fallback route becomes a marker. |
| TripPlanner.FallbackPlaceList | frontend/src/store/useChatStore.js:171-174 | The fallback place list is a permutation of the name stubs. It is exactly the stubs in order when every entry is found at its own position: always for the panel's day groups (arrays), and for distinct names. |
| ChatPage.UrlSelection | frontend/src/app/chat/page.js:41-48 | A non-empty URL id selects that session. An absent or empty one selects none. |
| ChatPage.NoUrlIdClearsConversation | frontend/src/app/chat/page.js:45-46 | Without a URL id the page makes no session current, clears the bubbles and the itinerary, and fetches no conversation. The session list refresh at line 42 runs either way and is `ChatStore.FetchSessionsComplete`. |
| ChatPage.UrlIdOpensConversation | frontend/src/app/chat/page.js:43-44 | A URL id makes that session current and fetches it. |
| ChatPage.UrlToPush | frontend/src/app/chat/page.js:35-39 | The page navigates iff a session is current and the URL has no id, and then to `/chat?id=<current>`. |
| ChatPage.HandleSend | frontend/src/app/chat/page.js:56-67 | A blank input, or a send already loading, is a no-op. Otherwise the input is cleared and sent verbatim. |
| ChatPage.SendGuardBlocksOverlap | frontend/src/app/chat/page.js:58 | Once a send has begun, any further send is blocked until it completes. |
| ChatPage.FormSubmission | frontend/src/app/chat/page.js:69-75 | A form submission begins a send at once: the bubble "Information updated." carrying the form data is appended, and the pending send remembers that text, the form data and the session current at the start. |
| ChatPage.FormSubmissionUnguarded | frontend/src/app/chat/page.js:58-75 | While a send is loading, a typed message is refused, but a form submission still goes out and adds a bubble. |
| ChatPage.SplitViewTransitions | frontend/src/app/chat/page.js:86 | With a truthy current itinerary, a confirm that ends in truthy route data (the server's, or the fallback) shows the split view. Clearing the trip hides it. |
| ChatPage.SessionTitle | frontend/src/app/chat/page.js:99 | No current id gives no title. When a session has the current id, the title is that of the first such session. When none has it, there is no title. |
| ChatPage.HeaderTitle | frontend/src/app/chat/page.js:99-165 | The header is the session's title when truthy. Otherwise the split view shows "Trip Planner", an open session shows "Active Consultation", and no session shows "New Consultation". |
| AuthOverlay.RawAuthError | frontend/src/app/components/AuthOverlay.js:43 | The error text is the response detail if non-empty, else the message if non-empty, else "Authentication failed". |
| AuthOverlay.InvalidHintIsProse | frontend/src/app/components/AuthOverlay.js:45 | The sign-up hint is made only of letters, spaces and `. , '`. |
| AuthOverlay.RegisteredHintIsProse | frontend/src/app/components/AuthOverlay.js:48 | The already-registered text is made only of letters, spaces and `. , '`. |
| AuthOverlay.ProseMentionsNoMarker | frontend/src/app/components/AuthOverlay.js:44-49 | Such prose contains none of the six error markers the two rewrites look for. |
| AuthOverlay.HintsAreStable | frontend/src/app/components/AuthOverlay.js:44-49 | Neither hint mentions a marker of either rewrite, so rewriting a hint again leaves it as it is. |
| AuthOverlay.RewriteAuthError | frontend/src/app/components/AuthOverlay.js:44-49 | An invalid-credential marker gives the sign-up hint. Otherwise an existing-email marker gives the registered text. Otherwise the message is kept. |
| AuthOverlay.RewriteIdempotent | frontend/src/app/components/AuthOverlay.js:44-49 | Rewriting twice equals rewriting once. |
| AuthOverlay.AuthErrorMessage | frontend/src/app/components/AuthOverlay.js:43-50 | The shown error is one of the two fixed texts or the raw error text, and is never empty. |
| AuthOverlay.SubmitBegin | frontend/src/app/components/AuthOverlay.js:27-28 | Submit sets loading and clears the error, and changes nothing else. |
| AuthOverlay.SubmitComplete | frontend/src/app/components/AuthOverlay.js:30-53 | Loading ends on both paths. A login success closes the overlay. A registration success sets the success flag without closing it. A failure shows the mapped message. |
| Sidebar.IsActiveIff | frontend/src/app/components/Sidebar.js:36 | A nav item is active iff the path equals its href or continues it with "/". |
| Sidebar.Recent | frontend/src/app/components/Sidebar.js:53-56 | The recent list is the first min(5, n) sessions in order, so it is empty for no sessions. |
| Sidebar.DeleteTarget | frontend/src/app/components/Sidebar.js:69 | Row i's delete button passes row i's own id. |
| Sidebar.DeleteButtonRemovesRow | frontend/src/app/components/Sidebar.js:56-69 | A successful delete from row i removes that row's session and keeps every session with another id. |
| TravelAi.AiContent | backend/services/travel_ai_service.py:83-86 | A dict output becomes its rendered text (`json.dumps` here, `str()` in the agent). Any other output is kept. |
| TravelAi.ExchangeMessages | backend/services/travel_ai_service.py:79-86 | A stored message gives `Human(user_input or '')` then `AI(output or '')`. It fails iff the message is not a dict. |
| TravelAi.HistoryMessages | backend/services/travel_ai_service.py:79-86 | 2n messages: slice `[2i, 2i+2)` is the i-th exchange, and the whole succeeds iff every message is a dict. |
| TravelAi.PastMessages | backend/services/travel_ai_service.py:78-79 | A missing `messages` key means empty history. Otherwise the loop visits what Python iteration gives: a list's items, a dict's keys, a string's characters. A non-dict history, or messages that are not iterable, fail. |
| TravelAi.BuildChain | backend/services/travel_ai_service.py:74-88 | The chain is System first, then the history, then `Human(user_input)` last, so its length is 2n+2. |
| TravelAi.NoMessagesKeyMeansEmptyHistory | backend/services/travel_ai_service.py:78-88 | An empty history dict gives exactly `[System, Human(input)]`. |
| TravelAi.MessagesIterated | backend/services/travel_ai_service.py:78-88 | Empty messages of any iterable kind (list, dict or string) give exactly `[System, Human(input)]`. A non-empty dict or string fails, because `.get` is called on a string key or character. |
| TravelAi.PySlice | backend/services/travel_ai_service.py:96-98 | Python's `s[a:-b]` is the middle slice, or "" when the ends overlap. |
| TravelAi.CleanReply | backend/services/travel_ai_service.py:94-98 | The cleaned reply is a contiguous piece of the model's reply, with no whitespace at either end. |
| TravelAi.Unfence | backend/services/travel_ai_service.py:95-98 | An unfenced text is kept as it is. A text opening with a fence loses it: the result is a shorter piece of the text, with no whitespace at either end. |
| TravelAi.CutPiece | backend/services/travel_ai_service.py:96-98 | Dropping a fence's characters at the ends and stripping leaves a strictly shorter, trimmed piece of the text, or "" when the ends overlap. |
| TravelAi.StripFenced | backend/services/travel_ai_service.py:94 | A string with no whitespace at either end is its own strip. |
| TravelAi.CleanFenced | backend/services/travel_ai_service.py:94-98 | A reply that starts and ends with a backtick is not changed by the first strip, so only the fence handling applies. |
| TravelAi.JsonFenceRoundTrip | backend/services/travel_ai_service.py:94-96 | A reply "```json" + body + "```" is cleaned to the stripped body. |
| TravelAi.PlainFenceNotJson | backend/services/travel_ai_service.py:95-97 | A plain fence around a body that does not begin with "json" is not taken for a JSON fence. |
| TravelAi.PlainFenceRoundTrip | backend/services/travel_ai_service.py:97-98 | A reply "```" + body + "```" is cleaned to the stripped body, provided the body does not begin with "json". |
| TravelAi.UnfencedReplyIsStripped | backend/services/travel_ai_service.py:94-98 | A reply that does not start with a fence after stripping is only stripped. |
| TravelAi.ParseReply | backend/services/travel_ai_service.py:100-108 | Valid JSON is returned as parsed. Otherwise the result is `{text: cleaned, ui_elements: None, itinerary: None}`. |
| TravelAi.Answer | backend/services/travel_ai_service.py:94-108 | When the cleaned reply parses, the answer is the parsed value. Otherwise it is `{text: cleaned reply, ui_elements: None, itinerary: None}`. |
| AiAgent.Window | backend/services/ai_agent.py:66 | The window is the last min(5, n) turns, in original order. |
| AiAgent.TurnMessages | backend/services/ai_agent.py:67-70 | A turn gives `Human(user_input)` then `AI(output)`. It fails iff either key is missing. |
| AiAgent.ChatHistory | backend/services/ai_agent.py:65-71 | Length 2n, alternating Human then AI per turn. It succeeds iff every turn has both keys. |
| AiAgent.ChatHistoryAppend | backend/services/ai_agent.py:65-71 | The history of concatenated turn lists is the concatenation of their histories. |
| AiAgent.WindowIsTailOfHistory | backend/services/ai_agent.py:65-71 | The windowed history is exactly the last 2·min(5, n) messages of the full history. |
| AiAgent.Prompt | backend/services/ai_agent.py:58-73 | The prompt is system, then the windowed history, then the human input, so its length is 2·min(5, n)+2. |
| IngestReviews.Items | backend/services/ingest_reviews.py:53-59 | With a `transport_agencies` key, the items are what iterating that value yields. Otherwise they are what iterating the data yields. |
| IngestReviews.ListFileItems | backend/services/ingest_reviews.py:55-56 | A top-level list is iterated as is. |
| IngestReviews.ItemId | backend/services/ingest_reviews.py:61 | The id is `str()` of the first truthy of id, hotel_id and agency_id. |
| IngestReviews.ItemName | backend/services/ingest_reviews.py:62 | The name is the truthy `name`, else `agency_name`. |
| IngestReviews.ItemReviewsFacts | backend/services/ingest_reviews.py:64-69 | Without a truthy description the reviews are what iterating `reviews` (default []) yields. With one, it is appended after them as one extra review, rated `scores.user_rating` or 5.0, and the append fails unless `reviews` is a list and `scores` a dict. |
| IngestReviews.ReviewStepFacts | backend/services/ingest_reviews.py:71-91 | A review without truthy text adds nothing. Otherwise it adds one vector: id `{kind}_{item}_{i}`, the raw text as metadata, and the rating converted to float. |
| IngestReviews.TextPositions | backend/services/ingest_reviews.py:71-73 | The positions are exactly the increasing indices of reviews with text. |
| IngestReviews.TextPositionsCount | backend/services/ingest_reviews.py:71-73 | There are as many positions as reviews with text. |
| IngestReviews.ReviewVectors | backend/services/ingest_reviews.py:71-91 | One vector per review with text, in order. The k-th vector's id carries the list index of that review, not k. |
| IngestReviews.ReviewVectorsContents | backend/services/ingest_reviews.py:71-91 | The k-th vector is exactly the one the k-th review with text yields at its own list position: its text, its rating, its enriched text and its id. |
| IngestReviews.ItemIdsDistinct | backend/services/ingest_reviews.py:82 | Within one item, the vector ids are pairwise distinct. |
| IngestReviews.VectorIdInjective | backend/services/ingest_reviews.py:82 | Different indices give different ids. |
| IngestReviews.ReviewVectorCount | backend/services/ingest_reviews.py:71-91 | An item yields as many vectors as it has reviews with text. |
| IngestReviews.ItemVectorsFacts | backend/services/ingest_reviews.py:59-91 | An item that yields vectors is a dict whose reviews resolve. It yields one vector per review with text, each tagged with the item's id, name and kind, under pairwise distinct ids. |
| IngestReviews.StreamOf | backend/services/ingest_reviews.py:59-91 | The vector stream exists iff every item's vectors do. |
| IngestReviews.StreamOfFlatten | backend/services/ingest_reviews.py:59-91 | The stream is the concatenation of the items' vector lists, in item order. |
| IngestReviews.Chunks | backend/services/ingest_reviews.py:93-99 | The batches concatenate to the stream. Each has 1..50 vectors, and all but the last have exactly 50. |
| IngestReviews.Upserts | backend/services/ingest_reviews.py:93-99 | The batch loop upserts the whole stream in order. Every batch has 1..50 vectors. If the count is a multiple of 50 every batch is full; otherwise all but the last are full and the last has count mod 50. |
| IngestReviews.ChunksSizes | backend/services/ingest_reviews.py:93-99 | There are ⌈n/50⌉ batches, and the last has n mod 50 vectors when that is non-zero. |
| IngestReviews.ChunksOfFullBatches | backend/services/ingest_reviews.py:94-99 | Full batches followed by the non-empty remainder are the reference chunking. |
| IngestReviews.Ingest | backend/services/ingest_reviews.py:44-99 | Ingestion succeeds iff item selection and every item's vectors do. The upserts are the chunking of the whole stream. |
| BuildGraph.HotelArea | backend/services/build_graph.py:62-63 | A missing location gives 'Chennai'. A dict location gives its area, or 'Chennai'. Any other value, null included, is kept. |
| BuildGraph.NullLocationKept | backend/services/build_graph.py:62-63 | An explicit null location is kept as null. |
| BuildGraph.HotelRecordOf | backend/services/build_graph.py:65-72 | A record exists iff hotel_id, name, latitude and longitude are present and convert to floats. `rooms` defaults to []. |
| BuildGraph.HotelRecords | backend/services/build_graph.py:60-72 | One record per hotel, in order. |
| BuildGraph.IngestHotels | backend/services/build_graph.py:57-72 | Ingestion gives as many records as the data yields hotels. |
| BuildGraph.MapUrl | backend/services/build_graph.py:95-96 | A dict location gives its `map_url`, or ''. Otherwise ''. |
| BuildGraph.ProcessAgency | backend/services/build_graph.py:95-97 | A dict agency gains `map_url_str`, and every other field is unchanged. A non-dict agency fails. |
| BuildGraph.ProcessAgencies | backend/services/build_graph.py:93-97 | One processed record per agency, in input order. |
| BuildGraph.IngestTransport | backend/services/build_graph.py:91-97 | A missing `transport_agencies` key gives no agencies. A value that Python cannot iterate crashes. Otherwise every agency is processed. |
| BuildGraph.ProcessAgencyIdempotent | backend/services/build_graph.py:96 | Processing an agency twice equals processing it once. |
| UserRoutes.FilterUpdates | backend/routes/user.py:90-91 | Every kept field is allowed and comes from the body, and there are never more fields than in the body. |
| UserRoutes.FilterUpdatesFields | backend/routes/user.py:90-91 | An allowed key reads in the filtered body exactly as in the request. Any other key is absent. |
| UserRoutes.FilterUpdatesIdempotent | backend/routes/user.py:91 | Filtering twice equals filtering once. |
| UserRoutes.Written | backend/routes/user.py:90-93 | The write holds every allowed field of the body with its requested value, no other request field, and `updated_at` set to the current time (firestore_service.py line 78). |
| UserRoutes.UpdateProfile | backend/services/firestore_service.py:73-87 | The write is the filtered body plus `updated_at`. A successful store update replies with the fixed message whatever survived. A failing one replies 500 with "Failed to update profile: " and the error. |
| UserRoutes.IdentityFieldsDropped | backend/routes/user.py:90-94 | An update of only email and uid writes just the `updated_at` stamp, and still reports success. |
| AuthService.RegisterUser | backend/services/auth_service.py:33-50 | A duplicate email gives 409. Any other failure gives 500 "Failed to create user: …". Success returns the uid. |
| AuthService.RegisterErrorStatuses | backend/services/auth_service.py:41-50 | A failed registration gives 409 iff the email exists, and otherwise 500. |
| AuthService.ClassifyLoginMessage | backend/services/auth_service.py:70-83 | INVALID_PASSWORD or EMAIL_NOT_FOUND gives 401. Otherwise USER_DISABLED gives 403. Otherwise 400 "Firebase login error: msg". |
| AuthService.ClassifyLoginValue | backend/services/auth_service.py:70-83 | A string message is classified as text. A list is tested by membership and a dict by key, with the same precedence: 401, then 403, then 400 with the message's Python text. Any other message value has no classification, because `in` raises on it. |
| AuthService.LoginUser | backend/services/auth_service.py:67-85 | Status 200 returns the body unchanged. Otherwise a string message m gives the classification of m, and a missing message reads as "Login failed". A body or error value that is not a dict crashes, and so does a message the `in` test cannot take. Every rejection is 400, 401 or 403. |
| AuthService.DefaultMessageUnmarked | backend/services/auth_service.py:68 | The default message carries no classification marker. |
| AuthService.MissingMessageIsGenericError | backend/services/auth_service.py:67-83 | A failed sign-in without an error body gives 400 "Firebase login error: Login failed". |
| AuthService.CredentialsCheckedFirst | backend/services/auth_service.py:70-79 | A message carrying both a credential marker and USER_DISABLED is classified 401. |
| AuthService.DeleteUser | backend/services/auth_service.py:88-95 | Deletion never fails. It removes exactly that uid when the provider succeeds, and otherwise changes nothing. |
| AuthService.VerifyToken | backend/services/auth_service.py:98-120 | Every failure is 401. Expired, invalid and other failures have their own details. |
| Models.Failing | backend/models/user.py:15-33 | The reported errors are exactly the failing checks, and there are none iff every check passes. |
| Models.ValidateProfileRequest | backend/models/user.py:15-33 | Acceptance holds all the constraints: full name 2..100, an address the e-mail validator accepts, password ≥ 6, country ≥ 2, travel styles non-empty from five literals, 1..3 interests from eight literals, and a budget from three. The e-mail is stored in the validator's normalised form and the other fields are copied. A rejection lists exactly the failing constraints. |
| Models.ValidateAuthRequest | backend/models/auth.py:3-7 | Acceptance means full name 2..100, an accepted e-mail, password ≥ 6 and country ≥ 2. The e-mail is the normalised address and the other fields are copied. A rejection lists exactly the failing constraints. |
| Models.ValidateLoginRequest | backend/models/auth.py:10-12 | A login request is valid iff the validator accepts the email and the password is any string. The request holds the normalised address. |
| Models.ProfileRequestProjects | backend/models/auth.py:3-7 | A body valid as a profile registration is also valid as the shorter auth registration, with the same four fields. |
| Models.AuthRequestIgnoresPreferences | backend/models/auth.py:3-7 | Adding a travel_style field does not change what the auth registration model yields. |
| Models.LoginAcceptsEmptyPassword | backend/models/auth.py:10-12 | An empty password passes login validation, with the normalised address. |
| Models.OptionalStr | backend/models/user.py:51 | A missing or null optional field reads as None, and a string is kept. |
| Models.ValidateProfileResponse | backend/models/user.py:43-51 | A stored profile is accepted iff the six string fields and the two string lists are present and well typed, and `created_at` is absent, null or a string. An accepted profile copies the fields, with `created_at` defaulting to None. A rejection names at least one field. |
| AuthRoutes.Rollback | backend/routes/auth.py:71-77 | Rollback deletes only the auth user, leaves every profile in place, and answers 500 with "Profile save failed. Registration rolled back. Error: …". |
| AuthRoutes.RegisterIntended | backend/routes/auth.py:35-81 | If account creation fails, nothing is written and the creation error is returned. Otherwise the account survives unless rolled back. A success has both the account and the profile. |
| AuthRoutes.CreateFailureWritesNothing | backend/routes/auth.py:45-49 | When account creation fails, no profile write happens. |
| AuthRoutes.IntendedLeavesNoOrphan | backend/routes/auth.py:61-77 | A failure after creation deletes the new account and answers 500. |
| AuthRoutes.RollbackKeepsWrittenProfile | backend/routes/auth.py:61-77 | A failure after the profile save removes the account but leaves the profile. |
| AuthRoutes.RegisterAsWritten | backend/routes/auth.py:45-59 | As written, every registration whose account creation succeeds ends in an unhandled error. |
| AuthRoutes.AsWrittenOrphansAccount | backend/routes/auth.py:45-59 | As written, a successful account creation leaves the account with no profile and no rollback. |
| AuthRoutes.DisplayName | backend/routes/auth.py:105-110 | A missing profile gives "", and otherwise the result is the profile's `full_name` or "". |
| AuthRoutes.Login | backend/routes/auth.py:90-119 | A rejected sign-in is passed through, and a crash stays unhandled. A successful sign-in is answered iff the reply has the five string fields and the display name is a string. The answer copies the uid from `localId`, the tokens and the e-mail. Any other reply is unhandled. |
| AuthRoutes.LoginWithoutProfile | backend/routes/auth.py:103-119 | A signed-in user with no profile still gets tokens, with an empty full name. |
| Json.JsFalsyValues | frontend/src/app/components/ItineraryPanel.js:84 | A value is falsy in JavaScript iff it is `null`, `false`, `0` or the empty string; arrays and objects, even empty ones, are truthy. |
| Json.PyTruthyJsTruthy | backend/services/ingest_reviews.py:72 | A value Python finds truthy is truthy in JavaScript too, and the two disagree exactly on the empty list and the empty dict. |
| Json.Lookup | backend/services/build_graph.py:62 | A dict lookup finds the first field with that key, or reports that the key is absent. |
| Json.Get | frontend/src/app/components/ItineraryPanel.js:89-95 | Reading a property gives the value of the first field with that name, and `undefined` when the value is not an object or has no such field. |
| Json.PyGet | backend/services/build_graph.py:62 | `d.get(k, default)` gives the first field with that key, and the default only when the key is absent. |
| Json.SetField | backend/services/build_graph.py:96 | Assigning a key sets it, and every other key keeps its value. |
| Json.SetFieldAgain | backend/services/build_graph.py:96 | Assigning the same key the same value twice equals assigning it once. |
| Json.Iterate | backend/services/ingest_reviews.py:59 | Python iteration yields a list's items, a dict's keys or a string's characters. Any other value fails. |
| Seqs.Last | backend/services/ai_agent.py:66 | `s[-n:]` is the last min(n, \|s\|) elements. |
| Seqs.Take | frontend/src/app/components/Sidebar.js:56 | `slice(0, n)` is the first min(n, \|s\|) elements. |
| Seqs.IndexOf | frontend/src/app/components/TripPlannerView.js:182 | `indexOf` by content, which is what `===` does for primitives: -1 iff the element is absent, and otherwise its first position. |
| Seqs.Find | frontend/src/app/components/TripPlannerView.js:319 | `find` returns nothing iff no element matches, and otherwise a matching element. |
| Seqs.Filter | frontend/src/app/components/TripPlannerView.js:308 | `filter` keeps only elements that pass, and every element that passes appears in the result. |
| Seqs.FilterMultiset | frontend/src/app/components/TripPlannerView.js:308 | `filter` keeps each passing element exactly as many times as it occurs, and no failing one. |
| Seqs.FilterAppend | frontend/src/app/components/TripPlannerView.js:308 | Filtering a concatenation filters each part and concatenates, so the kept elements stay in their original order. |
| Seqs.FilterSkip | frontend/src/app/components/TripPlannerView.js:311 | An element that fails the test can be removed from anywhere in the input without changing the filtered result. |
| Seqs.MapAll | backend/services/build_graph.py:60-72 | A list comprehension that can raise: it succeeds iff every element converts, and then holds each element's result at the element's position. |
| Seqs.FlatMapAll | backend/services/ingest_reviews.py:59-91 | Collecting each element's results succeeds iff every element succeeds. |
| Seqs.FlatMapAllFlatten | backend/services/ingest_reviews.py:59-91 | A successful collection is the elements' results concatenated in element order. |
| Seqs.FlatMapAllAppend | backend/services/ai_agent.py:65-71 | Collecting over two runs one after the other gives the two collections one after the other. |
| Seqs.FlatMapPairs | backend/services/ai_agent.py:65-71 | When every element gives two messages, result slice `[2i, 2i+2)` holds element i's pair. |
| Text.IndexOfChar | frontend/src/app/components/ItineraryPanel.js:133 | `indexOf(":")` is -1 iff there is no ':', and otherwise its first position. |
| Text.Split | frontend/src/app/components/MessageBubble.js:52 | `split("\n")` gives at least one part, and no part contains the separator. |
| Text.JoinSplit | frontend/src/app/components/MessageBubble.js:52 | Joining the split lines gives back the text. |
| Text.SplitCount | frontend/src/app/components/ItineraryPanel.js:395 | `split(" ")` gives one more part than the text has spaces. |
| Text.SplitPrefixCount | frontend/src/app/components/ItineraryPanel.js:395 | Rejoining the first k parts gives a text with k-1 separators. |
| Text.SplitPrefixNext | frontend/src/app/components/ItineraryPanel.js:395 | When parts remain after the first k, the rejoined prefix is followed in the text by the separator. |
| Text.KeyNumberOfLabel | frontend/src/app/components/ItineraryPanel.js:103-104 | A key made of a digit-free prefix and the decimal text of n, as `day_12`, has the number n. |
| Text.KeyNumberWithoutDigits | frontend/src/app/components/ItineraryPanel.js:103-104 | A key without digits has the number 0, because `parseInt` of the empty string is NaN and `\|\| 0` maps it to 0. |
| Text.StripIsInnerSlice | backend/services/travel_ai_service.py:94 | Stripping keeps a contiguous piece of the text whose two ends are not blanks, and everything cut away is blank. |
| Text.StripIdempotent | backend/services/travel_ai_service.py:94 | Stripping twice equals stripping once. |
| Text.NatToString | backend/services/ingest_reviews.py:82 | The decimal text of an index is a non-empty run of digits. |
| Text.NatToStringRoundTrip | backend/services/ingest_reviews.py:82 | Reading the decimal text back gives the index. |
| Sorting.SortByFacts | frontend/src/app/components/TripPlannerView.js:181-185 | The sort used by `Array.prototype.sort` is a stable permutation that is ordered by key. |
| Sorting.SortBySorted | frontend/src/app/components/TripPlannerView.js:181-185 | A sequence already ordered by key comes out of the stable sort unchanged. |
| Sorting.PickMultiset | frontend/src/app/components/TripPlannerView.js:181 | Reading a list at two rearrangements of the same positions gives the same multiset of elements. |
| Sorting.PositionsBound | frontend/src/app/components/TripPlannerView.js:181 | A rearrangement of the positions 0..n-1 names only positions below n. |

## Examples

Concrete instances of the properties above, each proved about the model.

| member | source | states |
|---|---|---|
| ItineraryPanel.DayKeyNumbers | frontend/src/app/components/ItineraryPanel.js:103 | The keys "day_1" and "day_2" carry the numbers 1 and 2. |
| ItineraryPanel.SortTwoSwaps | frontend/src/app/components/ItineraryPanel.js:102-106 | Two entries out of key order are swapped by the sort. |
| ItineraryPanel.TwoEmptyDays | frontend/src/app/components/ItineraryPanel.js:107-121 | Two empty day objects in key order give two days, in that order. |
| ItineraryPanel.ObjectKeysOrderDays | frontend/src/app/components/ItineraryPanel.js:100-121 | `{day_2: {}, day_1: {}}` gives day 1 and then day 2. |
| MessageBubble.NumberedExample | frontend/src/app/components/MessageBubble.js:71-80 | "12. Fort" is numbered 12 with body "Fort". |
| MessageBubble.ExampleIsTrimmed | frontend/src/app/components/MessageBubble.js:57 | That example line is already trimmed. |
| MessageBubble.ExampleItem | frontend/src/app/components/MessageBubble.js:71 | The numbered pattern splits that example into "12" and "Fort". |
| MessageBubble.ExampleDigits | frontend/src/app/components/MessageBubble.js:71 | The leading digit run of "12. Fort" is "12". |
| MessageBubble.ExampleBlank | frontend/src/app/components/MessageBubble.js:71 | The blank run after the dot, in " Fort", is a single space. |
| Sidebar.BarePrefixInactive | frontend/src/app/components/Sidebar.js:36 | "/chatx" does not activate "/chat"; "/chat/abc" does. |
| TripPlanner.ZeroCoordinateHidden | frontend/src/app/components/TripPlannerView.js:311 | A place at latitude 0 gets no marker. |
| TripPlanner.RepeatedGroupKeepsItsLetter | frontend/src/app/components/ItineraryPanel.js:386-397 | Day groups [["Marina Beach"],["Fort"],["Marina Beach"]] keep their order in the fallback list, and the third tile is lettered C. |
| MessageBubble.NoWholeTextFallback | frontend/src/app/components/MessageBubble.js:37-46 | A text of 4..39 characters that neither component's pattern matches gives null here, while the panel's version returns the trimmed text. |
| AuthService.TokenDetailsDistinct | backend/services/auth_service.py:106-120 | The three failure details differ from each other. |

## Left out

- Network, database and clock I/O are parameters, not behaviour. This covers Firestore, Firebase Auth, the axios client, LangChain and the LLM, embeddings, Pinecone and Neo4j Cypher. Their outcomes enter the complete steps as `Result` values. Temporary ids and ISO timestamps are parameters too.
- Concurrency is not modelled. Each action is a begin/complete pair taken in sequence, and interleavings are shown only by composing the steps (`ChatStore.StaleSessionResponseCommitted`, `ChatStore.SendUsesSessionReadAtStart`).
- `fetchSessions` takes no argument in the store, so the limit some callers pass is not modelled.
- Floating-point numbers: ratings, coordinates and road-time rounding are `real` values or the result of a `toFloat` parameter. Only truthiness of coordinates (0 is falsy) is modelled.
- Regular expressions are capture parameters. This covers the place-name capture of `extractPlaceName` and the inline markdown of `formatInline` (HTML output, not modelled). The bullet and numbered tests of `RichText` are written out.
- `JSON.stringify`, `json.dumps`, `json.loads`, Python `str()` and `String()` are parameters, so nothing is claimed about their text.
- JavaScript `null` and `undefined` are one value. Object key enumeration order is insertion order; integer-like keys, which JavaScript enumerates first, are not reordered.
- String lengths count characters, not UTF-16 code units. Emoji in the decoration list count as single characters.
- Rendering is not modelled: Google Maps, markers' pixel styles, Tailwind classes and React effects. The nav list's other styling is left out too.
- The re-thrown error of a failed send is recorded in the result (`returned`), not as control flow.
- Pydantic's coercion and the `EmailStr` syntax are not modelled. The validators take strings and lists as given. The e-mail validator is a `checkEmail` parameter that returns the normalised address (as `EmailStr` lower-cases the domain) or nothing.
- AuthService.LoginUser: a body or error value that is not a dict crashes, because `.get` raises `AttributeError`. A message that is not a string, list or dict crashes too, because `in` raises `TypeError`. The text `str()` gives a list or dict message is the parameter `pyStr`.
- TripPlanner.MarkerBadge: the A..Z bound is stated only for routes of at most 26 names. Past that, `String.fromCharCode(65 + i)` runs on into '[' and beyond, and the label code is still given exactly by `MarkerLabelCode`.
- TripPlanner.SortedPlacesOrder: the "routed before unrouted" ordering is stated only for routes of at most 999 names. The sentinel key 999 ties with, and can sort after, route positions of 999 or more.
- TripPlanner.FallbackPlaceList: the exact order is stated when every route entry is found at its own position, which covers the panel's day groups and distinct names. With repeated primitive names (strings), a later duplicate is keyed to the first occurrence and can move forward, and only the permutation is promised.
- TripPlanner.Origin: object identity is not part of the JSON model. Which array is which object is given by the route's origin: a served route shares no arrays or objects between its lists, and on the fallback route stub i's name is route entry i itself. A fallback route built from other data than its own name stubs is not modelled.
- TripPlanner.SortedPlaces: a null place is read as having a null name rather than throwing in the comparator. The same list makes `AllMarkers` throw in the same render, so the view fails either way.
- MessageBubble.InlineGuardsIff: only the two early returns are characterised. An itinerary that passes them can still throw later in the render: a null day at `day.activities` (line 135), or a non-array `activities` at `activities.map` (line 153).
- IngestReviews.ItemIdsDistinct: vector ids are proved distinct only within one item. Two items whose ids print alike, or an item with a falsy id (`str(None)` is "None"), can collide across items.
- IngestReviews.Ingest: a crash midway through a file leaves the batches already upserted in the index. The model returns `None` for the whole run.
- The upsert of the embedding values is modelled as the vector record without its embedding.
- Profile and conversation endpoints of `routes/user.py`, other than `update_profile`, are thin Firestore calls and are not modelled.
- Booking and chat schemas have no constraints to model.
- ChatStore.SendErrorText: the response detail is modelled as a string. FastAPI's 422 validation detail is a list of objects. JavaScript would treat that list as truthy and show it as the error, and the model does not cover that case.
- AuthOverlay.RawAuthError: the response detail is modelled as a string, as for `ChatStore.SendErrorText`. A 422 detail list is not modelled.
- AuthRoutes.RegisterIntended: `send_verification_email` is imported by `routes/auth.py` (line 21) but `services/auth_service.py` defines no such function, so importing the router fails and the application does not start (`main.py` line 13). `RegisterEffects.emailError` models the outcome of the call the route evidently means to make, not of any code in the repository.
- `Json.FieldOf` and `Json.Lookup` return the first field with a given key. `JSON.parse` and Python dicts keep the last one. Objects that come from parsing have unique keys, so the two agree on them, and only hand-built objects with repeated keys differ.

## Findings

| source | as written | input that shows it | evidently intended | confidence | as-written member | corrected member |
|---|---|---|---|---|---|---|
| backend/routes/auth.py:52-59 | `register` takes the request model from `models/auth.py`, which has no `travel_style`, `interests` or `budget`. It reads those three attributes while building the profile, after step 1 has created the Firebase account and outside the `try` whose `except` rolls back. The read raises, so the request fails with an unhandled error and the new account is left with no profile and no rollback. | Any valid registration body (full name, e-mail, password, country) whose account creation succeeds. | Validate with the profile request model of `models/user.py`, which has the preference fields, so the profile is built and saved. A failure after creation deletes the account and answers 500. That model requires the three preference fields with no default, and the sign-up form sends none of them (frontend/src/services/api.js lines 21-22), so a form registration would then be refused with 422 unless the fields get defaults or the form sends them. | not executed | AuthRoutes.RegisterAsWritten (with AuthRoutes.AsWrittenOrphansAccount) | AuthRoutes.RegisterIntended (with AuthRoutes.IntendedLeavesNoOrphan) |

=== FILE: AiAgent.dfy ===
/** The planner agent's prompt: the system prompt, the last five turns of history, then the user's input. */
module AiAgent {
  import opened Wrappers
  import opened Json
  import opened Seqs
  import TravelAi

  type ChatMsg = TravelAi.ChatMsg

  /** `history[-5:]`: the last `min(n, 5)` turns, in their order. */
  function Window(history: seq<J>): (r: seq<J>)
    ensures |r| == Min(5, |history|)
    ensures r == history[|history| - |r|..]
  {
    Last(history, 5)
  }

  /**
   * One turn as a user message then an assistant message. `None` when the
   * turn is not a dict or lacks `user_input` or `ai_generated_output`,
   * where the subscript raises.
   */
  function TurnMessages(h: J, pyStr: J -> string): (r: Option<seq<ChatMsg>>)
    ensures r.Some? <==> Lookup(h, "user_input").Some? && Lookup(h, "ai_generated_output").Some?
    ensures r.Some? ==> r.value == [TravelAi.Human(Lookup(h, "user_input").value),
                                     TravelAi.Ai(TravelAi.AiContent(Lookup(h, "ai_generated_output").value, pyStr))]
  {
    match (Lookup(h, "user_input"), Lookup(h, "ai_generated_output"))
    case (Some(u), Some(out)) => Some([TravelAi.Human(u), TravelAi.Ai(TravelAi.AiContent(out, pyStr))])
    case _ => None
  }

  /** `chat_history` for some turns: two messages per turn, user first, in turn order. */
  function ChatHistory(turns: seq<J>, pyStr: J -> string): (r: Option<seq<ChatMsg>>)
    ensures r.Some? <==> forall i :: 0 <= i < |turns| ==> TurnMessages(turns[i], pyStr).Some?
    ensures r.Some? ==> |r.value| == 2 * |turns|
    ensures r.Some? ==> forall i :: 0 <= i < |turns| ==>
              r.value[2 * i..2 * i + 2] == TurnMessages(turns[i], pyStr).value
  {
    var f := (h: J) => TurnMessages(h, pyStr);
    var r := FlatMapAll(turns, f);
    assert r.Some? ==> forall i :: 0 <= i < |turns| ==> f(turns[i]).Some? && |f(turns[i]).value| == 2;
    if r.Some? then FlatMapPairs(turns, f); r else r
  }

  /** Converting two stretches of turns one after the other is converting them together. */
  lemma ChatHistoryAppend(a: seq<J>, b: seq<J>, pyStr: J -> string)
    requires ChatHistory(a + b, pyStr).Some?
    ensures ChatHistory(a, pyStr).Some? && ChatHistory(b, pyStr).Some?
    ensures ChatHistory(a + b, pyStr).value == ChatHistory(a, pyStr).value + ChatHistory(b, pyStr).value
  {
    FlatMapAllAppend(a, b, (h: J) => TurnMessages(h, pyStr));
  }

  /**
   * The prompt's history is the tail of the whole conversation's: the last
   * `2 * min(n, 5)` messages of converting every turn.
   */
  lemma WindowIsTailOfHistory(history: seq<J>, pyStr: J -> string)
    requires ChatHistory(history, pyStr).Some?
    ensures ChatHistory(Window(history), pyStr).Some?
    ensures var all := ChatHistory(history, pyStr).value;
            ChatHistory(Window(history), pyStr).value == all[|all| - 2 * Min(5, |history|)..]
  {
    var w := Window(history);
    var k := |history| - |w|;
    assert history == history[..k] + w;
    ChatHistoryAppend(history[..k], w, pyStr);
  }

  /** The prompt: the system message, the windowed history, then the user's input. */
  function Prompt(systemPrompt: string, history: seq<J>, input: string, pyStr: J -> string): (r: Option<seq<ChatMsg>>)
    ensures r.Some? <==> ChatHistory(Window(history), pyStr).Some?
    ensures r.Some? ==> |r.value| == 2 * Min(5, |history|) + 2
    ensures r.Some? ==> r.value[0] == TravelAi.System(JStr(systemPrompt)) && r.value[|r.value| - 1] == TravelAi.Human(JStr(input))
    ensures r.Some? ==> r.value[1..|r.value| - 1] == ChatHistory(Window(history), pyStr).value
  {
    match ChatHistory(Window(history), pyStr)
    case None => None
    case Some(hist) =>
      var r := [TravelAi.System(JStr(systemPrompt))] + hist + [TravelAi.Human(JStr(input))];
      assert r[1..|r| - 1] == hist;
      Some(r)
  }
}

=== FILE: AuthOverlay.dfy ===
/** The sign-in / sign-up overlay: its submit state and the message it shows for a failure. */
module AuthOverlay {
  import opened Wrappers
  import opened Text
  import ChatStore

  // The hints are written as word groups so that facts about their characters can be checked group by group.
  const InvalidCredentialsHint :=
    "Invalid email or " + "password. If you " + "haven't created " + "an account yet, " + "please switch to " + "Sign Up."
  const AlreadyRegisteredHint :=
    "This email is " + "already " + "registered. " + "Try signing in " + "instead."
  const DefaultAuthError := "Authentication failed"

  /** `err.response?.data?.detail || err.message || "Authentication failed"` */
  function RawAuthError(e: ChatStore.NetError): (r: string)
    ensures r != ""
    ensures e.detail != "" ==> r == e.detail
    ensures e.detail == "" && e.message != "" ==> r == e.message
    ensures e.detail == "" && e.message == "" ==> r == DefaultAuthError
  {
    if e.detail != "" then e.detail else if e.message != "" then e.message else DefaultAuthError
  }

  predicate MentionsInvalidCredential(msg: string) {
    Contains(msg, "invalid-credential") || Contains(msg, "INVALID_LOGIN_CREDENTIALS") || Contains(msg, "auth/invalid-credential")
  }

  predicate MentionsExistingEmail(msg: string) {
    Contains(msg, "email-already") || Contains(msg, "EMAIL_EXISTS") || Contains(msg, "409")
  }

  /** The characters of plain English prose: letters, spaces and `.`, `,` and `'`. */
  predicate ProseChar(c: char) {
    'a' <= c <= 'z' || 'A' <= c <= 'Z' || c == ' ' || c == '.' || c == ',' || c == '\''
  }

  predicate Prose(s: string) {
    forall i :: 0 <= i < |s| ==> ProseChar(s[i])
  }

  /** Prose followed by prose is prose. */
  lemma ProseConcat(a: string, b: string)
    requires Prose(a) && Prose(b)
    ensures Prose(a + b)
  {
    assert forall i :: 0 <= i < |b| ==> (a + b)[|a| + i] == b[i];
  }

  /** The sign-up hint is plain prose. */
  lemma InvalidHintIsProse()
    ensures Prose(InvalidCredentialsHint)
  {
    var p1, p2, p3 := "Invalid email or ", "password. If you ", "haven't created ";
    var p4, p5, p6 := "an account yet, ", "please switch to ", "Sign Up.";
    assert Prose(p1) && Prose(p2) && Prose(p3);
    assert Prose(p4) && Prose(p5) && Prose(p6);
    ProseConcat(p1, p2);
    ProseConcat(p1 + p2, p3);
    ProseConcat(p1 + p2 + p3, p4);
    ProseConcat(p1 + p2 + p3 + p4, p5);
    ProseConcat(p1 + p2 + p3 + p4 + p5, p6);
  }

  /** The sign-in hint is plain prose. */
  lemma RegisteredHintIsProse()
    ensures Prose(AlreadyRegisteredHint)
  {
    assert Prose("This email is ");
    assert Prose("already ");
    assert Prose("registered. ");
    assert Prose("Try signing in ");
    assert Prose("instead.");
  }

  /** Prose cannot contain a marker with a character outside prose, such as `-`, `_`, `/` or a digit. */
  lemma ProseLacksMarker(s: string, t: string, k: int)
    requires Prose(s) && 0 <= k < |t| && !ProseChar(t[k])
    ensures !Contains(s, t)
  {
    NotContainsMissingChar(s, t, k);
  }

  /** Prose mentions no marker of either rewrite. */
  lemma ProseMentionsNoMarker(s: string)
    requires Prose(s)
    ensures !MentionsInvalidCredential(s) && !MentionsExistingEmail(s)
  {
    ProseLacksMarker(s, "invalid-credential", 7);
    ProseLacksMarker(s, "INVALID_LOGIN_CREDENTIALS", 7);
    ProseLacksMarker(s, "auth/invalid-credential", 4);
    ProseLacksMarker(s, "email-already", 5);
    ProseLacksMarker(s, "EMAIL_EXISTS", 5);
    ProseLacksMarker(s, "409", 0);
  }

  /** Neither fixed hint mentions a marker of either rewrite. */
  lemma HintsAreStable()
    ensures !MentionsInvalidCredential(InvalidCredentialsHint) && !MentionsExistingEmail(InvalidCredentialsHint)
    ensures !MentionsInvalidCredential(AlreadyRegisteredHint) && !MentionsExistingEmail(AlreadyRegisteredHint)
  {
    InvalidHintIsProse();
    ProseMentionsNoMarker(InvalidCredentialsHint);
    RegisteredHintIsProse();
    ProseMentionsNoMarker(AlreadyRegisteredHint);
  }

  /**
   * The two rewrites in order: an invalid-credential text becomes the
   * sign-up hint, then a text about an existing email becomes the sign-in
   * hint. The sign-up hint never triggers the second rewrite, so a text
   * with markers of both ends as the sign-up hint.
   */
  function RewriteAuthError(msg: string): (r: string)
    ensures MentionsInvalidCredential(msg) ==> r == InvalidCredentialsHint
    ensures !MentionsInvalidCredential(msg) && MentionsExistingEmail(msg) ==> r == AlreadyRegisteredHint
    ensures !MentionsInvalidCredential(msg) && !MentionsExistingEmail(msg) ==> r == msg
  {
    HintsAreStable();
    var first := if MentionsInvalidCredential(msg) then InvalidCredentialsHint else msg;
    if MentionsExistingEmail(first) then AlreadyRegisteredHint else first
  }

  /** Rewriting a shown message again changes nothing. */
  lemma RewriteIdempotent(msg: string)
    ensures RewriteAuthError(RewriteAuthError(msg)) == RewriteAuthError(msg)
  {
    HintsAreStable();
  }

  /** The message shown for a failure is one of the two hints or the raw error text. */
  function AuthErrorMessage(e: ChatStore.NetError): (r: string)
    ensures r == AlreadyRegisteredHint || r == InvalidCredentialsHint || r == RawAuthError(e)
    ensures r != ""
  {
    RewriteAuthError(RawAuthError(e))
  }

  datatype AuthState = AuthState(isLogin: bool, loading: bool, error: string, registrationSuccess: bool, closed: bool)

  /** Submitting clears the error and starts loading. */
  function SubmitBegin(st: AuthState): (r: AuthState)
    ensures r.loading && r.error == ""
    ensures r.isLogin == st.isLogin && r.registrationSuccess == st.registrationSuccess && r.closed == st.closed
  {
    st.(loading := true, error := "")
  }

  /**
   * The end of a submit. Signing in closes the overlay; registering shows
   * the success screen and leaves it open; a failure shows its message.
   * Loading ends on every path.
   */
  function SubmitComplete(st: AuthState, outcome: Result<(), ChatStore.NetError>): (r: AuthState)
    ensures !r.loading && r.isLogin == st.isLogin
    ensures outcome.Ok? && st.isLogin ==> r.closed && r.registrationSuccess == st.registrationSuccess
    ensures outcome.Ok? && !st.isLogin ==> r.registrationSuccess && r.closed == st.closed
    ensures outcome.Ok? ==> r.error == st.error
    ensures outcome.Err? ==> r.error == AuthErrorMessage(outcome.error) && r.closed == st.closed
                             && r.registrationSuccess == st.registrationSuccess
  {
    match outcome
    case Ok(_) =>
      if st.isLogin then st.(closed := true, loading := false)
      else st.(registrationSuccess := true, loading := false)
    case Err(e) => st.(error := AuthErrorMessage(e), loading := false)
  }
}

=== FILE: AuthRoutes.dfy ===
/**
 * The registration and sign-in endpoints over an abstract backend: the
 * identity provider's accounts and the profile store, both keyed by uid.
 * Every call into the provider or the store is an outcome parameter.
 */
module AuthRoutes {
  import opened Wrappers
  import opened Json
  import opened Text
  import opened AuthService
  import Models

  /** The identity provider's accounts and the stored profiles. */
  datatype Backend = Backend(accounts: map<string, Account>, profiles: map<string, J>)

  /** What the endpoint answers: a body, an HTTP error, or an exception no handler catches (a bare 500). */
  datatype Response<T> = Answered(body: T) | Failed(error: HttpError) | Unhandled

  /**
   * The outcomes of the calls registration makes, in order: account
   * creation, the profile write (an error text when it raises), the
   * sign-in that fetches a token, the verification email (an error text
   * when it raises), whether the rollback's deletion succeeds, and the
   * clock's date.
   */
  datatype RegisterEffects = RegisterEffects(
    create: Result<string, CreateError>,
    saveError: Option<string>,
    signIn: Result<J, string>,
    emailError: Option<string>,
    deleteSucceeds: bool,
    today: string)

  const RollbackPrefix: string := "Profile save failed. Registration rolled back. Error: "

  /** The stored profile document: the request's fields, the creation date and the uid. */
  function ProfileDoc(q: Models.ProfileRequest, uid: string, today: string): J {
    JObj([ ("full_name", JStr(q.fullName)), ("email", JStr(q.email)), ("country", JStr(q.country)),
           ("travel_style", JArr(seq(|q.travelStyle|, i requires 0 <= i < |q.travelStyle| => JStr(q.travelStyle[i])))),
           ("interests", JArr(seq(|q.interests|, i requires 0 <= i < |q.interests| => JStr(q.interests[i])))),
           ("budget", JStr(q.budget)), ("created_at", JStr(today)), ("uid", JStr(uid)) ])
  }

  /** The compensation: delete the account (best effort) and answer 500 with the failure's text. */
  function Rollback(b: Backend, uid: string, deleteSucceeds: bool, why: string): (r: (Backend, Response<J>))
    ensures r.0.profiles == b.profiles
    ensures r.0.accounts == DeleteUser(b.accounts, uid, deleteSucceeds)
    ensures r.1 == Failed(HttpError(500, RollbackPrefix + why))
  {
    (b.(accounts := DeleteUser(b.accounts, uid, deleteSucceeds)), Failed(HttpError(500, RollbackPrefix + why)))
  }

  /**
   * Registration as the route intends it, reading the preferences from a
   * request that carries them: create the account, then write the profile,
   * sign in and send the verification email, rolling the account back if
   * any of the three raises; answer the stored profile.
   */
  function RegisterIntended(b: Backend, q: Models.ProfileRequest, fx: RegisterEffects): (r: (Backend, Response<J>))
    ensures fx.create.Err? ==> r.0 == b && r.1 == Failed(RegisterUser(fx.create).error)
    ensures fx.create.Ok? ==> fx.create.value in r.0.accounts || fx.deleteSucceeds
    ensures r.1.Answered? ==> fx.create.Ok? && fx.create.value in r.0.accounts && fx.create.value in r.0.profiles
                              && r.1.body == r.0.profiles[fx.create.value]
                              && r.1.body == ProfileDoc(q, fx.create.value, fx.today)
  {
    match fx.create
    case Err(e) => (b, Failed(RegisterUser(Err(e)).error))
    case Ok(uid) =>
      var b1 := b.(accounts := b.accounts[uid := Account(q.email, q.password, q.fullName)]);
      if fx.saveError.Some? then Rollback(b1, uid, fx.deleteSucceeds, fx.saveError.value)
      else
        var doc := ProfileDoc(q, uid, fx.today);
        var b2 := b1.(profiles := b1.profiles[uid := doc]);
        match fx.signIn
        case Err(why) => Rollback(b2, uid, fx.deleteSucceeds, why)
        case Ok(body) =>
          if Lookup(body, "idToken").None? then Rollback(b2, uid, fx.deleteSucceeds, "'idToken'")
          else if fx.emailError.Some? then Rollback(b2, uid, fx.deleteSucceeds, fx.emailError.value)
          else (b2, Answered(b2.profiles[uid]))
  }

  /** When account creation fails nothing is written: no account and no profile. */
  lemma CreateFailureWritesNothing(b: Backend, q: Models.ProfileRequest, fx: RegisterEffects)
    requires fx.create.Err?
    ensures RegisterIntended(b, q, fx).0 == b
    ensures RegisterIntended(b, q, fx).1.Failed?
  {
  }

  /**
   * A failed registration leaves no account behind when the deletion
   * succeeds: the provider's accounts are as before.
   */
  lemma IntendedLeavesNoOrphan(b: Backend, q: Models.ProfileRequest, fx: RegisterEffects)
    requires fx.create.Ok? && fx.create.value !in b.accounts
    requires fx.deleteSucceeds
    requires !RegisterIntended(b, q, fx).1.Answered?
    ensures RegisterIntended(b, q, fx).0.accounts == b.accounts
    ensures RegisterIntended(b, q, fx).1.Failed? && RegisterIntended(b, q, fx).1.error.status == 500
  {
    var uid := fx.create.value;
    assert b.accounts[uid := Account(q.email, q.password, q.fullName)] - {uid} == b.accounts;
  }

  /**
   * The rollback removes only the account: a profile written before the
   * sign-in failed stays in the store.
   */
  lemma RollbackKeepsWrittenProfile(b: Backend, q: Models.ProfileRequest, fx: RegisterEffects)
    requires fx.create.Ok? && fx.saveError.None? && fx.signIn.Err? && fx.deleteSucceeds
    ensures var r := RegisterIntended(b, q, fx);
            && fx.create.value !in r.0.accounts
            && fx.create.value in r.0.profiles
            && r.0.profiles[fx.create.value] == ProfileDoc(q, fx.create.value, fx.today)
            && r.1 == Failed(HttpError(500, RollbackPrefix + fx.signIn.error))
  {
  }

  /**
   * Registration as written: the request schema the route uses has no
   * preference fields, so building the profile raises after the account
   * was created and before the guarded block, and nothing deletes the
   * account.
   */
  function RegisterAsWritten(b: Backend, q: Models.AuthRequest, fx: RegisterEffects): (r: (Backend, Response<J>))
    ensures fx.create.Err? ==> r.0 == b && r.1 == Failed(RegisterUser(fx.create).error)
    ensures fx.create.Ok? ==> r.1 == Unhandled
  {
    match fx.create
    case Err(e) => (b, Failed(RegisterUser(Err(e)).error))
    case Ok(uid) => (b.(accounts := b.accounts[uid := Account(q.email, q.password, q.fullName)]), Unhandled)
  }

  /**
   * Whatever the later calls would do, a registration whose account is
   * created ends with that account kept and no profile: the account is
   * orphaned, and its email is taken for every later attempt.
   */
  lemma AsWrittenOrphansAccount(b: Backend, q: Models.AuthRequest, fx: RegisterEffects)
    requires fx.create.Ok? && fx.create.value !in b.profiles
    ensures var r := RegisterAsWritten(b, q, fx);
            && r.1 == Unhandled
            && fx.create.value in r.0.accounts
            && fx.create.value !in r.0.profiles
            && r.0.accounts.Keys == b.accounts.Keys + {fx.create.value}
  {
  }

  // ---------------------------------------------------------------------
  // Sign-in

  /** The sign-in answer. */
  datatype TokenResponse = TokenResponse(idToken: string, refreshToken: string, expiresIn: string,
                                         uid: string, email: string, fullName: string)

  /** A present string field of the provider's reply. */
  function StrOf(body: J, k: string): Option<string> {
    match Lookup(body, k)
    case Some(JStr(s)) => Some(s)
    case _ => None
  }

  /**
   * The display name for a uid: the profile's `full_name` (default empty)
   * when the profile exists, and empty when the profile lookup raises.
   */
  function DisplayName(profiles: map<string, J>, uid: string): (r: J)
    ensures uid !in profiles ==> r == JStr("")
    ensures uid in profiles ==> r == PyGet(profiles[uid], "full_name", JStr(""))
  {
    if uid in profiles then PyGet(profiles[uid], "full_name", JStr("")) else JStr("")
  }

  /** The provider's reply carries the five string fields the response is built from. */
  predicate CompleteSignIn(body: J) {
    && StrOf(body, "localId").Some? && StrOf(body, "idToken").Some? && StrOf(body, "refreshToken").Some?
    && StrOf(body, "expiresIn").Some? && StrOf(body, "email").Some?
  }

  /**
   * `login`: the provider's verdict; on success the tokens and uid copied
   * from its reply and the display name from the profile. A reply missing a
   * field, or a field that is not a string, raises.
   */
  function Login(b: Backend, signIn: LoginOutcome): (r: Response<TokenResponse>)
    ensures signIn.Rejected? ==> r == Failed(signIn.error)
    ensures signIn.Crashed? ==> r.Unhandled?
    ensures signIn.SignedIn? ==>
              (r.Answered? <==> CompleteSignIn(signIn.body)
                                && DisplayName(b.profiles, StrOf(signIn.body, "localId").value).JStr?)
    ensures signIn.SignedIn? && !r.Answered? ==> r.Unhandled?
    ensures r.Answered? ==> && signIn.SignedIn?
                            && Some(r.body.uid) == StrOf(signIn.body, "localId")
                            && Some(r.body.idToken) == StrOf(signIn.body, "idToken")
                            && Some(r.body.refreshToken) == StrOf(signIn.body, "refreshToken")
                            && Some(r.body.expiresIn) == StrOf(signIn.body, "expiresIn")
                            && Some(r.body.email) == StrOf(signIn.body, "email")
                            && JStr(r.body.fullName) == DisplayName(b.profiles, r.body.uid)
  {
    match signIn
    case Rejected(e) => Failed(e)
    case Crashed => Unhandled
    case SignedIn(body) =>
      var uid := StrOf(body, "localId");
      var idToken := StrOf(body, "idToken");
      var refresh := StrOf(body, "refreshToken");
      var expires := StrOf(body, "expiresIn");
      var email := StrOf(body, "email");
      if uid.None? || idToken.None? || refresh.None? || expires.None? || email.None? then Unhandled
      else match DisplayName(b.profiles, uid.value)
        case JStr(name) => Answered(TokenResponse(idToken.value, refresh.value, expires.value, uid.value, email.value, name))
        case _ => Unhandled
  }

  /** A missing profile never fails the sign-in: the display name is empty. */
  lemma LoginWithoutProfile(b: Backend, body: J)
    requires StrOf(body, "localId").Some? && StrOf(body, "localId").value !in b.profiles
    requires StrOf(body, "idToken").Some? && StrOf(body, "refreshToken").Some?
    requires StrOf(body, "expiresIn").Some? && StrOf(body, "email").Some?
    ensures Login(b, SignedIn(body)).Answered?
    ensures Login(b, SignedIn(body)).body.fullName == ""
  {
  }
}

=== FILE: AuthService.dfy ===
/**
 * The authentication service's classification of identity-provider
 * outcomes into HTTP errors: account creation, password sign-in, account
 * deletion and token verification.
 */
module AuthService {
  import opened Wrappers
  import opened Json
  import opened Text

  /** An HTTP error response: status code and detail text. */
  datatype HttpError = HttpError(status: int, detail: string)

  /** An account of the identity provider. */
  datatype Account = Account(email: string, password: string, displayName: string)

  /** Why the provider refused to create an account. */
  datatype CreateError = EmailAlreadyExists | CreateFailed(message: string)

  /** Why the provider refused a token. The expired kind is recognised before the invalid kind. */
  datatype TokenError = TokenExpired | TokenInvalid | TokenCheckFailed(message: string)

  /**
   * A sign-in attempt's result: the provider's reply body, a classified
   * error, or an exception the service does not catch (a reply body that
   * is not a dict, an `error` that is not a dict, or a message that is not
   * a string).
   */
  datatype LoginOutcome = SignedIn(body: J) | Rejected(error: HttpError) | Crashed

  const DuplicateEmailDetail: string := "Email is already registered. Please sign in instead."
  const BadCredentialsDetail: string := "Invalid email or password."
  const DisabledDetail: string := "This account has been disabled."
  const DefaultLoginMessage: string := "Login failed"
  const ExpiredDetail: string := "Token has expired. Please log in again."
  const InvalidTokenDetail: string := "Invalid token. Access denied."

  // ---------------------------------------------------------------------
  // Registration

  /** `register_firebase_user`: the new uid, 409 for a taken email, 500 for anything else. */
  function RegisterUser(outcome: Result<string, CreateError>): (r: Result<string, HttpError>)
    ensures outcome.Ok? ==> r == Ok(outcome.value)
    ensures outcome == Err(EmailAlreadyExists) ==> r == Err(HttpError(409, DuplicateEmailDetail))
    ensures outcome.Err? && outcome.error.CreateFailed? ==>
              r == Err(HttpError(500, "Failed to create user: " + outcome.error.message))
  {
    match outcome
    case Ok(uid) => Ok(uid)
    case Err(EmailAlreadyExists) => Err(HttpError(409, DuplicateEmailDetail))
    case Err(CreateFailed(m)) => Err(HttpError(500, "Failed to create user: " + m))
  }

  /** Only a taken email is a conflict; every refusal is an error of status 409 or 500. */
  lemma RegisterErrorStatuses(outcome: Result<string, CreateError>)
    requires outcome.Err?
    ensures RegisterUser(outcome).Err?
    ensures RegisterUser(outcome).error.status == 409 <==> outcome.error == EmailAlreadyExists
    ensures RegisterUser(outcome).error.status in {409, 500}
  {
  }

  // ---------------------------------------------------------------------
  // Sign-in

  /**
   * The error for a failed sign-in's message: bad credentials first, then
   * a disabled account, else a generic 400 carrying the message.
   */
  function ClassifyLoginMessage(msg: string): (r: HttpError)
    ensures Contains(msg, "INVALID_PASSWORD") || Contains(msg, "EMAIL_NOT_FOUND") ==>
              r == HttpError(401, BadCredentialsDetail)
    ensures !Contains(msg, "INVALID_PASSWORD") && !Contains(msg, "EMAIL_NOT_FOUND") && Contains(msg, "USER_DISABLED") ==>
              r == HttpError(403, DisabledDetail)
    ensures !Contains(msg, "INVALID_PASSWORD") && !Contains(msg, "EMAIL_NOT_FOUND") && !Contains(msg, "USER_DISABLED") ==>
              r == HttpError(400, "Firebase login error: " + msg)
  {
    if Contains(msg, "INVALID_PASSWORD") || Contains(msg, "EMAIL_NOT_FOUND") then HttpError(401, BadCredentialsDetail)
    else if Contains(msg, "USER_DISABLED") then HttpError(403, DisabledDetail)
    else HttpError(400, "Firebase login error: " + msg)
  }

  /**
   * Python's `needle in v` for a string needle: a substring test on a
   * string, membership on a list, a key test on a dict; any other value
   * raises `TypeError` (`None`).
   */
  function PyIn(needle: string, v: J): (r: Option<bool>)
    ensures r.None? <==> !(v.JStr? || v.JArr? || v.JObj?)
    ensures v.JStr? ==> r == Some(Contains(v.s, needle))
    ensures v.JArr? ==> r == Some(JStr(needle) in v.items)
    ensures v.JObj? ==> r == Some(Lookup(v, needle).Some?)
  {
    match v
    case JStr(s) => Some(Contains(s, needle))
    case JArr(items) => Some(JStr(needle) in items)
    case JObj(_) => Some(Lookup(v, needle).Some?)
    case _ => None
  }

  /**
   * The error for any message value: a string is classified as above; a
   * list or dict is tested with Python's `in` and shown through `str()`
   * (the parameter `pyStr`); anything else makes the first `in` raise.
   */
  function ClassifyLoginValue(msg: J, pyStr: J -> string): (r: Option<HttpError>)
    ensures r.None? <==> PyIn("INVALID_PASSWORD", msg).None?
    ensures msg.JStr? ==> r == Some(ClassifyLoginMessage(msg.s))
    ensures r.Some? ==> r.value.status in {400, 401, 403}
    ensures PyIn("INVALID_PASSWORD", msg) == Some(true) || PyIn("EMAIL_NOT_FOUND", msg) == Some(true) ==>
              r == Some(HttpError(401, BadCredentialsDetail))
    ensures PyIn("INVALID_PASSWORD", msg) == Some(false) && PyIn("EMAIL_NOT_FOUND", msg) == Some(false) ==>
              (r == Some(HttpError(403, DisabledDetail)) <==> PyIn("USER_DISABLED", msg) == Some(true))
    ensures !msg.JStr? && r.Some? && r.value.status == 400 ==> r.value.detail == "Firebase login error: " + pyStr(msg)
  {
    if msg.JStr? then Some(ClassifyLoginMessage(msg.s))
    else if !(msg.JArr? || msg.JObj?) then None
    else if PyIn("INVALID_PASSWORD", msg).value || PyIn("EMAIL_NOT_FOUND", msg).value then Some(HttpError(401, BadCredentialsDetail))
    else if PyIn("USER_DISABLED", msg).value then Some(HttpError(403, DisabledDetail))
    else Some(HttpError(400, "Firebase login error: " + pyStr(msg)))
  }

  /**
   * `login_firebase_user`: a 200 reply's body unchanged, else the error its
   * message classifies to. `.get` on a body or error value that is not a
   * dict raises, as does `in` on a message that is neither a string, a
   * list nor a dict: those replies crash the request.
   */
  function LoginUser(statusCode: int, body: J, pyStr: J -> string): (r: LoginOutcome)
    ensures statusCode == 200 <==> r.SignedIn?
    ensures r.SignedIn? ==> r.body == body
    ensures r.Rejected? ==> r.error.status in {400, 401, 403}
    ensures statusCode != 200 && body.JObj? && Lookup(body, "error").None? ==>
              r == Rejected(ClassifyLoginMessage(DefaultLoginMessage))
    ensures statusCode != 200 && (!body.JObj? || !PyGet(body, "error", JObj([])).JObj?) ==> r == Crashed
    ensures statusCode != 200 && body.JObj? && PyGet(body, "error", JObj([])).JObj? ==>
              var msg := PyGet(PyGet(body, "error", JObj([])), "message", JStr(DefaultLoginMessage));
              && (msg.JStr? ==> r == Rejected(ClassifyLoginMessage(msg.s)))
              && (r == Crashed <==> ClassifyLoginValue(msg, pyStr).None?)
  {
    if statusCode == 200 then SignedIn(body)
    else if !body.JObj? then Crashed
    else
      var err := PyGet(body, "error", JObj([]));
      if !err.JObj? then Crashed
      else match ClassifyLoginValue(PyGet(err, "message", JStr(DefaultLoginMessage)), pyStr)
        case Some(e) => Rejected(e)
        case None => Crashed
  }

  /** The default message carries none of the markers. */
  lemma DefaultMessageUnmarked()
    ensures !Contains(DefaultLoginMessage, "INVALID_PASSWORD")
    ensures !Contains(DefaultLoginMessage, "EMAIL_NOT_FOUND")
    ensures !Contains(DefaultLoginMessage, "USER_DISABLED")
  {
    var d := "Login failed";
    assert d == DefaultLoginMessage;
    assert 'V' !in d && 'M' !in d && 'U' !in d;
    assert "INVALID_PASSWORD"[2] == 'V' && "EMAIL_NOT_FOUND"[1] == 'M' && "USER_DISABLED"[0] == 'U';
    NotContainsMissingChar(d, "INVALID_PASSWORD", 2);
    NotContainsMissingChar(d, "EMAIL_NOT_FOUND", 1);
    NotContainsMissingChar(d, "USER_DISABLED", 0);
  }

  /** A failed sign-in without an error message reports the default message as a 400. */
  lemma MissingMessageIsGenericError(statusCode: int, pyStr: J -> string)
    requires statusCode != 200
    ensures LoginUser(statusCode, JObj([]), pyStr) == Rejected(HttpError(400, "Firebase login error: " + DefaultLoginMessage))
  {
    DefaultMessageUnmarked();
    assert Lookup(JObj([]), "error").None?;
  }

  /** Bad credentials win over a disabled account when the message mentions both. */
  lemma CredentialsCheckedFirst(msg: string)
    requires Contains(msg, "EMAIL_NOT_FOUND") && Contains(msg, "USER_DISABLED")
    ensures ClassifyLoginMessage(msg).status == 401
  {
  }

  // ---------------------------------------------------------------------
  // Deletion and tokens

  /**
   * `delete_firebase_user`: best effort. The account is gone when the
   * provider's call succeeds; a failing call is swallowed, so the result is
   * never an error.
   */
  function DeleteUser(accounts: map<string, Account>, uid: string, providerSucceeds: bool): (r: map<string, Account>)
    ensures providerSucceeds ==> uid !in r && forall u :: u in accounts && u != uid ==> u in r && r[u] == accounts[u]
    ensures providerSucceeds ==> forall u :: u in r ==> u in accounts
    ensures !providerSucceeds ==> r == accounts
  {
    if providerSucceeds then accounts - {uid} else accounts
  }

  /** `verify_id_token`: the claims, or a 401 whose detail tells an expired token from an invalid one. */
  function VerifyToken(outcome: Result<J, TokenError>): (r: Result<J, HttpError>)
    ensures outcome.Ok? ==> r == Ok(outcome.value)
    ensures outcome.Err? ==> r.Err? && r.error.status == 401
    ensures outcome == Err(TokenExpired) ==> r.error.detail == ExpiredDetail
    ensures outcome == Err(TokenInvalid) ==> r.error.detail == InvalidTokenDetail
    ensures outcome.Err? && outcome.error.TokenCheckFailed? ==>
              r.error.detail == "Token verification failed: " + outcome.error.message
  {
    match outcome
    case Ok(claims) => Ok(claims)
    case Err(TokenExpired) => Err(HttpError(401, ExpiredDetail))
    case Err(TokenInvalid) => Err(HttpError(401, InvalidTokenDetail))
    case Err(TokenCheckFailed(m)) => Err(HttpError(401, "Token verification failed: " + m))
  }

  /** The three kinds of refusal give three different details. */
  lemma TokenDetailsDistinct(m: string)
    ensures VerifyToken(Err(TokenExpired)).error.detail != VerifyToken(Err(TokenInvalid)).error.detail
    ensures VerifyToken(Err(TokenCheckFailed(m))).error.detail != VerifyToken(Err(TokenExpired)).error.detail
    ensures VerifyToken(Err(TokenCheckFailed(m))).error.detail != VerifyToken(Err(TokenInvalid)).error.detail
  {
    assert ExpiredDetail[0] != InvalidTokenDetail[0];
    assert ("Token verification failed: " + m)[6] != ExpiredDetail[6];
    assert ("Token verification failed: " + m)[0] != InvalidTokenDetail[0];
  }
}

=== FILE: BuildGraph.dfy ===
/** The graph builder's record preparation for hotels and transport agencies. */
module BuildGraph {
  import opened Wrappers
  import opened Json
  import opened Seqs

  /** The hotel record sent to the graph database. */
  datatype HotelRecord = HotelRecord(id: J, name: J, lat: real, lon: real, area: J, rooms: J)

  /** The city every hotel without a better location is placed in. */
  const DefaultArea: J := JStr("Chennai")

  /** A hotel's area: its `location`, or the `area` inside a dict location; Chennai when either is missing. */
  function HotelArea(h: J): (r: J)
    ensures Lookup(h, "location").None? ==> r == DefaultArea
    ensures Lookup(h, "location").Some? && Lookup(h, "location").value.JObj? ==>
              r == PyGet(Lookup(h, "location").value, "area", DefaultArea)
    ensures Lookup(h, "location").Some? && !Lookup(h, "location").value.JObj? ==> r == Lookup(h, "location").value
  {
    var loc := PyGet(h, "location", DefaultArea);
    if loc.JObj? then PyGet(loc, "area", DefaultArea) else loc
  }

  /** A location that is neither missing nor a dict is kept as it is, `None` included. */
  lemma NullLocationKept()
    ensures HotelArea(JObj([("location", JNull)])) == JNull
  {
  }

  /**
   * One hotel's record: id, name and coordinates are required (a missing one
   * raises, as does a coordinate `float` cannot convert); rooms default to
   * an empty list.
   */
  function HotelRecordOf(h: J, toFloat: J -> Option<real>): (r: Option<HotelRecord>)
    ensures r.Some? <==> && Lookup(h, "hotel_id").Some? && Lookup(h, "name").Some?
                         && Lookup(h, "latitude").Some? && Lookup(h, "longitude").Some?
                         && toFloat(Lookup(h, "latitude").value).Some?
                         && toFloat(Lookup(h, "longitude").value).Some?
    ensures r.Some? ==> && r.value.id == Lookup(h, "hotel_id").value
                        && r.value.name == Lookup(h, "name").value
                        && Some(r.value.lat) == toFloat(Lookup(h, "latitude").value)
                        && Some(r.value.lon) == toFloat(Lookup(h, "longitude").value)
                        && r.value.area == HotelArea(h)
                        && r.value.rooms == PyGet(h, "rooms", JArr([]))
  {
    match (Lookup(h, "hotel_id"), Lookup(h, "name"), Lookup(h, "latitude"), Lookup(h, "longitude"))
    case (Some(id), Some(name), Some(lat), Some(lon)) =>
      if toFloat(lat).Some? && toFloat(lon).Some? then
        Some(HotelRecord(id, name, toFloat(lat).value, toFloat(lon).value, HotelArea(h), PyGet(h, "rooms", JArr([]))))
      else None
    case _ => None
  }

  /** The records of every hotel, one per hotel and in order. */
  function HotelRecords(hotels: seq<J>, toFloat: J -> Option<real>): (r: Option<seq<HotelRecord>>)
    ensures r.Some? <==> forall i :: 0 <= i < |hotels| ==> HotelRecordOf(hotels[i], toFloat).Some?
    ensures r.Some? ==> |r.value| == |hotels|
    ensures r.Some? ==> forall i :: 0 <= i < |hotels| ==> Some(r.value[i]) == HotelRecordOf(hotels[i], toFloat)
  {
    MapAll(hotels, (h: J) => HotelRecordOf(h, toFloat))
  }

  /** `ingest_hotels`: the hotel list's records; `None` when the data is not iterable or a record raises. */
  function IngestHotels(data: J, toFloat: J -> Option<real>): (r: Option<seq<HotelRecord>>)
    ensures r.Some? ==> Iterate(data).Some? && |r.value| == |Iterate(data).value|
    ensures Iterate(data).Some? ==> r == HotelRecords(Iterate(data).value, toFloat)
  {
    match Iterate(data)
    case None => None
    case Some(hotels) => HotelRecords(hotels, toFloat)
  }

  /** The map link of an agency's location: its `map_url` when the location is a dict, else empty. */
  function MapUrl(a: J): (r: J)
    ensures PyGet(a, "location", JObj([])).JObj? ==> r == PyGet(PyGet(a, "location", JObj([])), "map_url", JStr(""))
    ensures !PyGet(a, "location", JObj([])).JObj? ==> r == JStr("")
  {
    var loc := PyGet(a, "location", JObj([]));
    if loc.JObj? then PyGet(loc, "map_url", JStr("")) else JStr("")
  }

  /** One agency with `map_url_str` set; `None` when it is not a dict. */
  function ProcessAgency(a: J): (r: Option<J>)
    ensures r.Some? <==> a.JObj?
    ensures r.Some? ==> r.value.JObj? && FieldOf(r.value.fields, "map_url_str") == Some(MapUrl(a))
    ensures r.Some? ==> forall k :: k != "map_url_str" ==> FieldOf(r.value.fields, k) == FieldOf(a.fields, k)
  {
    if a.JObj? then Some(JObj(SetField(a.fields, "map_url_str", MapUrl(a)))) else None
  }

  /** Every agency processed, one record per agency and in order. */
  function ProcessAgencies(agencies: seq<J>): (r: Option<seq<J>>)
    ensures r.Some? <==> forall i :: 0 <= i < |agencies| ==> agencies[i].JObj?
    ensures r.Some? ==> |r.value| == |agencies|
    ensures r.Some? ==> forall i :: 0 <= i < |agencies| ==> Some(r.value[i]) == ProcessAgency(agencies[i])
  {
    MapAll(agencies, ProcessAgency)
  }

  /** `ingest_transport`: the file's `transport_agencies` (none when missing), each processed. */
  function IngestTransport(data: J): (r: Option<seq<J>>)
    ensures !data.JObj? ==> r.None?
    ensures data.JObj? && Lookup(data, "transport_agencies").None? ==> r == Some([])
    ensures data.JObj? && Iterate(PyGet(data, "transport_agencies", JArr([]))).Some? ==>
              r == ProcessAgencies(Iterate(PyGet(data, "transport_agencies", JArr([]))).value)
    ensures data.JObj? && Iterate(PyGet(data, "transport_agencies", JArr([]))).None? ==> r.None?
  {
    if !data.JObj? then None
    else match Iterate(PyGet(data, "transport_agencies", JArr([])))
      case None => None
      case Some(agencies) => ProcessAgencies(agencies)
  }

  /** Processing twice gives the same record: `map_url_str` is recomputed from the unchanged location. */
  lemma ProcessAgencyIdempotent(a: J)
    requires a.JObj?
    ensures ProcessAgency(ProcessAgency(a).value) == ProcessAgency(a)
  {
    var b := ProcessAgency(a).value;
    assert FieldOf(b.fields, "location") == FieldOf(a.fields, "location");
    assert MapUrl(b) == MapUrl(a);
    SetFieldAgain(a.fields, "map_url_str", MapUrl(a));
  }
}

=== FILE: ChatPage.dfy ===
/**
 * The chat page's rules: which session the URL opens, the send guard, the
 * fixed text of a form submission, when the split trip view replaces the
 * chat, and the header title.
 */
module ChatPage {
  import opened Wrappers
  import opened Json
  import opened Text
  import opened ChatStore

  /** The session the page opens for its `?id=` parameter: the id when it is truthy, else none. */
  function UrlSelection(urlId: Option<string>): (r: Option<string>)
    ensures IdTruthy(urlId) ==> r == urlId
    ensures !IdTruthy(urlId) ==> r == None
  {
    if IdTruthy(urlId) then urlId else None
  }

  /** Without an id in the URL the page clears the open conversation. */
  lemma NoUrlIdClearsConversation(s: Store, urlId: Option<string>)
    requires !IdTruthy(urlId)
    ensures var (s1, fetch) := SetCurrentSessionBegin(s, UrlSelection(urlId));
            fetch == None && s1.currentSessionId == None && s1.currentMessages == [] && s1.currentItinerary == JNull
  {
  }

  /** With an id in the URL the page opens that conversation and fetches it. */
  lemma UrlIdOpensConversation(s: Store, id: string)
    requires id != ""
    ensures var (s1, fetch) := SetCurrentSessionBegin(s, UrlSelection(Some(id)));
            fetch == Some(id) && s1.currentSessionId == Some(id) && s1.isLoading
  {
  }

  /** A session opened without an id in the URL is written into the URL. */
  function UrlToPush(currentSessionId: Option<string>, urlId: Option<string>): (r: Option<string>)
    ensures r.Some? <==> IdTruthy(currentSessionId) && !IdTruthy(urlId)
    ensures r.Some? ==> r.value == "/chat?id=" + currentSessionId.value
  {
    if IdTruthy(currentSessionId) && !IdTruthy(urlId) then Some("/chat?id=" + currentSessionId.value) else None
  }

  /**
   * `handleSend`: with a blank input or a send in flight nothing happens;
   * otherwise the input box is cleared and its untrimmed text is sent.
   * Returns the new input box text and the text sent, if any.
   */
  function HandleSend(input: string, isLoading: bool): (r: (string, Option<string>))
    ensures r.1.None? <==> Trim(input) == "" || isLoading
    ensures r.1.None? ==> r.0 == input
    ensures r.1.Some? ==> r.0 == "" && r.1.value == input
  {
    if Trim(input) == "" || isLoading then (input, None) else ("", Some(input))
  }

  /** A send in flight blocks the next one until it completes. */
  lemma SendGuardBlocksOverlap(s: Store, text: string, tempId: string, now: string, next: string)
    ensures HandleSend(next, SendMessageBegin(s, text, JNull, tempId, now).0.isLoading).1 == None
  {
  }

  const FormUpdateText := "Information updated."

  /**
   * `handleFormSubmit(formData)`: a send of the fixed text carrying the
   * form data, begun at once. Unlike `handleSend` it has no guard.
   */
  function FormSubmission(s: Store, formData: J, tempId: string, now: string): (r: (Store, PendingSend))
    ensures r.0.currentMessages == s.currentMessages + [UserBubble(tempId, FormUpdateText, formData, now)]
    ensures r.1.userInput == FormUpdateText && r.1.submittedData == formData
    ensures r.1.sessionAtStart == s.currentSessionId && r.0.isLoading
  {
    SendMessageBegin(s, FormUpdateText, formData, tempId, now)
  }

  /**
   * While a send is loading, a typed message is refused, but a form
   * submission still goes out and adds its bubble.
   */
  lemma FormSubmissionUnguarded(s: Store, typed: string, formData: J, tempId: string, now: string)
    requires s.isLoading
    ensures HandleSend(typed, s.isLoading).1 == None
    ensures |FormSubmission(s, formData, tempId, now).0.currentMessages| == |s.currentMessages| + 1
  {
  }

  /** The split trip view replaces the chat iff both the confirmed trip and the route are truthy. */
  predicate ShowSplitView(s: Store) {
    JsTruthy(s.confirmedTrip) && JsTruthy(s.routeData)
  }

  /**
   * Confirming a truthy itinerary opens the split view when the route
   * request fails, or succeeds with a truthy route; clearing always
   * returns to the chat.
   */
  lemma SplitViewTransitions(s: Store, names: seq<J>, hotel: J, outcome: Result<J, NetError>)
    requires JsTruthy(s.currentItinerary)
    requires outcome.Ok? ==> JsTruthy(outcome.value)
    ensures ShowSplitView(ConfirmItineraryComplete(ConfirmItineraryBegin(s), names, hotel, outcome))
    ensures !ShowSplitView(ClearConfirmedTrip(s))
  {
    var b := ConfirmItineraryBegin(s);
    assert b.currentItinerary == s.currentItinerary;
    var c := ConfirmItineraryComplete(b, names, hotel, outcome);
    if outcome.Err? {
      assert FallbackRoute(names, hotel).JObj?;
    }
    assert JsTruthy(c.routeData);
  }

  /** The title of the open conversation: the title of the first summary with its id. */
  function SessionTitle(sessions: seq<Session>, currentSessionId: Option<string>): (r: J)
    ensures currentSessionId.None? ==> r == JNull
    ensures r != JNull ==> exists i :: 0 <= i < |sessions| && Some(sessions[i].convoId) == currentSessionId && r == sessions[i].title
    ensures forall i :: 0 <= i < |sessions| && Some(sessions[i].convoId) == currentSessionId
                        && (forall j :: 0 <= j < i ==> Some(sessions[j].convoId) != currentSessionId)
                        ==> r == sessions[i].title
    ensures (forall i :: 0 <= i < |sessions| ==> Some(sessions[i].convoId) != currentSessionId) ==> r == JNull
  {
    match Seqs.Find(sessions, (x: Session) => Some(x.convoId) == currentSessionId)
    case None => JNull
    case Some(x) => x.title
  }

  /**
   * The header title: in the split view the session's title or "Trip
   * Planner"; in the chat the session's title or "Active Consultation"
   * when a session is open, else "New Consultation".
   */
  function HeaderTitle(s: Store): (r: J)
    ensures JsTruthy(r)
    ensures (JsTruthy(SessionTitle(s.sessions, s.currentSessionId)) && (ShowSplitView(s) || IdTruthy(s.currentSessionId)))
              ==> r == SessionTitle(s.sessions, s.currentSessionId)
    ensures ShowSplitView(s) && !JsTruthy(SessionTitle(s.sessions, s.currentSessionId)) ==> r == JStr("Trip Planner")
    ensures (!ShowSplitView(s) && IdTruthy(s.currentSessionId) && !JsTruthy(SessionTitle(s.sessions, s.currentSessionId)))
              ==> r == JStr("Active Consultation")
    ensures !ShowSplitView(s) && !IdTruthy(s.currentSessionId) ==> r == JStr("New Consultation")
  {
    var title := SessionTitle(s.sessions, s.currentSessionId);
    if ShowSplitView(s) then JsOr(title, JStr("Trip Planner"))
    else if IdTruthy(s.currentSessionId) then JsOr(title, JStr("Active Consultation"))
    else JStr("New Consultation")
  }
}

=== FILE: ChatStore.dfy ===
/**
 * The browser's chat store: the list of conversation summaries, the open
 * conversation's bubbles and itinerary, the confirmed trip and its route.
 *
 * Every asynchronous action is split into a synchronous begin step (the
 * state change made before the request) and a complete step that receives
 * the network outcome as a parameter. Actions are modelled one after the
 * other; interleavings are not.
 */
module ChatStore {
  import opened Wrappers
  import opened Json
  import opened Seqs

  /** One stored exchange as the server returns it: what the user sent and what the assistant answered. */
  datatype StoredMessage = StoredMessage(
    messageId: string,
    userInput: string,
    submittedData: J,
    aiOutput: J,
    timestamp: string)

  /** A chat bubble. */
  datatype UIMessage =
    | UserBubble(id: string, text: string, submittedData: J, timestamp: string)
    | AiBubble(id: string, aiResponse: J, timestamp: string)

  /** A conversation summary of the sidebar list. */
  datatype Session = Session(convoId: string, title: J)

  datatype Store = Store(
    sessions: seq<Session>,
    currentSessionId: Option<string>,
    currentMessages: seq<UIMessage>,
    currentItinerary: J,
    confirmedTrip: J,
    routeData: J,
    isLoading: bool,
    error: Option<string>)

  const Initial := Store([], None, [], JNull, JNull, JNull, false, None)

  /**
   * A failed request: `err.response?.data?.detail` (empty when there is no
   * response or no detail) and `err.message` (empty when absent).
   */
  datatype NetError = NetError(detail: string, message: string)

  /** JavaScript truthiness of a session id: neither `null` nor `""`. */
  predicate IdTruthy(id: Option<string>) {
    id.Some? && id.value != ""
  }

  /** The `itinerary` carried by an assistant output, `undefined` (here `null`) when it has none. */
  function ItineraryIn(output: J): J {
    Get(output, "itinerary")
  }

  // ---------------------------------------------------------------------
  // Bubbles of a stored exchange

  /** A stored exchange becomes a user bubble and then an assistant bubble. */
  function ToUIMessages(m: StoredMessage): (r: seq<UIMessage>)
    ensures |r| == 2 && r[0].UserBubble? && r[1].AiBubble?
    ensures r[0].id == m.messageId + "_user" && r[1].id == m.messageId + "_ai"
    ensures r[0].text == m.userInput && r[0].submittedData == m.submittedData
    ensures r[1].aiResponse == m.aiOutput
    ensures r[0].timestamp == m.timestamp && r[1].timestamp == m.timestamp
  {
    [UserBubble(m.messageId + "_user", m.userInput, m.submittedData, m.timestamp),
     AiBubble(m.messageId + "_ai", m.aiOutput, m.timestamp)]
  }

  /** Recovers the stored exchange from its two bubbles, if they have the shape `ToUIMessages` gives. */
  function FromUIPair(pair: seq<UIMessage>): Option<StoredMessage> {
    if |pair| == 2 && pair[0].UserBubble? && pair[1].AiBubble? && |pair[0].id| >= 5 then
      var base := pair[0].id[..|pair[0].id| - 5];
      if pair[0].id == base + "_user" && pair[1].id == base + "_ai" && pair[0].timestamp == pair[1].timestamp
      then Some(StoredMessage(base, pair[0].text, pair[0].submittedData, pair[1].aiResponse, pair[0].timestamp))
      else None
    else None
  }

  /** The two bubbles of an exchange carry all of it: nothing is lost in the projection. */
  lemma ToUIMessagesRoundTrip(m: StoredMessage)
    ensures FromUIPair(ToUIMessages(m)) == Some(m)
  {
    var r := ToUIMessages(m);
    assert r[0].id[..|r[0].id| - 5] == m.messageId;
  }

  /** `messages.flatMap(toUIMessages)`: two bubbles per exchange, in server order. */
  function FlattenMessages(ms: seq<StoredMessage>): (r: seq<UIMessage>)
    ensures |r| == 2 * |ms|
    ensures forall i :: 0 <= i < |ms| ==> r[2 * i..2 * i + 2] == ToUIMessages(ms[i])
  {
    if ms == [] then []
    else
      var rest := FlattenMessages(ms[1..]);
      var r := ToUIMessages(ms[0]) + rest;
      assert forall i :: 1 <= i < |ms| ==> r[2 * i..2 * i + 2] == rest[2 * (i - 1)..2 * (i - 1) + 2];
      r
  }

  /** Regroups bubbles two by two into stored exchanges. */
  function UnflattenMessages(us: seq<UIMessage>): Option<seq<StoredMessage>>
    decreases |us|
  {
    if us == [] then Some([])
    else if |us| < 2 then None
    else
      match (FromUIPair(us[..2]), UnflattenMessages(us[2..]))
      case (Some(m), Some(rest)) => Some([m] + rest)
      case _ => None
  }

  /** The bubble list of a conversation determines its exchanges. */
  lemma {:induction false} FlattenRoundTrip(ms: seq<StoredMessage>)
    ensures UnflattenMessages(FlattenMessages(ms)) == Some(ms)
  {
    if ms != [] {
      var us := FlattenMessages(ms);
      assert us[..2] == ToUIMessages(ms[0]);
      assert us[2..] == FlattenMessages(ms[1..]);
      ToUIMessagesRoundTrip(ms[0]);
      FlattenRoundTrip(ms[1..]);
      assert [ms[0]] + ms[1..] == ms;
    }
  }

  /** The itinerary of a conversation: the last exchange's output's itinerary, or `null`. */
  function LatestItinerary(ms: seq<StoredMessage>): (r: J)
    ensures ms == [] ==> r == JNull
    ensures ms != [] && JsTruthy(ItineraryIn(ms[|ms| - 1].aiOutput)) ==> r == ItineraryIn(ms[|ms| - 1].aiOutput)
    ensures ms != [] && !JsTruthy(ItineraryIn(ms[|ms| - 1].aiOutput)) ==> r == JNull
  {
    if ms == [] then JNull else JsOr(ItineraryIn(ms[|ms| - 1].aiOutput), JNull)
  }

  // ---------------------------------------------------------------------
  // fetchSessions

  /**
   * Completion of `fetchSessions()`. The action takes no argument: a limit
   * passed by a caller is ignored.
   */
  function FetchSessionsComplete(s: Store, outcome: Result<seq<Session>, NetError>): (r: Store)
    ensures outcome.Ok? ==> r == s.(sessions := outcome.value)
    ensures outcome.Err? ==> r == s.(error := Some(outcome.error.message))
  {
    match outcome
    case Ok(list) => s.(sessions := list)
    case Err(e) => s.(error := Some(e.message))
  }

  // ---------------------------------------------------------------------
  // setCurrentSession

  /**
   * Begin step of `setCurrentSession(id)`. A falsy id clears the open
   * conversation at once and fetches nothing; otherwise the id becomes
   * current, loading starts and the id to fetch is returned.
   */
  function SetCurrentSessionBegin(s: Store, id: Option<string>): (r: (Store, Option<string>))
    ensures !IdTruthy(id) ==> r.1 == None
    ensures !IdTruthy(id) ==> r.0.currentSessionId == None && r.0.currentMessages == [] && r.0.currentItinerary == JNull
    ensures !IdTruthy(id) ==> r.0.isLoading == s.isLoading
    ensures IdTruthy(id) ==> r.1 == id && r.0.currentSessionId == id && r.0.isLoading
    ensures IdTruthy(id) ==> r.0.currentMessages == s.currentMessages && r.0.currentItinerary == s.currentItinerary
    ensures r.0.sessions == s.sessions && r.0.confirmedTrip == s.confirmedTrip
    ensures r.0.routeData == s.routeData && r.0.error == s.error
  {
    if !IdTruthy(id) then
      (s.(currentSessionId := None, currentMessages := [], currentItinerary := JNull), None)
    else
      (s.(isLoading := true, currentSessionId := id), id)
  }

  /**
   * Complete step of `setCurrentSession(id)`. Whatever response arrives is
   * committed: there is no check that `id` is still the current session.
   */
  function SetCurrentSessionComplete(s: Store, outcome: Result<seq<StoredMessage>, NetError>): (r: Store)
    ensures outcome.Ok? ==> |r.currentMessages| == 2 * |outcome.value|
    ensures outcome.Ok? ==> forall i :: 0 <= i < |outcome.value| ==>
              r.currentMessages[2 * i..2 * i + 2] == ToUIMessages(outcome.value[i])
    ensures outcome.Ok? ==> r.currentItinerary == LatestItinerary(outcome.value)
    ensures outcome.Ok? ==> r.error == s.error
    ensures outcome.Err? ==> r.error == Some(outcome.error.message)
    ensures outcome.Err? ==> r.currentMessages == s.currentMessages && r.currentItinerary == s.currentItinerary
    ensures !r.isLoading
    ensures r.sessions == s.sessions && r.currentSessionId == s.currentSessionId
    ensures r.confirmedTrip == s.confirmedTrip && r.routeData == s.routeData
  {
    match outcome
    case Ok(ms) =>
      s.(currentMessages := FlattenMessages(ms), currentItinerary := LatestItinerary(ms), isLoading := false)
    case Err(e) =>
      s.(error := Some(e.message), isLoading := false)
  }

  /** Earlier itineraries of a conversation are superseded by the last exchange's, never merged. */
  lemma LatestItinerarySupersedes(s: Store, earlier: seq<StoredMessage>, last: StoredMessage)
    ensures SetCurrentSessionComplete(s, Ok(earlier + [last])).currentItinerary
         == SetCurrentSessionComplete(s, Ok([last])).currentItinerary
  {
  }

  /**
   * The missing relevance check: a response for session `a` that lands
   * after the user switched to `b` overwrites `b`'s bubbles while `b`
   * stays current.
   */
  lemma StaleSessionResponseCommitted(s: Store, a: string, b: string, msgsOfA: seq<StoredMessage>)
    requires a != "" && b != "" && a != b
    ensures var s1 := SetCurrentSessionBegin(s, Some(a)).0;
            var s2 := SetCurrentSessionBegin(s1, Some(b)).0;
            var s3 := SetCurrentSessionComplete(s2, Ok(msgsOfA));
            s3.currentSessionId == Some(b) && s3.currentMessages == FlattenMessages(msgsOfA)
  {
  }

  // ---------------------------------------------------------------------
  // sendMessage

  /** What the begin step of `sendMessage` remembers for its completion. */
  datatype PendingSend = PendingSend(sessionAtStart: Option<string>, tempId: string, userInput: string, submittedData: J)

  /**
   * The server's reply to a send: for a new conversation its `convo_id` and
   * `first_message`; for an existing one the message (`convoId` unused).
   */
  datatype SendReply = SendReply(convoId: string, message: StoredMessage)

  /** The store after a completed send, what the call returns or rethrows, and whether the session list refresh was started. */
  datatype SendResult = SendResult(store: Store, returned: Result<J, NetError>, refreshSessions: bool)

  const DefaultSendError := "Something went wrong. Please try again."

  /** `err.response?.data?.detail || err.message || "Something went wrong. Please try again."` */
  function SendErrorText(e: NetError): (r: string)
    ensures r != ""
    ensures e.detail != "" ==> r == e.detail
    ensures e.detail == "" && e.message != "" ==> r == e.message
    ensures e.detail == "" && e.message == "" ==> r == DefaultSendError
  {
    if e.detail != "" then e.detail else if e.message != "" then e.message else DefaultSendError
  }

  /** The warning-sign prefix of an error bubble. */
  const WarningPrefix := "\U{26A0}\U{FE0F} "

  /** The assistant bubble reporting a failed send. */
  function ErrorBubble(clock: string, text: string, now: string): (r: UIMessage)
    ensures r.AiBubble? && r.id == clock + "_error" && r.timestamp == now
    ensures Get(r.aiResponse, "text") == JStr(WarningPrefix + text)
    ensures ItineraryIn(r.aiResponse) == JNull
  {
    AiBubble(clock + "_error", JObj([("text", JStr(WarningPrefix + text)), ("itinerary", JNull)]), now)
  }

  /**
   * Begin step of `sendMessage(userInput, submittedData)`: the user's text
   * is shown at once under a temporary id, loading starts, and the current
   * session id is read before the request goes out.
   */
  function SendMessageBegin(s: Store, userInput: string, submittedData: J, tempId: string, now: string): (r: (Store, PendingSend))
    ensures r.0.currentMessages == s.currentMessages + [UserBubble(tempId, userInput, submittedData, now)]
    ensures r.0.isLoading
    ensures r.1 == PendingSend(s.currentSessionId, tempId, userInput, submittedData)
    ensures r.0.sessions == s.sessions && r.0.currentSessionId == s.currentSessionId
    ensures r.0.currentItinerary == s.currentItinerary && r.0.confirmedTrip == s.confirmedTrip
    ensures r.0.routeData == s.routeData && r.0.error == s.error
  {
    (s.(currentMessages := s.currentMessages + [UserBubble(tempId, userInput, submittedData, now)], isLoading := true),
     PendingSend(s.currentSessionId, tempId, userInput, submittedData))
  }

  /**
   * Complete step of `sendMessage`. On success the temporary bubble is
   * replaced by the saved exchange's two bubbles, appended last; a new
   * conversation's id becomes current and a session-list refresh starts;
   * the itinerary is replaced only by a truthy one. On failure the
   * temporary bubble stays, one error bubble is appended, and the error is
   * rethrown.
   */
  function SendMessageComplete(s: Store, p: PendingSend, outcome: Result<SendReply, NetError>, clock: string, now: string): (r: SendResult)
    ensures !r.store.isLoading
    ensures r.store.sessions == s.sessions && r.store.confirmedTrip == s.confirmedTrip && r.store.routeData == s.routeData
    ensures outcome.Ok? ==> var m := outcome.value.message;
              && |r.store.currentMessages| >= 2
              && r.store.currentMessages[|r.store.currentMessages| - 2..] == ToUIMessages(m)
              && r.store.currentMessages[..|r.store.currentMessages| - 2] == Filter(s.currentMessages, (u: UIMessage) => u.id != p.tempId)
              && r.returned == Ok(m.aiOutput)
              && r.store.error == s.error
              && (JsTruthy(ItineraryIn(m.aiOutput)) ==> r.store.currentItinerary == ItineraryIn(m.aiOutput))
              && (!JsTruthy(ItineraryIn(m.aiOutput)) ==> r.store.currentItinerary == s.currentItinerary)
    ensures outcome.Ok? ==> (r.refreshSessions <==> !IdTruthy(p.sessionAtStart))
    ensures outcome.Ok? && !IdTruthy(p.sessionAtStart) ==> r.store.currentSessionId == Some(outcome.value.convoId)
    ensures outcome.Ok? && IdTruthy(p.sessionAtStart) ==> r.store.currentSessionId == s.currentSessionId
    ensures outcome.Err? ==> var text := SendErrorText(outcome.error);
              && r.store.currentMessages == s.currentMessages + [ErrorBubble(clock, text, now)]
              && r.store.error == Some(text)
              && r.returned == Err(outcome.error)
              && !r.refreshSessions
              && r.store.currentSessionId == s.currentSessionId
              && r.store.currentItinerary == s.currentItinerary
  {
    match outcome
    case Ok(reply) =>
      var startedNew := !IdTruthy(p.sessionAtStart);
      var s1 := if startedNew then s.(currentSessionId := Some(reply.convoId)) else s;
      var m := reply.message;
      var kept := Filter(s1.currentMessages, (u: UIMessage) => u.id != p.tempId);
      var msgs := kept + ToUIMessages(m);
      assert msgs[..|msgs| - 2] == kept;
      SendResult(
        s1.(currentMessages := msgs,
            currentItinerary := JsOr(ItineraryIn(m.aiOutput), s1.currentItinerary),
            isLoading := false),
        Ok(m.aiOutput),
        startedNew)
    case Err(e) =>
      var text := SendErrorText(e);
      SendResult(
        s.(currentMessages := s.currentMessages + [ErrorBubble(clock, text, now)],
           error := Some(text),
           isLoading := false),
        Err(e),
        false)
  }

  /** No bubble of the list carries the id `id`. */
  predicate FreshId(msgs: seq<UIMessage>, id: string) {
    forall i :: 0 <= i < |msgs| ==> msgs[i].id != id
  }

  /**
   * A send that succeeds with nothing in between: the earlier bubbles keep
   * their order, the temporary bubble is gone, and exactly the saved pair
   * is appended.
   */
  lemma SendSuccessReplacesPending(s: Store, input: string, data: J, tempId: string, now: string,
                                   reply: SendReply, clock: string, later: string)
    requires FreshId(s.currentMessages, tempId)
    ensures var (s1, p) := SendMessageBegin(s, input, data, tempId, now);
            var r := SendMessageComplete(s1, p, Ok(reply), clock, later);
            r.store.currentMessages == s.currentMessages + ToUIMessages(reply.message)
            && !r.store.isLoading
  {
    var (s1, p) := SendMessageBegin(s, input, data, tempId, now);
    var keep := (u: UIMessage) => u.id != tempId;
    var temp := UserBubble(tempId, input, data, now);
    FilterAppend(s.currentMessages, [temp], keep);
    FilterAllPass(s.currentMessages, keep);
    assert Filter([temp], keep) == [];
  }

  /**
   * A send that fails with nothing in between: the user's bubble stays and
   * one assistant bubble with the warning text follows it.
   */
  lemma SendFailureKeepsPending(s: Store, input: string, data: J, tempId: string, now: string,
                                e: NetError, clock: string, later: string)
    ensures var (s1, p) := SendMessageBegin(s, input, data, tempId, now);
            var r := SendMessageComplete(s1, p, Err(e), clock, later);
            && r.store.currentMessages
               == s.currentMessages + [UserBubble(tempId, input, data, now), ErrorBubble(clock, SendErrorText(e), later)]
            && r.store.currentMessages[|r.store.currentMessages| - 1].aiResponse
               == JObj([("text", JStr(WarningPrefix + SendErrorText(e))), ("itinerary", JNull)])
            && r.store.error == Some(SendErrorText(e))
            && !r.store.isLoading
            && r.returned == Err(e)
  {
  }

  /** With no session open, a successful send adopts the new conversation's id and starts a list refresh. */
  lemma SendWithoutSessionAdoptsNewConversation(s: Store, input: string, tempId: string, now: string,
                                                reply: SendReply, clock: string, later: string)
    requires s.currentSessionId == None
    ensures var (s1, p) := SendMessageBegin(s, input, JNull, tempId, now);
            var r := SendMessageComplete(s1, p, Ok(reply), clock, later);
            r.store.currentSessionId == Some(reply.convoId) && r.refreshSessions
  {
  }

  /**
   * The session id is read before the request: a session opened while the
   * send is in flight does not redirect it, and a send begun with no
   * session adopts the new conversation's id over the one opened meanwhile.
   */
  lemma SendUsesSessionReadAtStart(s: Store, input: string, tempId: string, now: string, other: string,
                                   reply: SendReply, clock: string, later: string)
    requires s.currentSessionId == None && other != "" && other != reply.convoId
    ensures var (s1, p) := SendMessageBegin(s, input, JNull, tempId, now);
            var s2 := SetCurrentSessionBegin(s1, Some(other)).0;
            var r := SendMessageComplete(s2, p, Ok(reply), clock, later);
            s2.currentSessionId == Some(other) && r.store.currentSessionId == Some(reply.convoId)
  {
  }

  // ---------------------------------------------------------------------
  // deleteSession

  /** `err.response?.data?.detail || err.message` */
  function DetailOrMessage(e: NetError): string {
    if e.detail != "" then e.detail else e.message
  }

  /**
   * Complete step of `deleteSession(id)` (the begin step changes nothing).
   * Success drops every summary with that id and, only if it was the open
   * conversation, resets the five fields of the open conversation together.
   */
  function DeleteSessionComplete(s: Store, id: string, outcome: Result<(), NetError>): (r: Store)
    ensures outcome.Ok? ==> forall i :: 0 <= i < |r.sessions| ==> r.sessions[i].convoId != id && r.sessions[i] in s.sessions
    ensures outcome.Ok? ==> forall i :: 0 <= i < |s.sessions| && s.sessions[i].convoId != id ==> s.sessions[i] in r.sessions
    ensures outcome.Ok? && s.currentSessionId == Some(id) ==>
              && r.currentSessionId == None && r.currentMessages == [] && r.currentItinerary == JNull
              && r.confirmedTrip == JNull && r.routeData == JNull
    ensures outcome.Ok? && s.currentSessionId != Some(id) ==>
              && r.currentSessionId == s.currentSessionId && r.currentMessages == s.currentMessages
              && r.currentItinerary == s.currentItinerary && r.confirmedTrip == s.confirmedTrip
              && r.routeData == s.routeData
    ensures outcome.Ok? ==> r.error == s.error
    ensures outcome.Err? ==> r == s.(error := Some(DetailOrMessage(outcome.error)))
    ensures r.isLoading == s.isLoading
  {
    match outcome
    case Ok(_) =>
      var kept := Filter(s.sessions, (x: Session) => x.convoId != id);
      if s.currentSessionId == Some(id) then
        s.(sessions := kept, currentSessionId := None, currentMessages := [], currentItinerary := JNull,
           confirmedTrip := JNull, routeData := JNull)
      else s.(sessions := kept)
    case Err(e) => s.(error := Some(DetailOrMessage(e)))
  }

  /** Deleting the same conversation twice leaves the list as one deletion does. */
  lemma DeleteSessionIdempotent(s: Store, id: string)
    ensures var once := DeleteSessionComplete(s, id, Ok(()));
            DeleteSessionComplete(once, id, Ok(())).sessions == once.sessions
  {
    var once := DeleteSessionComplete(s, id, Ok(()));
    FilterAllPass(once.sessions, (x: Session) => x.convoId != id);
  }

  /** Deletion removes every copy of a summary with that id and keeps every other one as often as it occurred. */
  lemma DeleteSessionMultiset(s: Store, id: string)
    ensures forall x :: multiset(DeleteSessionComplete(s, id, Ok(())).sessions)[x]
                     == if x.convoId != id then multiset(s.sessions)[x] else 0
  {
    FilterMultiset(s.sessions, (x: Session) => x.convoId != id);
  }

  /** Deletion keeps the order of the list: deleting from a concatenation deletes from each part. */
  lemma DeleteSessionOrder(s: Store, id: string, a: seq<Session>, b: seq<Session>)
    requires s.sessions == a + b
    ensures DeleteSessionComplete(s, id, Ok(())).sessions
         == DeleteSessionComplete(s.(sessions := a), id, Ok(())).sessions
          + DeleteSessionComplete(s.(sessions := b), id, Ok(())).sessions
  {
    FilterAppend(a, b, (x: Session) => x.convoId != id);
  }

  // ---------------------------------------------------------------------
  // confirmItinerary and clearConfirmedTrip

  /** Begin step of `confirmItinerary`: only loading starts. */
  function ConfirmItineraryBegin(s: Store): (r: Store)
    ensures r.isLoading && r.(isLoading := s.isLoading) == s
  {
    s.(isLoading := true)
  }

  /** `{name: n}` for every `n`, in order. */
  function NameStubs(names: seq<J>): (r: seq<J>)
    ensures |r| == |names|
    ensures forall i :: 0 <= i < |names| ==> r[i] == Single("name", names[i])
  {
    seq(|names|, i requires 0 <= i < |names| => Single("name", names[i]))
  }

  /**
   * The route shown when route planning fails: the given order, no legs,
   * no transport, no total, a name stub per place, and a hotel stub only
   * for a truthy hotel name. The place names are whatever the caller
   * passed, in practice one list of names per day.
   */
  function FallbackRoute(placeNames: seq<J>, hotelName: J): (r: J)
    ensures Get(r, "ordered_route") == JArr(placeNames)
    ensures Get(r, "legs") == JArr([]) && Get(r, "transport_options") == JArr([])
    ensures Get(r, "total_road_time_mins") == JNull
    ensures Get(r, "places_detail") == JArr(NameStubs(placeNames))
    ensures JsTruthy(hotelName) ==> Get(r, "hotels_detail") == JArr([Single("name", hotelName)])
    ensures !JsTruthy(hotelName) ==> Get(r, "hotels_detail") == JArr([])
  {
    var fs := [("ordered_route", JArr(placeNames)),
               ("legs", JArr([])),
               ("total_road_time_mins", JNull),
               ("places_detail", JArr(NameStubs(placeNames))),
               ("hotels_detail", JArr(if JsTruthy(hotelName) then [Single("name", hotelName)] else [])),
               ("transport_options", JArr([]))];
    FieldsOfUnique(fs);
    assert fs[1].0 == "legs" && fs[2].0 == "total_road_time_mins" && fs[3].0 == "places_detail";
    assert fs[4].0 == "hotels_detail" && fs[5].0 == "transport_options";
    JObj(fs)
  }

  /**
   * Complete step of `confirmItinerary(placeNames, hotelName)`: the current
   * itinerary is frozen as the confirmed trip whether or not planning
   * succeeded, and the route is the server's or the local fallback.
   */
  function ConfirmItineraryComplete(s: Store, placeNames: seq<J>, hotelName: J, outcome: Result<J, NetError>): (r: Store)
    ensures r.confirmedTrip == s.currentItinerary
    ensures !r.isLoading
    ensures outcome.Ok? ==> r.routeData == outcome.value
    ensures outcome.Err? ==> r.routeData == FallbackRoute(placeNames, hotelName)
    ensures r.sessions == s.sessions && r.currentSessionId == s.currentSessionId
    ensures r.currentMessages == s.currentMessages && r.currentItinerary == s.currentItinerary
    ensures r.error == s.error
  {
    match outcome
    case Ok(route) => s.(confirmedTrip := s.currentItinerary, routeData := route, isLoading := false)
    case Err(_) => s.(confirmedTrip := s.currentItinerary, routeData := FallbackRoute(placeNames, hotelName), isLoading := false)
  }

  /** `clearConfirmedTrip()`: back to the plain chat view, nothing else touched. */
  function ClearConfirmedTrip(s: Store): (r: Store)
    ensures r.confirmedTrip == JNull && r.routeData == JNull
    ensures r.(confirmedTrip := s.confirmedTrip, routeData := s.routeData) == s
  {
    s.(confirmedTrip := JNull, routeData := JNull)
  }

  /** Clearing twice is clearing once, and clearing undoes a confirmation's two fields. */
  lemma ClearConfirmedTripIdempotent(s: Store, placeNames: seq<J>, hotelName: J, outcome: Result<J, NetError>)
    ensures ClearConfirmedTrip(ClearConfirmedTrip(s)) == ClearConfirmedTrip(s)
    ensures var c := ClearConfirmedTrip(ConfirmItineraryComplete(ConfirmItineraryBegin(s), placeNames, hotelName, outcome));
            c.confirmedTrip == JNull && c.routeData == JNull && !c.isLoading
            && c.currentMessages == s.currentMessages && c.currentItinerary == s.currentItinerary
  {
  }
}

=== FILE: IngestReviews.dfy ===
/**
 * The review ingestion script's pure part: which items a data file holds,
 * how each item's id and name are resolved, which reviews become vectors
 * under which ids, and how the vectors are cut into upsert batches.
 */
module IngestReviews {
  import opened Wrappers
  import opened Json
  import opened Text
  import opened Seqs

  /** A vector record as upserted; the embedding itself is left out. */
  datatype Vector = Vector(
    id: string,
    enrichedText: string,
    parentId: string,
    parentName: J,
    kind: string,
    text: J,
    rating: real)

  /** The largest batch the loop lets accumulate. */
  const BatchSize: nat := 50

  // ---------------------------------------------------------------------
  // Items

  /** The items of a data file: its `transport_agencies` when it is a dict holding that key, else the file itself. */
  function Items(data: J): (r: Option<seq<J>>)
    ensures Lookup(data, "transport_agencies").Some? ==> r == Iterate(Lookup(data, "transport_agencies").value)
    ensures Lookup(data, "transport_agencies").None? ==> r == Iterate(data)
  {
    match Lookup(data, "transport_agencies")
    case Some(agencies) => Iterate(agencies)
    case None => Iterate(data)
  }

  /** A list file yields its own elements. */
  lemma ListFileItems(xs: seq<J>)
    ensures Items(JArr(xs)) == Some(xs)
  {
  }

  // ---------------------------------------------------------------------
  // Identity of an item

  /** `str(item.get('id') or item.get('hotel_id') or item.get('agency_id'))`. */
  function ItemId(item: J, pyStr: J -> string): (r: string)
    ensures PyTruthy(Get(item, "id")) ==> r == pyStr(Get(item, "id"))
    ensures !PyTruthy(Get(item, "id")) && PyTruthy(Get(item, "hotel_id")) ==> r == pyStr(Get(item, "hotel_id"))
    ensures !PyTruthy(Get(item, "id")) && !PyTruthy(Get(item, "hotel_id")) ==> r == pyStr(Get(item, "agency_id"))
  {
    pyStr(PyOr(PyOr(Get(item, "id"), Get(item, "hotel_id")), Get(item, "agency_id")))
  }

  /** `item.get('name') or item.get('agency_name')`. */
  function ItemName(item: J): (r: J)
    ensures PyTruthy(Get(item, "name")) ==> r == Get(item, "name")
    ensures !PyTruthy(Get(item, "name")) ==> r == Get(item, "agency_name")
  {
    PyOr(Get(item, "name"), Get(item, "agency_name"))
  }

  // ---------------------------------------------------------------------
  // Reviews of an item

  /** The description review: the item's description rated by its `scores.user_rating`, 5.0 when missing. */
  function DescriptionReview(desc: J, scores: J): J
    requires scores.JObj?
  {
    JObj([("review_text", desc), ("rating", PyGet(scores, "user_rating", JNum(5.0)))])
  }

  /**
   * The reviews an item contributes: its `reviews` (default empty), and a
   * truthy `description` (else `agency_description`) appended as one more.
   * `None` where Python raises: appending to a non-list, a non-dict
   * `scores`, or iterating a value that is not iterable.
   */
  function ItemReviews(item: J): Option<seq<J>>
    requires item.JObj?
  {
    var desc := PyOr(Get(item, "description"), Get(item, "agency_description"));
    var base := PyGet(item, "reviews", JArr([]));
    if !PyTruthy(desc) then Iterate(base)
    else
      var scores := PyGet(item, "scores", JObj([]));
      if !base.JArr? || !scores.JObj? then None
      else
        var extra := DescriptionReview(desc, scores);
        Some(base.items + [extra])
  }

  /**
   * Without a truthy description the reviews are the item's own; with one,
   * the description follows them as one more review, rated by
   * `scores.user_rating` or 5.0.
   */
  lemma ItemReviewsFacts(item: J)
    requires item.JObj?
    ensures var r := ItemReviews(item);
            var desc := PyOr(Get(item, "description"), Get(item, "agency_description"));
            var base := PyGet(item, "reviews", JArr([]));
            && (!PyTruthy(desc) ==> r == Iterate(base))
            && (PyTruthy(desc) ==> (r.Some? <==> base.JArr? && PyGet(item, "scores", JObj([])).JObj?))
            && (PyTruthy(desc) && r.Some? ==>
                  && |r.value| == |base.items| + 1
                  && r.value[..|base.items|] == base.items
                  && Get(r.value[|base.items|], "review_text") == desc
                  && Get(r.value[|base.items|], "rating") == PyGet(PyGet(item, "scores", JObj([])), "user_rating", JNum(5.0)))
  {
    var desc := PyOr(Get(item, "description"), Get(item, "agency_description"));
    var base := PyGet(item, "reviews", JArr([]));
    var scores := PyGet(item, "scores", JObj([]));
    if PyTruthy(desc) && base.JArr? && scores.JObj? {
      var extra := DescriptionReview(desc, scores);
      assert extra.fields[1].0 == "rating";
      FieldOfAt(extra.fields, 1);
      var r := base.items + [extra];
      assert r[..|base.items|] == base.items;
    }
  }

  /** A review yields a vector when it is a dict whose `review_text` is truthy. */
  predicate HasText(rev: J) {
    rev.JObj? && PyTruthy(Get(rev, "review_text"))
  }

  /** The id of the vector for review `i` of an item. */
  function VectorId(kind: string, itemId: string, i: nat): string {
    kind + "_" + itemId + "_" + NatToString(i)
  }

  /** The text embedded for a review: the kind and the item's name in brackets, then the review. */
  function EnrichedText(kind: string, name: J, text: J, pyStr: J -> string): string {
    "[" + kind + ": " + pyStr(name) + "] " + pyStr(text)
  }

  /**
   * What review `i` contributes: no vector when its text is falsy, else one
   * vector. `None` where Python raises: a review that is not a dict, or a
   * rating `float` cannot convert.
   */
  function ReviewStep(kind: string, itemId: string, name: J, rev: J, i: nat,
                      pyStr: J -> string, toFloat: J -> Option<real>): Option<seq<Vector>>
  {
    if !rev.JObj? then None
    else
      var text := Get(rev, "review_text");
      if !PyTruthy(text) then Some([])
      else match toFloat(PyGet(rev, "rating", JNum(0.0)))
        case None => None
        case Some(rating) =>
          Some([Vector(VectorId(kind, itemId, i), EnrichedText(kind, name, text, pyStr), itemId, name, kind, text, rating)])
  }

  /**
   * A review without text is skipped; a review with text gives one vector
   * whose id carries the review's position, whose metadata text is the raw
   * review text and whose enriched text is only the embedded one.
   */
  lemma ReviewStepFacts(kind: string, itemId: string, name: J, rev: J, i: nat,
                        pyStr: J -> string, toFloat: J -> Option<real>)
    ensures var r := ReviewStep(kind, itemId, name, rev, i, pyStr, toFloat);
            && (!rev.JObj? ==> r.None?)
            && (rev.JObj? && !HasText(rev) ==> r == Some([]))
            && (HasText(rev) ==> (r.Some? <==> toFloat(PyGet(rev, "rating", JNum(0.0))).Some?))
            && (r.Some? && HasText(rev) ==>
                  && |r.value| == 1
                  && r.value[0].id == VectorId(kind, itemId, i)
                  && r.value[0].text == Get(rev, "review_text")
                  && r.value[0].enrichedText == EnrichedText(kind, name, Get(rev, "review_text"), pyStr)
                  && r.value[0].parentId == itemId && r.value[0].parentName == name && r.value[0].kind == kind
                  && Some(r.value[0].rating) == toFloat(PyGet(rev, "rating", JNum(0.0))))
  {
  }

  /** The positions of the reviews that yield a vector, in increasing order. */
  function TextPositions(reviews: seq<J>): (r: seq<nat>)
    ensures forall k :: 0 <= k < |r| ==> r[k] < |reviews| && HasText(reviews[r[k]])
    ensures forall k, l :: 0 <= k < l < |r| ==> r[k] < r[l]
    ensures forall i :: 0 <= i < |reviews| && HasText(reviews[i]) ==> i in r
    decreases |reviews|
  {
    if reviews == [] then []
    else
      var init := reviews[..|reviews| - 1];
      var prev := TextPositions(init);
      assert forall i :: 0 <= i < |init| ==> init[i] == reviews[i];
      if HasText(reviews[|reviews| - 1]) then prev + [|init|] else prev
  }

  /** One vector per review with text: the positions are as many as the reviews `Filter` keeps. */
  lemma {:induction false} TextPositionsCount(reviews: seq<J>)
    ensures |TextPositions(reviews)| == |Filter(reviews, HasText)|
    decreases |reviews|
  {
    if reviews != [] {
      var init := reviews[..|reviews| - 1];
      assert reviews == init + [reviews[|reviews| - 1]];
      FilterAppend(init, [reviews[|reviews| - 1]], HasText);
      TextPositionsCount(init);
    }
  }

  /** The step of every review, at its own position, succeeds. */
  predicate StepsSucceed(kind: string, itemId: string, name: J, reviews: seq<J>,
                         pyStr: J -> string, toFloat: J -> Option<real>) {
    forall i :: 0 <= i < |reviews| ==> ReviewStep(kind, itemId, name, reviews[i], i, pyStr, toFloat).Some?
  }

  /** All steps succeed iff those of the earlier reviews and that of the last one do. */
  lemma StepsSucceedSnoc(kind: string, itemId: string, name: J, reviews: seq<J>,
                         pyStr: J -> string, toFloat: J -> Option<real>)
    requires reviews != []
    ensures var n := |reviews| - 1;
            StepsSucceed(kind, itemId, name, reviews, pyStr, toFloat)
            <==> StepsSucceed(kind, itemId, name, reviews[..n], pyStr, toFloat)
                 && ReviewStep(kind, itemId, name, reviews[n], n, pyStr, toFloat).Some?
  {
    var n := |reviews| - 1;
    assert forall i :: 0 <= i < n ==> reviews[..n][i] == reviews[i];
  }

  /** The vectors of an item's reviews, in review order. */
  function ReviewVectors(kind: string, itemId: string, name: J, reviews: seq<J>,
                         pyStr: J -> string, toFloat: J -> Option<real>): (r: Option<seq<Vector>>)
    ensures r.Some? <==> StepsSucceed(kind, itemId, name, reviews, pyStr, toFloat)
    ensures r.Some? ==> |r.value| == |TextPositions(reviews)|
    ensures r.Some? ==> forall k :: 0 <= k < |r.value| ==>
              r.value[k].id == VectorId(kind, itemId, TextPositions(reviews)[k])
    decreases |reviews|
  {
    if reviews == [] then Some([])
    else
      var n := |reviews| - 1;
      var init := reviews[..n];
      StepsSucceedSnoc(kind, itemId, name, reviews, pyStr, toFloat);
      match (ReviewVectors(kind, itemId, name, init, pyStr, toFloat), ReviewStep(kind, itemId, name, reviews[n], n, pyStr, toFloat))
      case (Some(prev), Some(step)) =>
        var ps, pi := TextPositions(reviews), TextPositions(init);
        assert ps == if HasText(reviews[n]) then pi + [n] else pi;
        IdsStep(kind, itemId, prev, step, pi, ps, n, HasText(reviews[n]));
        Some(prev + step)
      case (None, _) => None
      case (_, None) => None
  }

  /** Appending the vectors of review `n` keeps every id matched to its review's position. */
  lemma IdsStep(kind: string, itemId: string, prev: seq<Vector>, step: seq<Vector>, pi: seq<nat>, ps: seq<nat>, n: nat, has: bool)
    requires |prev| == |pi| && forall k :: 0 <= k < |prev| ==> prev[k].id == VectorId(kind, itemId, pi[k])
    requires ps == if has then pi + [n] else pi
    requires has ==> |step| == 1 && step[0].id == VectorId(kind, itemId, n)
    requires !has ==> step == []
    ensures |prev + step| == |ps|
    ensures forall k :: 0 <= k < |ps| ==> (prev + step)[k].id == VectorId(kind, itemId, ps[k])
  {
    if has {
      assert (prev + step)[|prev|] == step[0];
    } else {
      assert prev + step == prev;
    }
  }

  /** Reviews are numbered by their position in the list: the ids of one item's vectors are distinct. */
  lemma ItemIdsDistinct(kind: string, itemId: string, name: J, reviews: seq<J>,
                        pyStr: J -> string, toFloat: J -> Option<real>)
    requires ReviewVectors(kind, itemId, name, reviews, pyStr, toFloat).Some?
    ensures var vs := ReviewVectors(kind, itemId, name, reviews, pyStr, toFloat).value;
            forall k, l :: 0 <= k < l < |vs| ==> vs[k].id != vs[l].id
  {
    var vs := ReviewVectors(kind, itemId, name, reviews, pyStr, toFloat).value;
    var ps := TextPositions(reviews);
    forall k, l | 0 <= k < l < |vs| ensures vs[k].id != vs[l].id {
      assert vs[k].id == VectorId(kind, itemId, ps[k]);
      assert vs[l].id == VectorId(kind, itemId, ps[l]);
      VectorIdInjective(kind, itemId, ps[k], ps[l]);
    }
  }

  /** Different review positions give different ids. */
  lemma VectorIdInjective(kind: string, itemId: string, i: nat, j: nat)
    requires i != j
    ensures VectorId(kind, itemId, i) != VectorId(kind, itemId, j)
  {
    var p := kind + "_" + itemId + "_";
    if VectorId(kind, itemId, i) == VectorId(kind, itemId, j) {
      assert NatToString(i) == VectorId(kind, itemId, i)[|p|..];
      assert NatToString(j) == VectorId(kind, itemId, j)[|p|..];
      NatToStringRoundTrip(i);
      NatToStringRoundTrip(j);
    }
  }

  /** An item yields exactly as many vectors as it has reviews with text. */
  lemma ReviewVectorCount(kind: string, itemId: string, name: J, reviews: seq<J>,
                          pyStr: J -> string, toFloat: J -> Option<real>)
    requires ReviewVectors(kind, itemId, name, reviews, pyStr, toFloat).Some?
    ensures |ReviewVectors(kind, itemId, name, reviews, pyStr, toFloat).value| == |Filter(reviews, HasText)|
  {
    TextPositionsCount(reviews);
  }

  /**
   * The k-th vector of an item is the one its k-th review with text yields,
   * numbered by that review's position in the list.
   */
  lemma {:induction false} ReviewVectorsContents(kind: string, itemId: string, name: J, reviews: seq<J>,
                                                 pyStr: J -> string, toFloat: J -> Option<real>)
    requires ReviewVectors(kind, itemId, name, reviews, pyStr, toFloat).Some?
    ensures var vs := ReviewVectors(kind, itemId, name, reviews, pyStr, toFloat).value;
            var ps := TextPositions(reviews);
            forall k :: 0 <= k < |vs| ==> ReviewStep(kind, itemId, name, reviews[ps[k]], ps[k], pyStr, toFloat) == Some([vs[k]])
    decreases |reviews|
  {
    if reviews != [] {
      var n := |reviews| - 1;
      var init := reviews[..n];
      ReviewVectorsContents(kind, itemId, name, init, pyStr, toFloat);
      var prev := ReviewVectors(kind, itemId, name, init, pyStr, toFloat).value;
      var step := ReviewStep(kind, itemId, name, reviews[n], n, pyStr, toFloat).value;
      var vs := ReviewVectors(kind, itemId, name, reviews, pyStr, toFloat).value;
      assert vs == prev + step;
      var pi, ps := TextPositions(init), TextPositions(reviews);
      assert ps == if HasText(reviews[n]) then pi + [n] else pi;
      ReviewStepFacts(kind, itemId, name, reviews[n], n, pyStr, toFloat);
      forall k | 0 <= k < |vs|
        ensures ReviewStep(kind, itemId, name, reviews[ps[k]], ps[k], pyStr, toFloat) == Some([vs[k]])
      {
        if k < |prev| {
          assert vs[k] == prev[k] && ps[k] == pi[k];
          assert reviews[pi[k]] == init[pi[k]];
        } else {
          assert HasText(reviews[n]) && vs[k] == step[0] && ps[k] == n;
          assert step == [step[0]];
        }
      }
    }
  }

  /** The vectors of one item; `None` where the item is not a dict or a review raises. */
  function ItemVectors(kind: string, item: J, pyStr: J -> string, toFloat: J -> Option<real>): Option<seq<Vector>>
  {
    if !item.JObj? then None
    else match ItemReviews(item)
      case None => None
      case Some(reviews) => ReviewVectors(kind, ItemId(item, pyStr), ItemName(item), reviews, pyStr, toFloat)
  }

  /**
   * An item's vectors are one per review with text, each tagged with the
   * item's id, name and kind, under pairwise distinct ids.
   */
  lemma ItemVectorsFacts(kind: string, item: J, pyStr: J -> string, toFloat: J -> Option<real>)
    requires ItemVectors(kind, item, pyStr, toFloat).Some?
    ensures item.JObj? && ItemReviews(item).Some?
    ensures var vs := ItemVectors(kind, item, pyStr, toFloat).value;
            && |vs| == |Filter(ItemReviews(item).value, HasText)|
            && (forall k :: 0 <= k < |vs| ==>
                  vs[k].parentId == ItemId(item, pyStr) && vs[k].parentName == ItemName(item) && vs[k].kind == kind)
            && (forall k, l :: 0 <= k < l < |vs| ==> vs[k].id != vs[l].id)
  {
    var reviews := ItemReviews(item).value;
    var itemId, name := ItemId(item, pyStr), ItemName(item);
    ReviewVectorCount(kind, itemId, name, reviews, pyStr, toFloat);
    ItemIdsDistinct(kind, itemId, name, reviews, pyStr, toFloat);
    ReviewVectorsContents(kind, itemId, name, reviews, pyStr, toFloat);
    var vs := ReviewVectors(kind, itemId, name, reviews, pyStr, toFloat).value;
    var ps := TextPositions(reviews);
    forall k | 0 <= k < |vs|
      ensures vs[k].parentId == itemId && vs[k].parentName == name && vs[k].kind == kind
    {
      ReviewStepFacts(kind, itemId, name, reviews[ps[k]], ps[k], pyStr, toFloat);
    }
  }

  /** All vectors of a data file, item after item. */
  function StreamOf(kind: string, items: seq<J>, pyStr: J -> string, toFloat: J -> Option<real>): (r: Option<seq<Vector>>)
    ensures r.Some? <==> forall i :: 0 <= i < |items| ==> ItemVectors(kind, items[i], pyStr, toFloat).Some?
  {
    FlatMapAll(items, ItemsVectors(kind, pyStr, toFloat))
  }

  /** `ItemVectors` for a fixed kind and conversions, as a function of the item. */
  function ItemsVectors(kind: string, pyStr: J -> string, toFloat: J -> Option<real>): J -> Option<seq<Vector>> {
    (item: J) => ItemVectors(kind, item, pyStr, toFloat)
  }

  /** The stream is the concatenation of the items' vector lists, item after item. */
  lemma StreamOfFlatten(kind: string, items: seq<J>, pyStr: J -> string, toFloat: J -> Option<real>)
    requires StreamOf(kind, items, pyStr, toFloat).Some?
    ensures var parts := MapAll(items, ItemsVectors(kind, pyStr, toFloat));
            && parts.Some?
            && StreamOf(kind, items, pyStr, toFloat).value == Flatten(parts.value)
            && forall i :: 0 <= i < |items| ==> Some(parts.value[i]) == ItemVectors(kind, items[i], pyStr, toFloat)
  {
    FlatMapAllFlatten(items, ItemsVectors(kind, pyStr, toFloat));
  }

  // ---------------------------------------------------------------------
  // Batching

  /** Reference cut of a stream: full batches of `BatchSize`, then the remainder if any. */
  function Chunks(vs: seq<Vector>): (r: seq<seq<Vector>>)
    ensures Flatten(r) == vs
    ensures forall b :: 0 <= b < |r| ==> 1 <= |r[b]| <= BatchSize
    ensures forall b :: 0 <= b < |r| - 1 ==> |r[b]| == BatchSize
    decreases |vs|
  {
    if |vs| <= BatchSize then
      if vs == [] then [] else
        assert Flatten([vs]) == Flatten([]) + vs;
        [vs]
    else
      var rest := Chunks(vs[BatchSize..]);
      FlattenAppend([vs[..BatchSize]], rest);
      assert Flatten([vs[..BatchSize]]) == Flatten([]) + vs[..BatchSize];
      [vs[..BatchSize]] + rest
  }

  /**
   * The batching loop: vectors accumulate, are upserted as soon as fifty
   * are pending, and what is pending at the end is upserted once more.
   */
  method Upserts(stream: seq<Vector>) returns (batches: seq<seq<Vector>>)
    ensures Flatten(batches) == stream
    ensures forall b :: 0 <= b < |batches| ==> 1 <= |batches[b]| <= BatchSize
    ensures |stream| % BatchSize == 0 ==> forall b :: 0 <= b < |batches| ==> |batches[b]| == BatchSize
    ensures |stream| % BatchSize != 0 ==>
              && |batches[|batches| - 1]| == |stream| % BatchSize
              && forall b :: 0 <= b < |batches| - 1 ==> |batches[b]| == BatchSize
    ensures batches == Chunks(stream)
  {
    batches := [];
    var pending: seq<Vector> := [];
    var i := 0;
    while i < |stream|
      invariant 0 <= i <= |stream|
      invariant Flatten(batches) + pending == stream[..i]
      invariant forall b :: 0 <= b < |batches| ==> |batches[b]| == BatchSize
      invariant |pending| < BatchSize
      invariant |Flatten(batches)| == BatchSize * |batches|
    {
      pending := pending + [stream[i]];
      i := i + 1;
      if |pending| >= BatchSize {
        FlattenAppend(batches, [pending]);
        assert Flatten([pending]) == Flatten([]) + pending;
        batches := batches + [pending];
        pending := [];
      }
    }
    if pending != [] {
      FlattenAppend(batches, [pending]);
      assert Flatten([pending]) == Flatten([]) + pending;
      batches := batches + [pending];
    }
    assert stream[..|stream|] == stream;
    ChunksOfFullBatches(batches, stream);
    ChunksSizes(stream);
  }

  /** Every batch of the reference cut but the last is full; the last holds the remainder, or is full when there is none. */
  lemma {:induction false} ChunksSizes(vs: seq<Vector>)
    ensures var r := Chunks(vs);
            && (|vs| % BatchSize == 0 ==> forall b :: 0 <= b < |r| ==> |r[b]| == BatchSize)
            && (|vs| % BatchSize != 0 ==> |r| >= 1 && |r[|r| - 1]| == |vs| % BatchSize)
            && |r| == (|vs| + BatchSize - 1) / BatchSize
    decreases |vs|
  {
    if |vs| > BatchSize {
      var rest := vs[BatchSize..];
      ChunksSizes(rest);
      var r, tail := Chunks(vs), Chunks(rest);
      assert r == [vs[..BatchSize]] + tail;
      ShiftByBatch(|rest|);
      assert forall b :: 1 <= b < |r| ==> r[b] == tail[b - 1];
    }
  }

  /** One more full batch leaves the remainder alone and adds one to the batch count. */
  lemma ShiftByBatch(m: nat)
    ensures (m + BatchSize) % BatchSize == m % BatchSize
    ensures (m + BatchSize + BatchSize - 1) / BatchSize == (m + BatchSize - 1) / BatchSize + 1
  {
  }

  /** A cut into full batches and a short last one is the reference cut. */
  lemma {:induction false} ChunksOfFullBatches(batches: seq<seq<Vector>>, vs: seq<Vector>)
    requires Flatten(batches) == vs
    requires forall b :: 0 <= b < |batches| ==> 1 <= |batches[b]| <= BatchSize
    requires forall b :: 0 <= b < |batches| - 1 ==> |batches[b]| == BatchSize
    ensures batches == Chunks(vs)
    decreases |batches|
  {
    if |batches| == 0 {
    } else if |batches| == 1 {
      assert batches[..0] == [];
      assert Flatten(batches) == Flatten([]) + batches[0];
      assert vs == batches[0];
      assert Chunks(vs) == [vs];
      assert batches == [batches[0]];
    } else {
      var rest := batches[1..];
      assert batches == [batches[0]] + rest;
      FlattenAppend([batches[0]], rest);
      assert Flatten([batches[0]]) == Flatten([]) + batches[0];
      assert |batches[0]| == BatchSize;
      assert |Flatten(rest)| >= |rest[|rest| - 1]| >= 1;
      assert vs[..BatchSize] == batches[0];
      assert vs[BatchSize..] == Flatten(rest);
      ChunksOfFullBatches(rest, vs[BatchSize..]);
      assert Chunks(vs) == [vs[..BatchSize]] + Chunks(vs[BatchSize..]);
    }
  }

  /** The vectors upserted for a data file, or `None` where the script raises. */
  method Ingest(kind: string, data: J, pyStr: J -> string, toFloat: J -> Option<real>)
    returns (upserts: Option<seq<seq<Vector>>>)
    ensures upserts.Some? <==> Items(data).Some? && StreamOf(kind, Items(data).value, pyStr, toFloat).Some?
    ensures upserts.Some? ==> Flatten(upserts.value) == StreamOf(kind, Items(data).value, pyStr, toFloat).value
    ensures upserts.Some? ==> upserts.value == Chunks(StreamOf(kind, Items(data).value, pyStr, toFloat).value)
  {
    match Items(data)
    case None => upserts := None;
    case Some(items) =>
      match StreamOf(kind, items, pyStr, toFloat)
      case None => upserts := None;
      case Some(stream) =>
        var batches := Upserts(stream);
        upserts := Some(batches);
  }
}

=== FILE: ItineraryPanel.dfy ===
/**
 * The itinerary panel: normalisation of the assistant's itinerary (an array
 * of days or an object keyed `day_1`, `day_2`, ...) into a list of days, the
 * per-day place groups and hotel name sent when the trip is confirmed, the
 * time label of an activity card, and the cycling day decorations.
 */
module ItineraryPanel {
  import opened Wrappers
  import opened Json
  import opened Text
  import opened Seqs
  import opened Sorting

  /** A normalised day. `activities` holds strings, or the truthy `description`/`activity` of an activity object. */
  datatype Day = Day(dayNumber: J, theme: J, activities: seq<J>, hotels: J, transport: J)

  /** `` `Day ${n}` `` */
  function DayLabel(n: nat): (r: string)
    ensures |r| > 4 && r[..4] == "Day "
  {
    "Day " + NatToString(n)
  }

  // ---------------------------------------------------------------------
  // parseItinerary

  /**
   * One activity: a string is kept; anything else becomes
   * `a.description || a.activity || JSON.stringify(a)`. `None` for `null`,
   * whose property read throws.
   */
  function ActivityText(a: J, stringify: J -> string): (r: Option<J>)
    ensures r.None? <==> a.JNull?
    ensures a.JStr? ==> r == Some(a)
    ensures r.Some? && !a.JStr? && JsTruthy(Get(a, "description")) ==> r.value == Get(a, "description")
    ensures r.Some? && !a.JStr? && !JsTruthy(Get(a, "description")) && JsTruthy(Get(a, "activity")) ==> r.value == Get(a, "activity")
    ensures r.Some? && !a.JStr? && !JsTruthy(Get(a, "description")) && !JsTruthy(Get(a, "activity")) ==> r.value == JStr(stringify(a))
  {
    if a.JStr? then Some(a)
    else if a.JNull? then None
    else Some(JsOr(Get(a, "description"), JsOr(Get(a, "activity"), JStr(stringify(a)))))
  }

  /** `activities.map(...)` of `ActivityText`, keeping order; `None` when some activity is `null`. */
  function MapActivities(acts: seq<J>, stringify: J -> string): (r: Option<seq<J>>)
    ensures r.Some? <==> forall i :: 0 <= i < |acts| ==> !acts[i].JNull?
    ensures r.Some? ==> |r.value| == |acts|
    ensures r.Some? ==> forall i :: 0 <= i < |acts| ==> Some(r.value[i]) == ActivityText(acts[i], stringify)
  {
    if acts == [] then Some([])
    else
      match (ActivityText(acts[0], stringify), MapActivities(acts[1..], stringify))
      case (Some(a), Some(rest)) => Some([a] + rest)
      case _ => None
  }

  /** An `activities` array holding a `null`, whose mapping throws. */
  predicate NullActivity(day: J) {
    var acts := Get(day, "activities");
    acts.JArr? && exists j :: 0 <= j < |acts.items| && acts.items[j].JNull?
  }

  /** Activities of an array-shaped day: only an array counts. */
  function ArrayDayActivities(day: J, stringify: J -> string): (r: Option<seq<J>>)
    ensures r.None? <==> NullActivity(day)
    ensures !Get(day, "activities").JArr? ==> r == Some([])
    ensures Get(day, "activities").JArr? && r.Some? ==> |r.value| == |Get(day, "activities").items|
  {
    var acts := Get(day, "activities");
    if acts.JArr? then MapActivities(acts.items, stringify) else Some([])
  }

  /** Activities of an object-shaped day: an array, or a lone string wrapped as one activity. */
  function ObjectDayActivities(day: J, stringify: J -> string): (r: Option<seq<J>>)
    ensures r.None? <==> NullActivity(day)
    ensures Get(day, "activities").JStr? ==> r == Some([Get(day, "activities")])
    ensures !Get(day, "activities").JArr? && !Get(day, "activities").JStr? ==> r == Some([])
    ensures Get(day, "activities").JArr? ==> r == ArrayDayActivities(day, stringify)
  {
    var acts := Get(day, "activities");
    if acts.JArr? then MapActivities(acts.items, stringify)
    else if acts.JStr? then Some([acts])
    else Some([])
  }

  /**
   * The fields both shapes share: the theme falls back to `title` and then
   * to "Day i+1", and hotels and transport fall back to their singular
   * spelling and then to `null`.
   */
  function BuildDay(day: J, dayNumber: J, i: nat, activities: seq<J>): Day
  {
    Day(dayNumber,
        JsOr(Get(day, "theme"), JsOr(Get(day, "title"), JStr(DayLabel(i + 1)))),
        activities,
        JsOr(Get(day, "hotels"), JsOr(Get(day, "hotel"), JNull)),
        JsOr(Get(day, "transport"), JsOr(Get(day, "cab"), JNull)))
  }

  /**
   * The shared fields of a day: the theme is always truthy, falling back to
   * `title` and then to "Day i+1"; hotels and transport are `null` only
   * when both of their spellings are falsy.
   */
  lemma BuildDayFields(day: J, dayNumber: J, i: nat, activities: seq<J>)
    ensures var d := BuildDay(day, dayNumber, i, activities);
            && d.dayNumber == dayNumber && d.activities == activities && JsTruthy(d.theme)
            && (JsTruthy(Get(day, "theme")) ==> d.theme == Get(day, "theme"))
            && (!JsTruthy(Get(day, "theme")) && JsTruthy(Get(day, "title")) ==> d.theme == Get(day, "title"))
            && (!JsTruthy(Get(day, "theme")) && !JsTruthy(Get(day, "title")) ==> d.theme == JStr(DayLabel(i + 1)))
            && (d.hotels == JNull <==> !JsTruthy(Get(day, "hotels")) && !JsTruthy(Get(day, "hotel")))
            && (d.hotels != JNull ==> JsTruthy(d.hotels) && (d.hotels == Get(day, "hotels") || d.hotels == Get(day, "hotel")))
            && (d.transport == JNull <==> !JsTruthy(Get(day, "transport")) && !JsTruthy(Get(day, "cab")))
            && (d.transport != JNull ==> JsTruthy(d.transport) && (d.transport == Get(day, "transport") || d.transport == Get(day, "cab")))
  {
  }

  /**
   * The `i`-th element of an array itinerary; `None` when it is `null` or an
   * activity is. Its number is `day || day_number || i + 1`.
   */
  function ArrayDay(day: J, i: nat, stringify: J -> string): (r: Option<Day>)
    ensures r.None? <==> day.JNull? || NullActivity(day)
  {
    if day.JNull? then None
    else
      match ArrayDayActivities(day, stringify)
      case None => None
      case Some(acts) =>
        Some(BuildDay(day, JsOr(Get(day, "day"), JsOr(Get(day, "day_number"), JNum((i + 1) as real))), i, acts))
  }

  /** Array itinerary: one day per element, in order; `start` is the index of `items[0]`. */
  function ArrayDays(items: seq<J>, start: nat, stringify: J -> string): (r: Option<seq<Day>>)
    ensures r.Some? ==> |r.value| == |items|
    ensures r.Some? ==> forall i :: 0 <= i < |items| ==> Some(r.value[i]) == ArrayDay(items[i], start + i, stringify)
    ensures r.None? ==> exists i :: 0 <= i < |items| && ArrayDay(items[i], start + i, stringify).None?
  {
    if items == [] then Some([])
    else
      match (ArrayDay(items[0], start, stringify), ArrayDays(items[1..], start + 1, stringify))
      case (Some(d), Some(rest)) => Some([d] + rest)
      case (None, _) => None
      case (_, None) =>
        var j :| 0 <= j < |items| - 1 && ArrayDay(items[1..][j], start + 1 + j, stringify).None?;
        assert items[1..][j] == items[j + 1];
        None
  }

  /** The sort key of an object entry: the integer its key's digits form, 0 without digits. */
  function EntryKey(e: (string, J)): int {
    KeyNumber(e.0)
  }

  /**
   * The day of an object entry at sorted position `i`: its key's number, or
   * `i + 1` when that is 0; a lone string activity becomes one activity.
   */
  function EntryDay(e: (string, J), i: nat, stringify: J -> string): (r: Option<Day>)
    requires IsJsObject(e.1)
    ensures r.None? <==> NullActivity(e.1)
  {
    var n := KeyNumber(e.0);
    match ObjectDayActivities(e.1, stringify)
    case None => None
    case Some(acts) => Some(BuildDay(e.1, JNum((if n != 0 then n else i + 1) as real), i, acts))
  }

  /**
   * The fields of an entry's day: numbered by its key, or by `i + 1` when the
   * key has no number, with the shared fallbacks of `BuildDay`; a lone string
   * activity becomes one activity.
   */
  lemma EntryDayFields(e: (string, J), i: nat, stringify: J -> string)
    requires IsJsObject(e.1) && EntryDay(e, i, stringify).Some?
    ensures var d := EntryDay(e, i, stringify).value;
            && d == BuildDay(e.1, d.dayNumber, i, ObjectDayActivities(e.1, stringify).value)
            && (KeyNumber(e.0) != 0 ==> d.dayNumber == JNum(KeyNumber(e.0) as real))
            && (KeyNumber(e.0) == 0 ==> d.dayNumber == JNum((i + 1) as real))
            && (Get(e.1, "activities").JStr? ==> d.activities == [Get(e.1, "activities")])
  {
  }

  /** An entry whose value is a non-null object (arrays included), the only entries that give a day. */
  predicate IsObjectEntry(e: (string, J)) {
    IsJsObject(e.1)
  }

  /** Entry i is an object whose day cannot be built (a null activity). */
  predicate EntryFails(entries: seq<(string, J)>, start: nat, stringify: J -> string, i: nat) {
    i < |entries| && IsObjectEntry(entries[i]) && EntryDay(entries[i], start + i, stringify).None?
  }

  /** Some object entry's day cannot be built. */
  predicate SomeEntryFails(entries: seq<(string, J)>, start: nat, stringify: J -> string) {
    exists i :: 0 <= i < |entries| && EntryFails(entries, start, stringify, i)
  }

  /**
   * Object itinerary over its sorted entries: entries whose value is not a
   * non-null object are skipped, but every entry advances the position.
   */
  function ObjectDays(entries: seq<(string, J)>, start: nat, stringify: J -> string): (r: Option<seq<Day>>)
    ensures r.Some? ==> |r.value| <= |entries|
    ensures r.None? <==> SomeEntryFails(entries, start, stringify)
  {
    if entries == [] then Some([])
    else
      var rest := ObjectDays(entries[1..], start + 1, stringify);
      var tail, next := entries[1..], start + 1;
      assert forall i :: 1 <= i < |entries| ==>
               (EntryFails(entries, start, stringify, i) <==> EntryFails(tail, next, stringify, i - 1));
      assert (exists i :: 0 <= i < |tail| && EntryFails(tail, next, stringify, i)) ==>
               exists i :: 0 <= i < |entries| && EntryFails(entries, start, stringify, i) by {
        if i :| 0 <= i < |tail| && EntryFails(tail, next, stringify, i) {
          assert EntryFails(entries, start, stringify, i + 1);
        }
      }
      if !IsJsObject(entries[0].1) then rest
      else
        match (EntryDay(entries[0], start, stringify), rest)
        case (Some(d), Some(ds)) => Some([d] + ds)
        case (None, _) => assert EntryFails(entries, start, stringify, 0); None
        case (_, None) => None
  }

  /**
   * `parseItinerary(data)`. `None` stands for the TypeError thrown on a
   * `null` day of an array or a `null` activity.
   */
  function ParseItinerary(data: J, stringify: J -> string): (r: Option<seq<Day>>)
    ensures !JsTruthy(data) || !IsJsObject(data) ==> r == Some([])
    ensures data.JArr? ==> r == ArrayDays(data.items, 0, stringify)
    ensures data.JObj? ==> r == ObjectDays(SortBy(data.fields, EntryKey), 0, stringify)
    ensures data.JArr? && r.Some? ==> |r.value| == |data.items|
    ensures data.JObj? && r.Some? ==> |r.value| <= |data.fields|
  {
    if !JsTruthy(data) then Some([])
    else if data.JArr? then ArrayDays(data.items, 0, stringify)
    else if data.JObj? then
      SortByFacts(data.fields, EntryKey);
      ObjectDays(SortBy(data.fields, EntryKey), 0, stringify)
    else Some([])
  }

  /**
   * Array input: day `i` takes `day || day_number || i + 1` as its number
   * and `theme || title || "Day i+1"` as its theme, and keeps its
   * activities in order; a non-array `activities` gives none.
   */
  lemma ArrayDayFields(data: J, stringify: J -> string, i: nat)
    requires data.JArr? && i < |data.items|
    requires ParseItinerary(data, stringify).Some?
    ensures var d := ParseItinerary(data, stringify).value[i];
            var day := data.items[i];
            && d.dayNumber == JsOr(Get(day, "day"), JsOr(Get(day, "day_number"), JNum((i + 1) as real)))
            && d.theme == JsOr(Get(day, "theme"), JsOr(Get(day, "title"), JStr(DayLabel(i + 1))))
            && d.hotels == JsOr(Get(day, "hotels"), JsOr(Get(day, "hotel"), JNull))
            && d.transport == JsOr(Get(day, "transport"), JsOr(Get(day, "cab"), JNull))
            && (!Get(day, "activities").JArr? ==> d.activities == [])
            && (Get(day, "activities").JArr? ==> |d.activities| == |Get(day, "activities").items|)
            && JsTruthy(d.dayNumber) && JsTruthy(d.theme)
  {
    assert JsTruthy(data);
    var r := ArrayDays(data.items, 0, stringify);
    assert Some(r.value[i]) == ArrayDay(data.items[i], i, stringify);
  }

  /** Every day's number is a number at least `lo`. */
  predicate NumbersAtLeast(ds: seq<Day>, lo: real) {
    forall j :: 0 <= j < |ds| ==> ds[j].dayNumber.JNum? && ds[j].dayNumber.n >= lo
  }

  /** The days' numbers are numbers in non-decreasing order. */
  predicate NumbersAscending(ds: seq<Day>) {
    forall a, b :: 0 <= a < b < |ds| ==> ds[a].dayNumber.JNum? && ds[b].dayNumber.JNum? && ds[a].dayNumber.n <= ds[b].dayNumber.n
  }

  /** One object entry in front of the rest: skipped when not an object, else its day goes first. */
  lemma ObjectDaysCons(entries: seq<(string, J)>, start: nat, stringify: J -> string)
    requires entries != [] && ObjectDays(entries, start, stringify).Some?
    ensures ObjectDays(entries[1..], start + 1, stringify).Some?
    ensures !IsJsObject(entries[0].1) ==> ObjectDays(entries, start, stringify) == ObjectDays(entries[1..], start + 1, stringify)
    ensures IsJsObject(entries[0].1) ==>
              && EntryDay(entries[0], start, stringify).Some?
              && ObjectDays(entries, start, stringify).value
                 == [EntryDay(entries[0], start, stringify).value] + ObjectDays(entries[1..], start + 1, stringify).value
  {
  }

  /** One day per object entry. */
  lemma {:induction false} ObjectDaysCount(entries: seq<(string, J)>, start: nat, stringify: J -> string)
    requires ObjectDays(entries, start, stringify).Some?
    ensures |ObjectDays(entries, start, stringify).value| == |Filter(entries, IsObjectEntry)|
  {
    if entries != [] {
      ObjectDaysCons(entries, start, stringify);
      ObjectDaysCount(entries[1..], start + 1, stringify);
    }
  }

  /** An entry whose value is not an object gives no day, but takes up its position. */
  lemma ObjectDaysSkip(entries: seq<(string, J)>, start: nat, stringify: J -> string)
    requires entries != [] && !IsObjectEntry(entries[0])
    ensures ObjectDays(entries, start, stringify) == ObjectDays(entries[1..], start + 1, stringify)
  {
  }

  /** A single entry gives its day at position `i` when its value is an object, and nothing otherwise. */
  lemma ObjectDaysOne(e: (string, J), i: nat, stringify: J -> string)
    ensures !IsObjectEntry(e) ==> ObjectDays([e], i, stringify) == Some([])
    ensures IsObjectEntry(e) && EntryDay(e, i, stringify).Some? ==> ObjectDays([e], i, stringify) == Some([EntryDay(e, i, stringify).value])
  {
    assert [e][0] == e && [e][1..] == [];
    assert ObjectDays([e][1..], i + 1, stringify) == Some([]);
    if IsObjectEntry(e) && EntryDay(e, i, stringify).Some? {
      assert [EntryDay(e, i, stringify).value] + [] == [EntryDay(e, i, stringify).value];
    }
  }

  /**
   * Two runs of sorted entries one after the other: the days of the first
   * run, then those of the second, whose positions continue after the first.
   * With `ObjectDaysOne` this fixes every day: the object entries' days in
   * entry order, each numbered from its position among all the entries.
   */
  lemma {:induction false} ObjectDaysAppend(a: seq<(string, J)>, b: seq<(string, J)>, start: nat, mid: nat, stringify: J -> string)
    requires mid == start + |a| && ObjectDays(a + b, start, stringify).Some?
    ensures ObjectDays(a, start, stringify).Some? && ObjectDays(b, mid, stringify).Some?
    ensures ObjectDays(a + b, start, stringify).value
            == ObjectDays(a, start, stringify).value + ObjectDays(b, mid, stringify).value
    decreases |a|
  {
    if a == [] {
      assert a + b == b;
      assert ObjectDays(a, start, stringify) == Some([]);
      var y := ObjectDays(b, start, stringify).value;
      assert [] + y == y;
    } else {
      var ab := a + b;
      var tail := a[1..];
      assert ab[0] == a[0] && ab[1..] == tail + b;
      ObjectDaysCons(ab, start, stringify);
      ObjectDaysAppend(tail, b, start + 1, mid, stringify);
      var x := ObjectDays(tail, start + 1, stringify).value;
      var y := ObjectDays(b, mid, stringify).value;
      if IsJsObject(a[0].1) {
        var d := EntryDay(a[0], start, stringify).value;
        assert ObjectDays(a, start, stringify) == Some([d] + x);
        assert [d] + (x + y) == ([d] + x) + y;
      } else {
        ObjectDaysSkip(a, start, stringify);
      }
    }
  }

  /**
   * `ps` lists, ascending, the positions counted from `start` of exactly the
   * entries whose value is a non-null object.
   */
  predicate PositionsOf(ps: seq<nat>, entries: seq<(string, J)>, start: nat) {
    && PositionsIn(ps, entries, start)
    && (forall k, l :: 0 <= k < l < |ps| ==> ps[k] < ps[l])
    && (forall i :: 0 <= i < |entries| && IsObjectEntry(entries[i]) ==> start + i in ps)
  }

  /** Every position in `ps`, counted from `start`, is that of an entry whose value is a non-null object. */
  predicate PositionsIn(ps: seq<nat>, entries: seq<(string, J)>, start: nat) {
    forall k :: 0 <= k < |ps| ==> ObjectAt(entries, start, ps[k])
  }

  /** Position `p`, counted from `start`, is that of an entry whose value is a non-null object. */
  predicate ObjectAt(entries: seq<(string, J)>, start: nat, p: nat) {
    start <= p < start + |entries| && IsObjectEntry(entries[p - start])
  }

  /** The positions of the object entries. */
  function ObjectPositions(entries: seq<(string, J)>, start: nat): (r: seq<nat>)
    ensures PositionsOf(r, entries, start)
    decreases |entries|
  {
    if entries == [] then []
    else
      var rest := ObjectPositions(entries[1..], start + 1);
      PositionsStep(entries, start, rest);
      if IsObjectEntry(entries[0]) then [start] + rest else rest
  }

  /** The positions of the later entries, with the first entry's put in front when it is an object. */
  lemma PositionsStep(entries: seq<(string, J)>, start: nat, rest: seq<nat>)
    requires entries != [] && PositionsOf(rest, entries[1..], start + 1)
    ensures PositionsOf(if IsObjectEntry(entries[0]) then [start] + rest else rest, entries, start)
  {
    if IsObjectEntry(entries[0]) {
      PositionsFront(entries, start, rest);
    } else {
      PositionsSkip(entries, start, rest);
    }
  }

  /** A first entry that is not an object adds no position. */
  lemma PositionsSkip(entries: seq<(string, J)>, start: nat, rest: seq<nat>)
    requires entries != [] && !IsObjectEntry(entries[0]) && PositionsOf(rest, entries[1..], start + 1)
    ensures PositionsOf(rest, entries, start)
  {
    var tail := entries[1..];
    forall k | 0 <= k < |rest| ensures ObjectAt(entries, start, rest[k]) {
      assert ObjectAt(tail, start + 1, rest[k]);
      assert entries[rest[k] - start] == tail[rest[k] - (start + 1)];
    }
    forall i | 0 <= i < |entries| && IsObjectEntry(entries[i]) ensures start + i in rest {
      assert i > 0 && tail[i - 1] == entries[i];
    }
  }

  /** A first entry that is an object adds its position in front. */
  lemma PositionsFront(entries: seq<(string, J)>, start: nat, rest: seq<nat>)
    requires entries != [] && IsObjectEntry(entries[0]) && PositionsOf(rest, entries[1..], start + 1)
    ensures PositionsOf([start] + rest, entries, start)
  {
    var tail := entries[1..];
    var ps := [start] + rest;
    forall k | 0 <= k < |ps| ensures ObjectAt(entries, start, ps[k]) && (k > 0 ==> start < ps[k]) {
      if k > 0 {
        assert ps[k] == rest[k - 1];
        assert ObjectAt(tail, start + 1, rest[k - 1]);
        assert entries[ps[k] - start] == tail[rest[k - 1] - (start + 1)];
      }
    }
    AscendingFront(start, rest);
    forall i | 0 <= i < |entries| && IsObjectEntry(entries[i]) ensures start + i in ps {
      if i == 0 {
        assert ps[0] == start;
      } else {
        assert tail[i - 1] == entries[i];
        assert start + 1 + (i - 1) in rest;
        var m :| 0 <= m < |rest| && rest[m] == start + i;
        assert ps[m + 1] == start + i;
      }
    }
  }

  /** A position below all the later ones keeps the positions ascending. */
  lemma AscendingFront(start: nat, rest: seq<nat>)
    requires forall k :: 0 <= k < |rest| ==> start < rest[k]
    requires forall k, l :: 0 <= k < l < |rest| ==> rest[k] < rest[l]
    ensures forall k, l :: 0 <= k < l < |[start] + rest| ==> ([start] + rest)[k] < ([start] + rest)[l]
  {
    var ps := [start] + rest;
    forall k, l | 0 <= k < l < |ps| ensures ps[k] < ps[l] {
      assert ps[l] == rest[l - 1];
      if k > 0 {
        assert ps[k] == rest[k - 1];
      }
    }
  }

  /** `day` is the day of the object entry at position `p`, counted from `start`. */
  predicate DayAt(entries: seq<(string, J)>, start: nat, stringify: J -> string, p: nat, day: Day) {
    ObjectAt(entries, start, p) && EntryDay(entries[p - start], p, stringify) == Some(day)
  }

  /**
   * Day `k` of `ds` is the `EntryDay` of the entry at position `ps[k]`, the
   * k-th entry whose value is an object, built at that position.
   */
  predicate DaysAt(ds: seq<Day>, ps: seq<nat>, entries: seq<(string, J)>, start: nat, stringify: J -> string) {
    |ds| == |ps| && forall k :: 0 <= k < |ds| ==> DayAt(entries, start, stringify, ps[k], ds[k])
  }

  /**
   * Day `k` of an object itinerary is the `EntryDay` of the k-th entry whose
   * value is an object, built at that entry's position among all entries.
   */
  lemma {:induction false} ObjectDaysAt(entries: seq<(string, J)>, start: nat, stringify: J -> string)
    requires ObjectDays(entries, start, stringify).Some?
    ensures PositionsOf(ObjectPositions(entries, start), entries, start)
    ensures DaysAt(ObjectDays(entries, start, stringify).value, ObjectPositions(entries, start), entries, start, stringify)
    decreases |entries|
  {
    if entries != [] {
      var tail := entries[1..];
      ObjectDaysCons(entries, start, stringify);
      ObjectDaysAt(tail, start + 1, stringify);
      var dt, pt := ObjectDays(tail, start + 1, stringify).value, ObjectPositions(tail, start + 1);
      DaysAtTail(entries, start, stringify, dt, pt);
      if IsObjectEntry(entries[0]) {
        DaysAtFront(entries, start, stringify, EntryDay(entries[0], start, stringify).value, dt, pt);
      }
    }
  }

  /** Days of the later entries keep their positions when the first entry is counted in. */
  lemma DaysAtTail(entries: seq<(string, J)>, start: nat, stringify: J -> string, dt: seq<Day>, pt: seq<nat>)
    requires entries != [] && DaysAt(dt, pt, entries[1..], start + 1, stringify)
    ensures DaysAt(dt, pt, entries, start, stringify)
  {
    var tail := entries[1..];
    forall k | 0 <= k < |dt| ensures DayAt(entries, start, stringify, pt[k], dt[k]) {
      assert DayAt(tail, start + 1, stringify, pt[k], dt[k]);
      assert entries[pt[k] - start] == tail[pt[k] - (start + 1)];
    }
  }

  /** A first entry that is an object puts its day and its position in front. */
  lemma DaysAtFront(entries: seq<(string, J)>, start: nat, stringify: J -> string, d: Day, dt: seq<Day>, pt: seq<nat>)
    requires entries != [] && IsObjectEntry(entries[0]) && EntryDay(entries[0], start, stringify) == Some(d)
    requires DaysAt(dt, pt, entries, start, stringify)
    ensures DaysAt([d] + dt, [start] + pt, entries, start, stringify)
  {
    var ds, ps := [d] + dt, [start] + pt;
    assert DayAt(entries, start, stringify, start, d);
    forall k | 0 <= k < |ds| ensures DayAt(entries, start, stringify, ps[k], ds[k]) {
      if k > 0 {
        assert ds[k] == dt[k - 1] && ps[k] == pt[k - 1];
      }
    }
  }

  /**
   * An object itinerary: its entries are sorted by key number, and day `k`
   * is the `EntryDay` of the k-th sorted entry whose value is an object,
   * built at that entry's sorted position.
   */
  lemma ObjectItineraryDays(data: J, stringify: J -> string)
    requires data.JObj? && ParseItinerary(data, stringify).Some?
    ensures var es := SortBy(data.fields, EntryKey);
            && PositionsOf(ObjectPositions(es, 0), es, 0)
            && DaysAt(ParseItinerary(data, stringify).value, ObjectPositions(es, 0), es, 0, stringify)
  {
    ObjectDaysAt(SortBy(data.fields, EntryKey), 0, stringify);
  }

  /** With every key carrying a nonzero number, the days come out with those numbers, each at least `lo`. */
  lemma {:induction false} ObjectDaysAtLeast(entries: seq<(string, J)>, start: nat, stringify: J -> string, lo: nat)
    requires forall i :: 0 <= i < |entries| ==> KeyNumber(entries[i].0) >= lo && KeyNumber(entries[i].0) != 0
    requires ObjectDays(entries, start, stringify).Some?
    ensures NumbersAtLeast(ObjectDays(entries, start, stringify).value, lo as real)
  {
    if entries != [] {
      ObjectDaysCons(entries, start, stringify);
      ObjectDaysAtLeast(entries[1..], start + 1, stringify, lo);
    }
  }

  /** A day numbered `lo` in front of ascending days numbered at least `lo` keeps them ascending. */
  lemma AscendingCons(d: Day, rest: seq<Day>, lo: real)
    requires d.dayNumber == JNum(lo) && NumbersAscending(rest) && NumbersAtLeast(rest, lo)
    ensures NumbersAscending([d] + rest)
  {
    var ds := [d] + rest;
    forall a, b | 0 <= a < b < |ds|
      ensures ds[a].dayNumber.JNum? && ds[b].dayNumber.JNum? && ds[a].dayNumber.n <= ds[b].dayNumber.n
    {
      assert ds[b] == rest[b - 1];
      if a > 0 {
        assert ds[a] == rest[a - 1];
      }
    }
  }

  /**
   * Object input sorted by key number with every key carrying a nonzero
   * number: the day numbers are the key numbers, in non-decreasing order.
   */
  lemma {:induction false} ObjectDaysAscending(entries: seq<(string, J)>, start: nat, stringify: J -> string)
    requires SortedBy(entries, EntryKey)
    requires forall i :: 0 <= i < |entries| ==> KeyNumber(entries[i].0) != 0
    requires ObjectDays(entries, start, stringify).Some?
    ensures NumbersAscending(ObjectDays(entries, start, stringify).value)
  {
    if entries != [] {
      var tail := entries[1..];
      ObjectDaysCons(entries, start, stringify);
      assert SortedBy(tail, EntryKey);
      ObjectDaysAscending(tail, start + 1, stringify);
      var lo := KeyNumber(entries[0].0);
      assert forall i :: 0 <= i < |tail| ==> KeyNumber(tail[i].0) >= lo by {
        forall i | 0 <= i < |tail| ensures KeyNumber(tail[i].0) >= lo {
          assert EntryKey(entries[0]) <= EntryKey(entries[i + 1]);
        }
      }
      if IsJsObject(entries[0].1) {
        ObjectDaysAtLeast(tail, start + 1, stringify, lo);
        var d := EntryDay(entries[0], start, stringify).value;
        assert d.dayNumber == JNum(lo as real);
        AscendingCons(d, ObjectDays(tail, start + 1, stringify).value, lo as real);
      }
    }
  }

  /** The keys `day_1` and `day_2` carry the numbers 1 and 2. */
  lemma DayKeyNumbers()
    ensures KeyNumber("day_1") == 1 && KeyNumber("day_2") == 2
  {
    assert NatToString(1) == "1" && NatToString(2) == "2";
    assert forall i :: 0 <= i < |"day_"| ==> !IsDigit("day_"[i]);
    KeyNumberOfLabel("day_", 1);
    KeyNumberOfLabel("day_", 2);
    assert "day_" + "1" == "day_1" && "day_" + "2" == "day_2";
  }

  /** Two entries out of order are swapped by the sort. */
  lemma SortTwoSwaps(d1: (string, J), d2: (string, J))
    requires EntryKey(d1) < EntryKey(d2)
    ensures SortBy([d2, d1], EntryKey) == [d1, d2]
  {
    assert [d2, d1][..1] == [d2];
    assert [d2][..0] == [];
    assert SortBy([d2], EntryKey) == [d2];
    assert Insert([d2], d1, EntryKey) == Insert([], d1, EntryKey) + [d2];
  }

  /** An empty day object gives a day numbered by its key, or by its position when the key has no number. */
  lemma EmptyEntryDay(e: (string, J), i: nat, stringify: J -> string)
    requires e.1 == JObj([])
    ensures EntryDay(e, i, stringify).Some?
    ensures EntryDay(e, i, stringify).value.dayNumber == JNum((if KeyNumber(e.0) != 0 then KeyNumber(e.0) else i + 1) as real)
  {
    assert Get(JObj([]), "activities") == JNull;
  }

  /** Two empty day objects in sorted order give two days, in that order. */
  lemma TwoEmptyDays(d1: (string, J), d2: (string, J), stringify: J -> string)
    requires d1.1 == JObj([]) && d2.1 == JObj([])
    ensures var r := ObjectDays([d1, d2], 0, stringify);
            r.Some? && r.value == [EntryDay(d1, 0, stringify).value, EntryDay(d2, 1, stringify).value]
  {
    EmptyEntryDay(d1, 0, stringify);
    EmptyEntryDay(d2, 1, stringify);
    assert [d1, d2][1..] == [d2] && [d2][1..] == [];
    assert ObjectDays([], 2, stringify) == Some([]);
    var e2 := EntryDay(d2, 1, stringify).value;
    assert [e2] + [] == [e2];
    assert IsJsObject([d2][0].1) && [d2][0] == d2;
    assert ObjectDays([d2], 1, stringify) == Some([e2]);
  }

  /** `{day_2: {...}, day_1: {...}}` yields day 1 then day 2. */
  lemma ObjectKeysOrderDays(stringify: J -> string)
    ensures var r := ParseItinerary(JObj([("day_2", JObj([])), ("day_1", JObj([]))]), stringify);
            r.Some? && |r.value| == 2 && r.value[0].dayNumber == JNum(1.0) && r.value[1].dayNumber == JNum(2.0)
  {
    var d1: (string, J) := ("day_1", JObj([]));
    var d2: (string, J) := ("day_2", JObj([]));
    var data := JObj([d2, d1]);
    DayKeyNumbers();
    SortTwoSwaps(d1, d2);
    assert ParseItinerary(data, stringify) == ObjectDays([d1, d2], 0, stringify);
    TwoEmptyDays(d1, d2, stringify);
    EmptyEntryDay(d1, 0, stringify);
    EmptyEntryDay(d2, 1, stringify);
  }

  // ---------------------------------------------------------------------
  // Confirm button: place groups and hotel name

  /**
   * `extractPlaceName` of the panel. `capture(text)` is the first group of
   * the place pattern when it matches; the pattern itself is not modelled.
   * A trimmed capture longer than 3 wins; otherwise a text of length 4..39
   * is taken whole, trimmed.
   */
  function ExtractPlaceName(text: string, capture: string -> Option<string>): (r: Option<string>)
    ensures r.Some? ==>
              || (capture(text).Some? && |Trim(capture(text).value)| > 3 && r.value == Trim(capture(text).value))
              || (3 < |text| < 40 && r.value == Trim(text))
    ensures r.None? <==> !(capture(text).Some? && |Trim(capture(text).value)| > 3) && !(3 < |text| < 40)
  {
    var m := capture(text);
    if m.Some? && |Trim(m.value)| > 3 then Some(Trim(m.value))
    else if 3 < |text| < 40 then Some(Trim(text))
    else None
  }

  /** A place extracted from `text` that is also truthy (non-empty). */
  predicate IsPlaceOf(text: string, name: string, capture: string -> Option<string>) {
    ExtractPlaceName(text, capture) == Some(name) && name != ""
  }

  /** The distinct non-empty places of the activities, in order of first appearance. */
  function Places(acts: seq<string>, capture: string -> Option<string>): (r: seq<string>)
    ensures NoDuplicates(r)
    decreases |acts|
  {
    if acts == [] then []
    else
      var prev := Places(acts[..|acts| - 1], capture);
      var p := ExtractPlaceName(acts[|acts| - 1], capture);
      if p.Some? && p.value != "" && p.value !in prev then prev + [p.value] else prev
  }

  /** Every name of a group is a non-empty place extracted from one of the day's activities. */
  lemma {:induction false} PlacesSound(acts: seq<string>, capture: string -> Option<string>)
    ensures forall j :: 0 <= j < |Places(acts, capture)| ==>
              exists i :: 0 <= i < |acts| && IsPlaceOf(acts[i], Places(acts, capture)[j], capture)
    decreases |acts|
  {
    if acts != [] {
      var init := acts[..|acts| - 1];
      PlacesSound(init, capture);
      var prev := Places(init, capture);
      var p := ExtractPlaceName(acts[|acts| - 1], capture);
      var r := Places(acts, capture);
      forall j | 0 <= j < |r| ensures exists i :: 0 <= i < |acts| && IsPlaceOf(acts[i], r[j], capture) {
        if j < |prev| {
          assert r[j] == prev[j];
          var i :| 0 <= i < |init| && IsPlaceOf(init[i], prev[j], capture);
          assert acts[i] == init[i];
        } else {
          assert r[j] == p.value;
          assert IsPlaceOf(acts[|acts| - 1], r[j], capture);
        }
      }
      assert forall j :: 0 <= j < |r| ==> exists i :: 0 <= i < |acts| && IsPlaceOf(acts[i], r[j], capture);
    } else {
      assert Places(acts, capture) == [];
    }
  }

  /** Every non-empty place extracted from an activity is in the group. */
  lemma {:induction false} PlacesComplete(acts: seq<string>, capture: string -> Option<string>, i: int)
    requires 0 <= i < |acts|
    requires ExtractPlaceName(acts[i], capture).Some? && ExtractPlaceName(acts[i], capture).value != ""
    ensures ExtractPlaceName(acts[i], capture).value in Places(acts, capture)
    decreases |acts|
  {
    var init := acts[..|acts| - 1];
    if i < |acts| - 1 {
      assert acts[i] == init[i];
      PlacesComplete(init, capture, i);
    }
  }

  /**
   * `day.activities[0].split(" ").slice(0, 5).join(" ")`: the text up to,
   * not including, its fifth space, or all of it when it has at most four.
   */
  function FirstWords(s: string): (r: string)
    ensures StartsWith(s, r)
    ensures Count(r, ' ') == Min(4, Count(s, ' '))
    ensures Count(s, ' ') <= 4 ==> r == s
    ensures Count(s, ' ') > 4 ==> |r| < |s| && s[|r|] == ' '
  {
    var parts := Split(s, ' ');
    assert Take(parts, 5) == parts[..Min(5, |parts|)];
    TakeWordsFacts(s, ' ', Min(5, |parts|));
    SplitCount(s, ' ');
    Join(Take(parts, 5), ' ')
  }

  /**
   * The first `k` words of a text rejoined: a prefix with `k - 1`
   * separators, the whole text when no word is left over, and followed by
   * a separator otherwise.
   */
  lemma TakeWordsFacts(s: string, c: char, k: nat)
    requires 1 <= k <= |Split(s, c)|
    ensures var p := Join(Split(s, c)[..k], c);
            && StartsWith(s, p) && Count(p, c) == k - 1
            && (k == |Split(s, c)| ==> p == s)
            && (k < |Split(s, c)| ==> |p| < |s| && s[|p|] == c)
  {
    var parts := Split(s, c);
    JoinSplitPrefix(s, c, k);
    SplitPrefixCount(s, c, k);
    if k < |parts| {
      SplitPrefixNext(s, c, k);
    } else {
      assert parts[..k] == parts;
      JoinSplit(s, c);
    }
  }

  /**
   * One day's group: its distinct places, or the first five words of its
   * first activity when it has activities but no place.
   */
  function GroupOf(acts: seq<string>, capture: string -> Option<string>): (r: seq<string>)
    ensures |r| > 0 <==> |acts| > 0
    ensures NoDuplicates(r)
    ensures Places(acts, capture) != [] ==> r == Places(acts, capture)
    ensures Places(acts, capture) == [] && |acts| > 0 ==> r == [FirstWords(acts[0])] && StartsWith(acts[0], r[0])
  {
    var names := Places(acts, capture);
    if names == [] && |acts| > 0 then [FirstWords(acts[0])] else names
  }

  /** The activities as strings, when they all are (a non-string activity makes the extraction throw). */
  function AllStrings(acts: seq<J>): (r: Option<seq<string>>)
    ensures r.Some? <==> forall i :: 0 <= i < |acts| ==> acts[i].JStr?
    ensures r.Some? ==> |r.value| == |acts| && forall i :: 0 <= i < |acts| ==> acts[i] == JStr(r.value[i])
  {
    if acts == [] then Some([])
    else if !acts[0].JStr? then None
    else
      match AllStrings(acts[1..])
      case None => None
      case Some(rest) => Some([acts[0].s] + rest)
  }

  /** A day that lists at least one activity. */
  predicate HasActivities(d: Day) { |d.activities| > 0 }

  /**
   * The per-day place groups sent on confirm: one group per day that has
   * activities, in day order, each non-empty and duplicate-free. `None`
   * when an activity is not a string.
   */
  function ConfirmGroups(days: seq<Day>, capture: string -> Option<string>): (r: Option<seq<seq<string>>>)
    ensures r.Some? <==> forall d :: 0 <= d < |days| ==> AllStrings(days[d].activities).Some?
    ensures r.Some? ==> |r.value| == |Filter(days, HasActivities)|
    ensures r.Some? ==> ProperGroups(r.value)
  {
    if days == [] then Some([])
    else
      var tail := days[1..];
      assert forall d :: 1 <= d < |days| ==> tail[d - 1] == days[d];
      match (AllStrings(days[0].activities), ConfirmGroups(tail, capture))
      case (Some(acts), Some(rest)) =>
        var g := GroupOf(acts, capture);
        assert g == [] <==> !HasActivities(days[0]);
        if g == [] then Some(rest)
        else
          GroupsCons(g, rest);
          Some([g] + rest)
      case (None, _) => None
      case (_, None) => None
  }

  /** Every group is non-empty and duplicate-free. */
  predicate ProperGroups(gs: seq<seq<string>>) {
    forall g :: 0 <= g < |gs| ==> |gs[g]| > 0 && NoDuplicates(gs[g])
  }

  /** A proper group in front of proper groups. */
  lemma GroupsCons(g: seq<string>, rest: seq<seq<string>>)
    requires |g| > 0 && NoDuplicates(g) && ProperGroups(rest)
    ensures ProperGroups([g] + rest)
  {
    var gs := [g] + rest;
    forall k | 0 <= k < |gs| ensures |gs[k]| > 0 && NoDuplicates(gs[k]) {
      if k > 0 {
        assert gs[k] == rest[k - 1];
      }
    }
  }

  /** Each day's group, in day order; a day whose activities are not all strings gets the group of none. */
  function GroupsOf(days: seq<Day>, capture: string -> Option<string>): (r: seq<seq<string>>)
    ensures |r| == |days|
    ensures forall g :: 0 <= g < |days| && AllStrings(days[g].activities).Some? ==>
              r[g] == GroupOf(AllStrings(days[g].activities).value, capture)
  {
    if days == [] then []
    else [GroupOf(AllStrings(days[0].activities).GetOr([]), capture)] + GroupsOf(days[1..], capture)
  }

  /**
   * The groups sent on confirm are, in order, the groups of the days that
   * have activities: group `g` is `GroupOf` the `g`-th such day.
   */
  lemma {:induction false} ConfirmGroupsContents(days: seq<Day>, capture: string -> Option<string>)
    requires ConfirmGroups(days, capture).Some?
    ensures forall g :: 0 <= g < |Filter(days, HasActivities)| ==> AllStrings(Filter(days, HasActivities)[g].activities).Some?
    ensures ConfirmGroups(days, capture).value == GroupsOf(Filter(days, HasActivities), capture)
    decreases |days|
  {
    if days == [] {
      assert ConfirmGroups(days, capture).value == [];
    } else {
      var tail := days[1..];
      ConfirmGroupsCons(days, capture);
      ConfirmGroupsContents(tail, capture);
      var fs := Filter(tail, HasActivities);
      if HasActivities(days[0]) {
        assert Filter(days, HasActivities) == [days[0]] + fs;
        assert ([days[0]] + fs)[1..] == fs;
      } else {
        assert Filter(days, HasActivities) == fs;
      }
    }
  }

  /** The first day's group, when it has activities, goes in front of the later days' groups. */
  lemma ConfirmGroupsCons(days: seq<Day>, capture: string -> Option<string>)
    requires days != [] && ConfirmGroups(days, capture).Some?
    ensures AllStrings(days[0].activities).Some? && ConfirmGroups(days[1..], capture).Some?
    ensures var grp := GroupOf(AllStrings(days[0].activities).value, capture);
            var rest := ConfirmGroups(days[1..], capture).value;
            ConfirmGroups(days, capture).value == if HasActivities(days[0]) then [grp] + rest else rest
  {
    var tail := days[1..];
    assert forall d :: 1 <= d < |days| ==> tail[d - 1] == days[d];
  }

  /** A hotel value as a name: the string itself, else `.name || JSON.stringify(hotels)`. */
  function HotelLabel(h: J, stringify: J -> string): (r: J)
    ensures JsTruthy(h) ==> JsTruthy(r) || r.JStr?
    ensures h.JStr? ==> r == h
    ensures !h.JStr? && JsTruthy(Get(h, "name")) ==> r == Get(h, "name")
    ensures !h.JStr? && !JsTruthy(Get(h, "name")) ==> r == JStr(stringify(h))
  {
    if h.JStr? then h else JsOr(Get(h, "name"), JStr(stringify(h)))
  }

  /** The hotel name sent on confirm: taken from the first day with truthy `hotels`, `null` when none has. */
  function HotelName(days: seq<Day>, stringify: J -> string): (r: J)
    ensures r == JNull <==> forall i :: 0 <= i < |days| ==> !JsTruthy(days[i].hotels)
    ensures r != JNull ==> exists i :: 0 <= i < |days| && JsTruthy(days[i].hotels) && r == HotelLabel(days[i].hotels, stringify)
                              && forall j :: 0 <= j < i ==> !JsTruthy(days[j].hotels)
  {
    match Find(days, (d: Day) => JsTruthy(d.hotels))
    case None => JNull
    case Some(d) => HotelLabel(d.hotels, stringify)
  }

  // ---------------------------------------------------------------------
  // Activity card and day decorations

  /**
   * The time label of an activity card: when the first ':' sits at index
   * 1..19 the text splits into a trimmed label and a trimmed description,
   * otherwise there is no label and the text is the description.
   */
  function SplitTimeLabel(activity: string): (r: (Option<string>, string))
    ensures r.0.Some? <==> 0 < IndexOfChar(activity, ':') < 20
    ensures r.0.Some? ==> var k := IndexOfChar(activity, ':');
              r.0.value == Trim(activity[..k]) && r.1 == Trim(activity[k + 1..]) && ':' !in r.0.value
    ensures r.0.None? ==> r.1 == activity
  {
    var k := IndexOfChar(activity, ':');
    if 0 < k < 20 then
      StripIsInnerSlice(activity[..k], IsJsSpace);
      (Some(Trim(activity[..k])), Trim(activity[k + 1..]))
    else (None, activity)
  }

  const DayGradients := [
    "from-rose-500 via-pink-500 to-fuchsia-500",
    "from-blue-500 via-cyan-500 to-teal-500",
    "from-amber-500 via-orange-500 to-red-500",
    "from-emerald-500 via-green-500 to-lime-500",
    "from-violet-500 via-purple-500 to-indigo-500",
    "from-sky-500 via-blue-500 to-indigo-500",
    "from-pink-500 via-rose-500 to-red-500"]

  const DayEmojis := ["\U{1F305}", "\U{1F3D6}\U{FE0F}", "\U{1F389}", "\U{1F3DB}\U{FE0F}", "\U{1F334}", "\U{1F3AD}", "\U{1F30A}"]

  /** The day's gradient, cycling through the seven with period 7. */
  function DayGradient(index: nat): (r: string)
    ensures r == DayGradients[index % 7]
  {
    DayGradients[index % |DayGradients|]
  }

  /** The day's emoji, cycling through the seven with period 7. */
  function DayEmoji(index: nat): (r: string)
    ensures r == DayEmojis[index % 7]
  {
    DayEmojis[index % |DayEmojis|]
  }

  /** Decorations repeat every seven days. */
  lemma DecorationsCycle(index: nat)
    ensures DayGradient(index + 7) == DayGradient(index) && DayEmoji(index + 7) == DayEmoji(index)
  {
  }
}

=== FILE: Json.dfy ===
/**
 * JSON-like values as both halves of the application see them: the browser
 * (JavaScript) and the API server (Python). `undefined` and `null` are the
 * same value here; object fields keep their enumeration order.
 */
module Json {
  import opened Wrappers

  datatype J =
    | JNull
    | JBool(b: bool)
    | JNum(n: real)
    | JStr(s: string)
    | JArr(items: seq<J>)
    | JObj(fields: seq<(string, J)>)

  /** JavaScript truthiness: `null`, `false`, `0` and `""` are falsy; every array and object is truthy. */
  predicate JsTruthy(v: J) {
    match v
    case JNull => false
    case JBool(b) => b
    case JNum(n) => n != 0.0
    case JStr(s) => s != ""
    case JArr(_) => true
    case JObj(_) => true
  }

  /** The four falsy JSON values of JavaScript; every other value is truthy. */
  lemma JsFalsyValues(v: J)
    ensures !JsTruthy(v) <==> v == JNull || v == JBool(false) || v == JNum(0.0) || v == JStr("")
  {
  }

  /** Python truthiness: `None`, `False`, `0`, `""` and empty lists and dicts are falsy. */
  predicate PyTruthy(v: J) {
    match v
    case JNull => false
    case JBool(b) => b
    case JNum(n) => n != 0.0
    case JStr(s) => s != ""
    case JArr(xs) => xs != []
    case JObj(fs) => fs != []
  }

  /** Python and JavaScript disagree only on empty lists and dicts, which Python alone finds falsy. */
  lemma PyTruthyJsTruthy(v: J)
    ensures PyTruthy(v) ==> JsTruthy(v)
    ensures JsTruthy(v) && !PyTruthy(v) <==> v == JArr([]) || v == JObj([])
  {
  }

  /** JavaScript `a || b`: the first operand when it is truthy, else the second. */
  function JsOr(a: J, b: J): J {
    if JsTruthy(a) then a else b
  }

  /** Python `a or b`. */
  function PyOr(a: J, b: J): J {
    if PyTruthy(a) then a else b
  }

  /** JavaScript `typeof v === "object" && v !== null`: arrays and objects. */
  predicate IsJsObject(v: J) {
    v.JArr? || v.JObj?
  }

  /** The value of the first field named `k`, if `v` is an object that has one. */
  function Lookup(v: J, k: string): (r: Option<J>)
    ensures r.Some? ==> v.JObj? && FirstField(v.fields, k, r.value)
    ensures r.None? ==> !v.JObj? || forall i :: 0 <= i < |v.fields| ==> v.fields[i].0 != k
  {
    if v.JObj? then FieldOf(v.fields, k) else None
  }

  /** Some field `(k, x)` comes before every other field named `k`. */
  predicate FirstField(fs: seq<(string, J)>, k: string, x: J) {
    exists i :: 0 <= i < |fs| && fs[i] == (k, x) && forall j :: 0 <= j < i ==> fs[j].0 != k
  }

  function FieldOf(fs: seq<(string, J)>, k: string): (r: Option<J>)
    ensures r.Some? ==> FirstField(fs, k, r.value)
    ensures r.None? ==> forall i :: 0 <= i < |fs| ==> fs[i].0 != k
  {
    if fs == [] then None
    else if fs[0].0 == k then
      assert fs[0] == (k, fs[0].1);
      Some(fs[0].1)
    else
      var r := FieldOf(fs[1..], k);
      if r.Some? then
        var i :| 0 <= i < |fs[1..]| && fs[1..][i] == (k, r.value) && forall j :: 0 <= j < i ==> fs[1..][j].0 != k;
        assert fs[i + 1] == (k, r.value);
        assert forall j :: 0 <= j < i + 1 ==> fs[j].0 != k by {
          forall j | 0 <= j < i + 1 ensures fs[j].0 != k {
            if j > 0 { assert fs[j] == fs[1..][j - 1]; }
          }
        }
        r
      else r
  }

  /** JavaScript property read `v.k`: a missing property reads as `undefined`. */
  function Get(v: J, k: string): (r: J)
    ensures v.JObj? && (exists i :: 0 <= i < |v.fields| && v.fields[i].0 == k) ==> FirstField(v.fields, k, r)
    ensures !v.JObj? || (forall i :: 0 <= i < |v.fields| ==> v.fields[i].0 != k) ==> r == JNull
  {
    Lookup(v, k).GetOr(JNull)
  }

  /**
   * Python `d.get(k, default)`: the default only when the key is missing,
   * not when it is present with value `None`.
   */
  function PyGet(v: J, k: string, default: J): (r: J)
    ensures v.JObj? && (exists i :: 0 <= i < |v.fields| && v.fields[i].0 == k) ==> FirstField(v.fields, k, r)
    ensures !v.JObj? || (forall i :: 0 <= i < |v.fields| ==> v.fields[i].0 != k) ==> r == default
  {
    Lookup(v, k).GetOr(default)
  }

  /**
   * Assignment `o[k] = v` (Python) or `{...o, [k]: v}` (JavaScript): an
   * existing field keeps its position and takes the new value, a new field
   * is appended.
   */
  function SetField(fs: seq<(string, J)>, k: string, v: J): (r: seq<(string, J)>)
    ensures FieldOf(r, k) == Some(v)
    ensures forall k' :: k' != k ==> FieldOf(r, k') == FieldOf(fs, k')
    ensures |r| == |fs| || |r| == |fs| + 1
  {
    if fs == [] then [(k, v)]
    else if fs[0].0 == k then [(k, v)] + fs[1..]
    else [fs[0]] + SetField(fs[1..], k, v)
  }

  /** Setting a field to the value it was just set to changes nothing. */
  lemma {:induction false} SetFieldAgain(fs: seq<(string, J)>, k: string, v: J)
    ensures SetField(SetField(fs, k, v), k, v) == SetField(fs, k, v)
  {
    if fs != [] && fs[0].0 != k {
      SetFieldAgain(fs[1..], k, v);
      var r := SetField(fs, k, v);
      assert r[0] == fs[0] && r[1..] == SetField(fs[1..], k, v);
    }
  }

  /** A lookup in two field lists one after the other finds the first list's field first. */
  lemma {:induction false} FieldOfAppend(a: seq<(string, J)>, b: seq<(string, J)>, k: string)
    ensures FieldOf(a + b, k) == if FieldOf(a, k).Some? then FieldOf(a, k) else FieldOf(b, k)
  {
    if a == [] {
      assert a + b == b;
    } else {
      assert (a + b)[0] == a[0] && (a + b)[1..] == a[1..] + b;
      FieldOfAppend(a[1..], b, k);
    }
  }

  /** The keys of a field list, in order. */
  function Keys(fs: seq<(string, J)>): (r: seq<string>)
    ensures |r| == |fs|
    ensures forall i :: 0 <= i < |fs| ==> r[i] == fs[i].0
  {
    if fs == [] then [] else [fs[0].0] + Keys(fs[1..])
  }

  /** Object keys are pairwise distinct, as in every object JSON parsing builds. */
  predicate UniqueKeys(fs: seq<(string, J)>) {
    forall i, j :: 0 <= i < j < |fs| ==> fs[i].0 != fs[j].0
  }

  /** A field is found by its key when no earlier field has that key. */
  lemma {:induction false} FieldOfAt(fs: seq<(string, J)>, i: int)
    requires 0 <= i < |fs|
    requires forall j :: 0 <= j < i ==> fs[j].0 != fs[i].0
    ensures FieldOf(fs, fs[i].0) == Some(fs[i].1)
  {
    if i > 0 {
      FieldOfAt(fs[1..], i - 1);
    }
  }

  /** In an object whose keys are distinct every field is found by its key. */
  lemma FieldsOfUnique(fs: seq<(string, J)>)
    requires UniqueKeys(fs)
    ensures forall i :: 0 <= i < |fs| ==> FieldOf(fs, fs[i].0) == Some(fs[i].1)
  {
    forall i | 0 <= i < |fs|
      ensures FieldOf(fs, fs[i].0) == Some(fs[i].1)
    {
      FieldOfAt(fs, i);
    }
  }

  /** A one-field object `{k: v}`. */
  function Single(k: string, v: J): J {
    JObj([(k, v)])
  }

  /**
   * Python iteration over a value: a list's items, a dict's keys, a
   * string's characters; `None` for a value that is not iterable.
   */
  function Iterate(v: J): (r: Option<seq<J>>)
    ensures v.JArr? ==> r == Some(v.items)
    ensures v.JObj? ==> r.Some? && |r.value| == |v.fields| && forall i :: 0 <= i < |v.fields| ==> r.value[i] == JStr(v.fields[i].0)
    ensures v.JStr? ==> r.Some? && |r.value| == |v.s| && forall i :: 0 <= i < |v.s| ==> r.value[i] == JStr([v.s[i]])
    ensures r.None? <==> !(v.JArr? || v.JObj? || v.JStr?)
  {
    match v
    case JArr(xs) => Some(xs)
    case JObj(fs) => Some(seq(|fs|, i requires 0 <= i < |fs| => JStr(fs[i].0)))
    case JStr(s) => Some(seq(|s|, i requires 0 <= i < |s| => JStr([s[i]])))
    case _ => None
  }
}

=== FILE: MessageBubble.dfy ===
/**
 * A chat bubble's pure logic: which parts of a message are shown as text,
 * form elements and inline itinerary; how the text is split into spacer,
 * bullet, numbered and paragraph lines; the inline itinerary's day
 * normalisation; the activity line; and the bubble's form state.
 */
module MessageBubble {
  import opened Wrappers
  import opened Json
  import opened Text
  import opened Seqs
  import opened Sorting
  import ChatStore
  import ItineraryPanel

  // ---------------------------------------------------------------------
  // Content projection

  /** What a bubble shows: its text, its form elements and its itinerary. */
  datatype Projection = Projection(text: J, uiElements: J, itinerary: J)

  /** The content of a bubble: the assistant's output, or the user's text. */
  function ContentOf(m: ChatStore.UIMessage): J {
    match m
    case UserBubble(_, text, _, _) => JStr(text)
    case AiBubble(_, response, _) => response
  }

  /**
   * A non-null object content supplies `text`, `ui_elements || []` and
   * `itinerary`; any other content is the text itself (`content || ""`)
   * with no elements and no itinerary.
   */
  function Project(content: J): (r: Projection)
    ensures IsJsObject(content) ==> r.text == Get(content, "text") && r.itinerary == Get(content, "itinerary")
    ensures IsJsObject(content) && JsTruthy(Get(content, "ui_elements")) ==> r.uiElements == Get(content, "ui_elements")
    ensures IsJsObject(content) && !JsTruthy(Get(content, "ui_elements")) ==> r.uiElements == JArr([])
    ensures !IsJsObject(content) ==> r.uiElements == JArr([]) && r.itinerary == JNull
    ensures !IsJsObject(content) && JsTruthy(content) ==> r.text == content
    ensures !IsJsObject(content) && !JsTruthy(content) ==> r.text == JStr("")
    ensures JsTruthy(r.uiElements) || IsJsObject(content)
  {
    if IsJsObject(content) then
      Projection(Get(content, "text"), JsOr(Get(content, "ui_elements"), JArr([])), Get(content, "itinerary"))
    else
      Projection(JsOr(content, JStr("")), JArr([]), JNull)
  }

  /** A user bubble shows its own text, no form elements and no itinerary. */
  lemma UserBubbleProjection(id: string, text: string, data: J, ts: string)
    ensures var p := Project(ContentOf(ChatStore.UserBubble(id, text, data, ts)));
            p.text == JStr(text) && p.uiElements == JArr([]) && p.itinerary == JNull
  {
  }

  /** A failed send's bubble shows the warning text and no inline itinerary. */
  lemma ErrorBubbleProjection(clock: string, text: string, now: string)
    ensures var p := Project(ContentOf(ChatStore.ErrorBubble(clock, text, now)));
            p.text == JStr(ChatStore.WarningPrefix + text) && p.uiElements == JArr([])
            && InlineDays(p.itinerary, (v: J) => "") == []
  {
    var fs := [("text", JStr(ChatStore.WarningPrefix + text)), ("itinerary", JNull)];
    assert fs[1].0 == "itinerary";
    FieldsOfUnique(fs);
  }

  // ---------------------------------------------------------------------
  // RichText

  /** How a line of the bubble text renders. */
  datatype LineKind =
    | Spacer
    | Bullet(body: string)
    | Numbered(number: string, body: string)
    | Paragraph(body: string)

  /** The characters a regular-expression `.` does not match. */
  predicate IsLineTerminator(c: char) {
    c == '\n' || c == '\r' || c == '\U{2028}' || c == '\U{2029}'
  }

  predicate NotLineTerminator(c: char) {
    !IsLineTerminator(c)
  }

  /** The longest prefix of `s` whose characters all satisfy `p`. */
  function TakeWhile(s: string, p: char -> bool): (r: string)
    ensures |r| <= |s| && r == s[..|r|]
    ensures forall i :: 0 <= i < |r| ==> p(r[i])
    ensures |r| < |s| ==> !p(s[|r|])
  {
    if s != [] && p(s[0]) then [s[0]] + TakeWhile(s[1..], p) else []
  }

  /**
   * `trimmed.match(/^(\d+)\.\s+(.+)/)`: the leading digits, a dot, at least
   * one blank, then the rest of the line up to a line terminator.
   */
  function NumberedItem(trimmed: string): (r: Option<(string, string)>)
    ensures r.Some? ==> |r.value.0| >= 1 && (forall i :: 0 <= i < |r.value.0| ==> IsDigit(r.value.0[i]))
    ensures r.Some? ==> StartsWith(trimmed, r.value.0 + ".") && |r.value.1| >= 1
    ensures r.Some? ==> forall i :: 0 <= i < |r.value.1| ==> !IsLineTerminator(r.value.1[i])
  {
    var ds := TakeWhile(trimmed, IsDigit);
    if |ds| >= 1 && |ds| < |trimmed| && trimmed[|ds|] == '.' then
      var after := trimmed[|ds| + 1..];
      var blanks := TakeWhile(after, IsJsSpace);
      var body := TakeWhile(after[|blanks|..], NotLineTerminator);
      if |blanks| >= 1 && |body| >= 1 then
        assert trimmed[..|ds| + 1] == ds + ".";
        Some((ds, body))
      else None
    else None
  }

  /** A prefix of passing characters followed by a failing one is exactly what `TakeWhile` takes. */
  lemma {:induction false} TakeWhilePrefix(s: string, pre: string, p: char -> bool)
    requires |pre| < |s| && s[..|pre|] == pre && !p(s[|pre|])
    requires forall i :: 0 <= i < |pre| ==> p(pre[i])
    ensures TakeWhile(s, p) == pre
  {
    if pre != [] {
      assert s[1..][..|pre| - 1] == pre[1..];
      TakeWhilePrefix(s[1..], pre[1..], p);
      assert [s[0]] + pre[1..] == pre;
    }
  }

  /**
   * Completeness of the numbered pattern on a trimmed line: digits, a dot
   * and a blank are enough for a match, and the match's number is those
   * digits.
   */
  lemma NumberedItemComplete(t: string, ds: string)
    requires |ds| >= 1 && forall i :: 0 <= i < |ds| ==> IsDigit(ds[i])
    requires |t| > |ds| + 1 && t[..|ds|] == ds && t[|ds|] == '.' && IsJsSpace(t[|ds| + 1])
    requires !IsJsSpace(t[|t| - 1])
    ensures NumberedItem(t).Some? && NumberedItem(t).value.0 == ds
  {
    assert !IsDigit('.');
    TakeWhilePrefix(t, ds, IsDigit);
    var after := t[|ds| + 1..];
    assert after[0] == t[|ds| + 1] && after[|after| - 1] == t[|t| - 1];
    BlanksThenBody(after);
  }

  /** Text that opens with a blank and ends with a non-blank has a blank run and then a non-empty body. */
  lemma BlanksThenBody(after: string)
    requires |after| >= 1 && IsJsSpace(after[0]) && !IsJsSpace(after[|after| - 1])
    ensures var blanks := TakeWhile(after, IsJsSpace);
            && 1 <= |blanks| < |after|
            && |TakeWhile(after[|blanks|..], NotLineTerminator)| >= 1
  {
    var blanks := TakeWhile(after, IsJsSpace);
    assert |blanks| < |after|;
    var rest := after[|blanks|..];
    assert rest[0] == after[|blanks|];
    assert !IsLineTerminator(rest[0]);
  }

  /** The bullet prefixes "- ", "• " and "* ". */
  predicate IsBulletLine(trimmed: string) {
    StartsWith(trimmed, "- ") || StartsWith(trimmed, "\U{2022} ") || StartsWith(trimmed, "* ")
  }

  /** A bullet line holds at least its two-character prefix. */
  lemma BulletLength(t: string)
    ensures IsBulletLine(t) ==> |t| >= 2
  {
  }

  /**
   * One line after trimming: blank is a spacer; a bullet prefix wins over
   * numbering and is cut off; a numbered item keeps its number and body;
   * anything else is a paragraph of the trimmed line.
   */
  function ClassifyLine(line: string): (r: LineKind)
    ensures r.Spacer? <==> Trim(line) == ""
    ensures r.Bullet? <==> IsBulletLine(Trim(line))
    ensures r.Bullet? ==> |Trim(line)| >= 2 && r.body == Trim(line)[2..]
    ensures r.Numbered? <==> !IsBulletLine(Trim(line)) && NumberedItem(Trim(line)).Some?
    ensures r.Numbered? ==> NumberedItem(Trim(line)) == Some((r.number, r.body))
    ensures r.Paragraph? ==> r.body == Trim(line) && r.body != "" && !IsBulletLine(r.body) && NumberedItem(r.body).None?
  {
    var t := Trim(line);
    BulletLength(t);
    if t == "" then Spacer
    else if IsBulletLine(t) then Bullet(t[2..])
    else match NumberedItem(t)
      case Some((n, body)) => Numbered(n, body)
      case None => Paragraph(t)
  }

  /** `RichText`: nothing for a falsy text, otherwise one rendered line per `\n`-separated line. */
  function RichText(text: string): (r: seq<LineKind>)
    ensures text == "" ==> r == []
    ensures text != "" ==> |r| == |Split(text, '\n')|
    ensures text != "" ==> forall i :: 0 <= i < |r| ==> r[i] == ClassifyLine(Split(text, '\n')[i])
  {
    if text == "" then []
    else
      var lines := Split(text, '\n');
      seq(|lines|, i requires 0 <= i < |lines| => ClassifyLine(lines[i]))
  }

  /** A numbered line such as "12. Fort" keeps its number and text. */
  lemma NumberedExample()
    ensures ClassifyLine("12. Fort") == Numbered("12", "Fort")
  {
    var t := "12. Fort";
    ExampleIsTrimmed(t);
    assert !IsBulletLine(t) by {
      assert t[..2] != "- " && t[..2] != "\U{2022} " && t[..2] != "* ";
    }
    ExampleItem(t);
  }

  lemma ExampleIsTrimmed(t: string)
    requires t == "12. Fort"
    ensures Trim(t) == t
  {
    assert DropLeading(t, IsJsSpace) == t;
    assert DropTrailing(t, IsJsSpace) == t;
  }

  lemma ExampleItem(t: string)
    requires t == "12. Fort"
    ensures NumberedItem(t) == Some(("12", "Fort"))
  {
    ExampleDigits(t);
    var after := t[3..];
    assert after == " Fort";
    ExampleBlank(after);
    TakeWhileAll(after[1..], NotLineTerminator);
  }

  lemma ExampleDigits(t: string)
    requires t == "12. Fort"
    ensures TakeWhile(t, IsDigit) == "12"
  {
    assert t[2..] == ". Fort";
    assert TakeWhile(t[2..], IsDigit) == [];
    assert TakeWhile(t[1..], IsDigit) == "2";
  }

  lemma ExampleBlank(after: string)
    requires after == " Fort"
    ensures TakeWhile(after, IsJsSpace) == " "
  {
    assert after[1..] == "Fort";
    assert TakeWhile(after[1..], IsJsSpace) == [];
  }

  /** A text none of whose characters stops the prefix is taken whole. */
  lemma {:induction false} TakeWhileAll(s: string, p: char -> bool)
    requires forall i :: 0 <= i < |s| ==> p(s[i])
    ensures TakeWhile(s, p) == s
  {
    if s != [] {
      TakeWhileAll(s[1..], p);
    }
  }

  // ---------------------------------------------------------------------
  // InlineItinerary

  /** No assignment in `more` names `k`. */
  predicate Unassigned(more: seq<(string, J)>, k: string) {
    forall i :: 0 <= i < |more| ==> more[i].0 != k
  }

  /** The `i`-th assignment of `more` is the last one to its field. */
  predicate LastAssignment(more: seq<(string, J)>, i: int)
    requires 0 <= i < |more|
  {
    forall j :: i < j < |more| ==> more[j].0 != more[i].0
  }

  /** `{...base, ...more}` field by field: later assignments win, first positions stay. */
  function AssignAll(base: seq<(string, J)>, more: seq<(string, J)>): (r: seq<(string, J)>)
    ensures forall k :: Unassigned(more, k) ==> FieldOf(r, k) == FieldOf(base, k)
    ensures forall i :: 0 <= i < |more| && LastAssignment(more, i) ==> FieldOf(r, more[i].0) == Some(more[i].1)
    decreases |more|
  {
    if more == [] then base
    else
      var n := |more| - 1;
      var prev := AssignAll(base, more[..n]);
      AssignStep(base, more, prev);
      SetField(prev, more[n].0, more[n].1)
  }

  /** One more assignment on top of the assignments before it keeps the spread's two promises. */
  lemma AssignStep(base: seq<(string, J)>, more: seq<(string, J)>, prev: seq<(string, J)>)
    requires more != []
    requires forall k :: Unassigned(more[..|more| - 1], k) ==> FieldOf(prev, k) == FieldOf(base, k)
    requires forall i :: 0 <= i < |more| - 1 && LastAssignment(more[..|more| - 1], i) ==> FieldOf(prev, more[i].0) == Some(more[i].1)
    ensures var r := SetField(prev, more[|more| - 1].0, more[|more| - 1].1);
            && (forall k :: Unassigned(more, k) ==> FieldOf(r, k) == FieldOf(base, k))
            && (forall i :: 0 <= i < |more| && LastAssignment(more, i) ==> FieldOf(r, more[i].0) == Some(more[i].1))
  {
    var n := |more| - 1;
    var init := more[..n];
    var r := SetField(prev, more[n].0, more[n].1);
    forall k | Unassigned(more, k)
      ensures FieldOf(r, k) == FieldOf(base, k)
    {
      assert more[n].0 != k;
      forall i | 0 <= i < n
        ensures init[i].0 != k
      {
        assert init[i] == more[i];
      }
    }
    forall i | 0 <= i < |more| && LastAssignment(more, i)
      ensures FieldOf(r, more[i].0) == Some(more[i].1)
    {
      if i < n {
        assert init[i] == more[i];
        forall j | i < j < n
          ensures init[j].0 != init[i].0
        {
          assert init[j] == more[j];
        }
        assert LastAssignment(init, i);
        assert more[i].0 != more[n].0;
      }
    }
  }

  /** The own enumerable properties of an object or array, as a spread sees them. */
  function SpreadFields(v: J): seq<(string, J)> {
    match v
    case JObj(fs) => fs
    case JArr(items) => seq(|items|, i requires 0 <= i < |items| => (NatToString(i), items[i]))
    case _ => []
  }

  /**
   * One entry of an object itinerary: `{dayNumber: digits || 0, ...val}`
   * for an object value (`null` included, which adds nothing), else
   * `{dayNumber, theme: String(val)}`.
   */
  function InlineEntry(e: (string, J), toStr: J -> string): (r: J)
    ensures r.JObj?
    ensures !IsJsObject(e.1) && !e.1.JNull? ==> r == JObj([("dayNumber", JNum(KeyNumber(e.0) as real)), ("theme", JStr(toStr(e.1)))])
    ensures (forall i :: 0 <= i < |SpreadFields(e.1)| ==> SpreadFields(e.1)[i].0 != "dayNumber") ==>
              Get(r, "dayNumber") == JNum(KeyNumber(e.0) as real)
  {
    var base := [("dayNumber", JNum(KeyNumber(e.0) as real))];
    if IsJsObject(e.1) || e.1.JNull? then JObj(AssignAll(base, SpreadFields(e.1)))
    else JObj(SetField(base, "theme", JStr(toStr(e.1))))
  }

  /** The entries of an object itinerary normalised in order. */
  function InlineEntries(entries: seq<(string, J)>, toStr: J -> string): (r: seq<J>)
    ensures |r| == |entries|
    ensures forall i :: 0 <= i < |entries| ==> r[i] == InlineEntry(entries[i], toStr)
  {
    seq(|entries|, i requires 0 <= i < |entries| => InlineEntry(entries[i], toStr))
  }

  /**
   * `InlineItinerary`'s days: an array is used as it is; an object gives one
   * entry per key, sorted by the key's digits; anything else gives none.
   */
  function InlineDays(itinerary: J, toStr: J -> string): (r: seq<J>)
    ensures itinerary.JArr? ==> r == itinerary.items
    ensures itinerary.JObj? ==> |r| == |itinerary.fields|
    ensures itinerary.JObj? ==> |SortBy(itinerary.fields, ItineraryPanel.EntryKey)| == |r|
    ensures itinerary.JObj? ==> forall i :: 0 <= i < |r| ==>
              r[i] == InlineEntry(SortBy(itinerary.fields, ItineraryPanel.EntryKey)[i], toStr)
    ensures itinerary.JObj? ==> forall i :: 0 <= i < |r| ==> r[i].JObj?
    ensures !IsJsObject(itinerary) ==> r == []
  {
    match itinerary
    case JArr(items) => items
    case JObj(fs) =>
      SortByFacts(fs, ItineraryPanel.EntryKey);
      InlineEntries(SortBy(fs, ItineraryPanel.EntryKey), toStr)
    case _ => []
  }

  /**
   * An object itinerary's days come from its entries reordered as a stable
   * sort by the keys' digits: every entry once, in key order, ties in
   * object order.
   */
  lemma InlineDaysOrder(itinerary: J, toStr: J -> string)
    requires itinerary.JObj?
    ensures var es := SortBy(itinerary.fields, ItineraryPanel.EntryKey);
            && multiset(es) == multiset(itinerary.fields)
            && SortedBy(es, ItineraryPanel.EntryKey)
            && SameKeyOrder(es, itinerary.fields, ItineraryPanel.EntryKey)
            && forall i :: 0 <= i < |es| ==> InlineDays(itinerary, toStr)[i] == InlineEntry(es[i], toStr)
  {
    SortByFacts(itinerary.fields, ItineraryPanel.EntryKey);
  }

  /**
   * Whether the inline itinerary gets past both early returns: the falsy
   * check and the zero-day check. A null day or a non-array `activities`
   * still throws later in the render.
   */
  predicate PassesInlineGuards(itinerary: J, toStr: J -> string) {
    JsTruthy(itinerary) && |InlineDays(itinerary, toStr)| > 0
  }

  /** The inline itinerary passes both early returns iff it is a non-empty array or a non-empty object. */
  lemma InlineGuardsIff(itinerary: J, toStr: J -> string)
    ensures PassesInlineGuards(itinerary, toStr) <==>
            (itinerary.JArr? && itinerary.items != []) || (itinerary.JObj? && itinerary.fields != [])
  {
  }

  /**
   * When no value spreads a `dayNumber` of its own, the entries carry the
   * numbers of their keys' digits, in non-decreasing order.
   */
  lemma InlineDayNumbersAscending(fs: seq<(string, J)>, toStr: J -> string)
    requires forall i :: 0 <= i < |fs| ==> forall j :: 0 <= j < |SpreadFields(fs[i].1)| ==> SpreadFields(fs[i].1)[j].0 != "dayNumber"
    ensures var r := InlineDays(JObj(fs), toStr);
            forall a, b :: 0 <= a < b < |r| ==>
              Get(r[a], "dayNumber").JNum? && Get(r[b], "dayNumber").JNum? && Get(r[a], "dayNumber").n <= Get(r[b], "dayNumber").n
  {
    var sorted := SortBy(fs, ItineraryPanel.EntryKey);
    SortByFacts(fs, ItineraryPanel.EntryKey);
    var r := InlineDays(JObj(fs), toStr);
    forall a | 0 <= a < |sorted| ensures Get(r[a], "dayNumber") == JNum(KeyNumber(sorted[a].0) as real) {
      assert sorted[a] in multiset(fs);
      var k :| 0 <= k < |fs| && fs[k] == sorted[a];
    }
    forall a, b | 0 <= a < b < |r| ensures Get(r[a], "dayNumber").n <= Get(r[b], "dayNumber").n {
      assert ItineraryPanel.EntryKey(sorted[a]) <= ItineraryPanel.EntryKey(sorted[b]);
    }
  }

  // ---------------------------------------------------------------------
  // Activity lines

  /**
   * An inline activity's text: a string itself, else
   * `description || activity || ""`. `None` for a `null` activity, whose
   * property read throws.
   */
  function ActivityText(a: J): (r: Option<J>)
    ensures r.None? <==> a.JNull?
    ensures a.JStr? ==> r == Some(a)
    ensures r.Some? && !a.JStr? ==> r.value == JsOr(Get(a, "description"), JsOr(Get(a, "activity"), JStr("")))
    ensures r.Some? && !a.JStr? ==> JsTruthy(r.value) || r.value == JStr("")
  {
    if a.JStr? then Some(a)
    else if a.JNull? then None
    else Some(JsOr(Get(a, "description"), JsOr(Get(a, "activity"), JStr(""))))
  }

  /**
   * `extractPlaceName` of the bubble: the trimmed capture when its length
   * is 4..59, else nothing. There is no whole-text fallback.
   */
  function ExtractPlaceName(text: string, capture: string -> Option<string>): (r: Option<string>)
    ensures r.Some? ==> capture(text).Some? && r.value == Trim(capture(text).value) && 3 < |r.value| < 60
    ensures r.None? <==> capture(text).None? || !(3 < |Trim(capture(text).value)| < 60)
  {
    var m := capture(text);
    if m.Some? && 3 < |Trim(m.value)| < 60 then Some(Trim(m.value)) else None
  }

  /**
   * A text that neither pattern matches has no place here, while the
   * itinerary panel falls back to the whole text. `bubbleCapture` and
   * `panelCapture` stand for the two components' own patterns.
   */
  lemma NoWholeTextFallback(text: string, bubbleCapture: string -> Option<string>, panelCapture: string -> Option<string>)
    requires bubbleCapture(text).None? && panelCapture(text).None? && 3 < |text| < 40
    ensures ExtractPlaceName(text, bubbleCapture).None?
    ensures ItineraryPanel.ExtractPlaceName(text, panelCapture) == Some(Trim(text))
  {
  }

  // ---------------------------------------------------------------------
  // Form state

  /** `handleFieldChange(key, value)`: only `key` changes. */
  function FieldChange(form: seq<(string, J)>, key: string, value: J): (r: seq<(string, J)>)
    ensures FieldOf(r, key) == Some(value)
    ensures forall k :: k != key ==> FieldOf(r, k) == FieldOf(form, k)
  {
    SetField(form, key, value)
  }

  /** `handleFormSubmit()`: the form goes to the handler, if there is one, and is then reset. */
  function FormSubmit(form: seq<(string, J)>, hasHandler: bool): (r: (Option<seq<(string, J)>>, seq<(string, J)>))
    ensures r.1 == []
    ensures hasHandler <==> r.0 == Some(form)
    ensures !hasHandler ==> r.0 == None
  {
    (if hasHandler then Some(form) else None, [])
  }

  /** Two edits then a submit send both values and leave an empty form. */
  lemma EditThenSubmit(k1: string, v1: J, k2: string, v2: J)
    requires k1 != k2
    ensures var (sent, after) := FormSubmit(FieldChange(FieldChange([], k1, v1), k2, v2), true);
            sent.Some? && FieldOf(sent.value, k1) == Some(v1) && FieldOf(sent.value, k2) == Some(v2) && after == []
  {
  }
}

=== FILE: Models.dfy ===
/**
 * The request and response schemas of the account endpoints, as the
 * validation library checks them against a JSON body: a missing field, a
 * value of the wrong type or a value outside its bounds is an error for
 * that field; fields the schema does not declare are ignored.
 */
module Models {
  import opened Wrappers
  import opened Json
  import opened Seqs

  const TravelStyles: set<string> := {"solo", "couple", "family", "friends", "business"}
  const InterestNames: set<string> := {"art", "food", "history", "nature", "shopping", "adventure", "nightlife", "photography"}
  const Budgets: set<string> := {"budget", "moderate", "luxury"}

  /** The registration request with travel preferences. */
  datatype ProfileRequest = ProfileRequest(
    fullName: string, email: string, password: string, country: string,
    travelStyle: seq<string>, interests: seq<string>, budget: string)

  /** The registration request without preferences. */
  datatype AuthRequest = AuthRequest(fullName: string, email: string, password: string, country: string)

  /** The sign-in request. */
  datatype LoginRequest = LoginRequest(email: string, password: string)

  /** The stored profile as returned to the client. */
  datatype ProfileResponse = ProfileResponse(
    uid: string, fullName: string, email: string, country: string,
    travelStyle: seq<string>, interests: seq<string>, budget: string, createdAt: Option<string>)

  /** A present string field. */
  function Str(body: J, k: string): Option<string> {
    match Lookup(body, k)
    case Some(JStr(s)) => Some(s)
    case _ => None
  }

  /** A present list of strings. */
  function StrList(body: J, k: string): Option<seq<string>> {
    match Lookup(body, k)
    case Some(JArr(xs)) =>
      if forall i :: 0 <= i < |xs| ==> xs[i].JStr? then Some(seq(|xs|, i requires 0 <= i < |xs| => xs[i].s)) else None
    case _ => None
  }

  /** A present string field whose length lies in `lo..hi`. */
  predicate StrLength(body: J, k: string, lo: nat, hi: nat) {
    Str(body, k).Some? && lo <= |Str(body, k).value| <= hi
  }

  /** A present string field of at least `lo` characters. */
  predicate StrAtLeast(body: J, k: string, lo: nat) {
    Str(body, k).Some? && lo <= |Str(body, k).value|
  }

  /** A present list of `lo..hi` strings, each one of `allowed`. */
  predicate LiteralList(body: J, k: string, allowed: set<string>, lo: nat, hi: nat) {
    && StrList(body, k).Some?
    && lo <= |StrList(body, k).value| <= hi
    && forall i :: 0 <= i < |StrList(body, k).value| ==> StrList(body, k).value[i] in allowed
  }

  /**
   * The `email` field is a string the e-mail validator accepts. The
   * validator returns the address in its normalised form (the domain
   * lower-cased), which is what the request then holds.
   */
  predicate EmailOk(body: J, checkEmail: string -> Option<string>) {
    Str(body, "email").Some? && checkEmail(Str(body, "email").value).Some?
  }

  /** The normalised address of an accepted `email` field. */
  function EmailOf(body: J, checkEmail: string -> Option<string>): string
    requires EmailOk(body, checkEmail)
  {
    checkEmail(Str(body, "email").value).value
  }

  /** The names of the failing fields among `checks`, in declaration order. */
  function Failing(checks: seq<(string, bool)>): (r: seq<string>)
    ensures forall f :: f in r <==> exists i :: 0 <= i < |checks| && checks[i] == (f, false)
    ensures r == [] <==> forall i :: 0 <= i < |checks| ==> checks[i].1
  {
    if checks == [] then []
    else
      var rest := Failing(checks[1..]);
      assert forall i :: 1 <= i < |checks| ==> checks[i] == checks[1..][i - 1];
      if checks[0].1 then rest else [checks[0].0] + rest
  }

  // ---------------------------------------------------------------------
  // Registration with preferences

  /** The checks of the registration request with preferences. */
  function ProfileChecks(body: J, checkEmail: string -> Option<string>): seq<(string, bool)> {
    [ ("full_name", StrLength(body, "full_name", 2, 100)),
      ("email", EmailOk(body, checkEmail)),
      ("password", StrAtLeast(body, "password", 6)),
      ("country", StrAtLeast(body, "country", 2)),
      ("travel_style", StrList(body, "travel_style").Some? && LiteralList(body, "travel_style", TravelStyles, 1, |StrList(body, "travel_style").value|)),
      ("interests", LiteralList(body, "interests", InterestNames, 1, 3)),
      ("budget", Str(body, "budget").Some? && Str(body, "budget").value in Budgets) ]
  }

  /** A request accepted by the schema meets every bound the schema declares. */
  predicate ValidProfileRequest(q: ProfileRequest) {
    && 2 <= |q.fullName| <= 100
    && |q.password| >= 6
    && |q.country| >= 2
    && |q.travelStyle| >= 1 && (forall i :: 0 <= i < |q.travelStyle| ==> q.travelStyle[i] in TravelStyles)
    && 1 <= |q.interests| <= 3 && (forall i :: 0 <= i < |q.interests| ==> q.interests[i] in InterestNames)
    && q.budget in Budgets
  }

  /** Validation of the registration request with preferences: the request, or the names of the failing fields. */
  function ValidateProfileRequest(body: J, checkEmail: string -> Option<string>): (r: Result<ProfileRequest, seq<string>>)
    ensures r.Ok? ==> ValidProfileRequest(r.value)
    ensures r.Ok? ==> && Some(r.value.fullName) == Str(body, "full_name") && EmailOk(body, checkEmail)
                      && Some(r.value.email) == checkEmail(Str(body, "email").value)
                      && Some(r.value.password) == Str(body, "password") && Some(r.value.country) == Str(body, "country")
                      && Some(r.value.travelStyle) == StrList(body, "travel_style")
                      && Some(r.value.interests) == StrList(body, "interests")
                      && Some(r.value.budget) == Str(body, "budget")
    ensures r.Err? ==> r.error != [] && forall f :: f in r.error <==> (f, false) in ProfileChecks(body, checkEmail)
  {
    var errors := Failing(ProfileChecks(body, checkEmail));
    if errors != [] then Err(errors)
    else
      var cs := ProfileChecks(body, checkEmail);
      assert cs[0].1 && cs[1].1 && cs[2].1 && cs[3].1 && cs[4].1 && cs[5].1 && cs[6].1;
      Ok(ProfileRequest(Str(body, "full_name").value, EmailOf(body, checkEmail), Str(body, "password").value,
                        Str(body, "country").value, StrList(body, "travel_style").value,
                        StrList(body, "interests").value, Str(body, "budget").value))
  }

  // ---------------------------------------------------------------------
  // Registration without preferences, and sign-in

  /** The checks of the registration request without preferences. */
  function AuthChecks(body: J, checkEmail: string -> Option<string>): seq<(string, bool)> {
    [ ("full_name", StrLength(body, "full_name", 2, 100)),
      ("email", EmailOk(body, checkEmail)),
      ("password", StrAtLeast(body, "password", 6)),
      ("country", StrAtLeast(body, "country", 2)) ]
  }

  /** Validation of the registration request without preferences. */
  function ValidateAuthRequest(body: J, checkEmail: string -> Option<string>): (r: Result<AuthRequest, seq<string>>)
    ensures r.Ok? ==> 2 <= |r.value.fullName| <= 100 && |r.value.password| >= 6 && |r.value.country| >= 2
    ensures r.Ok? ==> && Some(r.value.fullName) == Str(body, "full_name") && EmailOk(body, checkEmail)
                      && Some(r.value.email) == checkEmail(Str(body, "email").value)
                      && Some(r.value.password) == Str(body, "password") && Some(r.value.country) == Str(body, "country")
    ensures r.Err? ==> r.error != [] && forall f :: f in r.error <==> (f, false) in AuthChecks(body, checkEmail)
  {
    var errors := Failing(AuthChecks(body, checkEmail));
    if errors != [] then Err(errors)
    else
      var cs := AuthChecks(body, checkEmail);
      assert cs[0].1 && cs[1].1 && cs[2].1 && cs[3].1;
      Ok(AuthRequest(Str(body, "full_name").value, EmailOf(body, checkEmail), Str(body, "password").value, Str(body, "country").value))
  }

  /** Validation of the sign-in request: any string password is accepted. */
  function ValidateLoginRequest(body: J, checkEmail: string -> Option<string>): (r: Result<LoginRequest, seq<string>>)
    ensures r.Ok? <==> EmailOk(body, checkEmail) && Str(body, "password").Some?
    ensures r.Ok? ==> Some(r.value.email) == checkEmail(Str(body, "email").value) && Some(r.value.password) == Str(body, "password")
  {
    var cs := [ ("email", EmailOk(body, checkEmail)),
                ("password", Str(body, "password").Some?) ];
    var errors := Failing(cs);
    if errors != [] then Err(errors)
    else
      assert cs[0].1 && cs[1].1;
      Ok(LoginRequest(EmailOf(body, checkEmail), Str(body, "password").value))
  }

  /** A body the preference schema accepts is accepted by the schema without preferences, with the same four fields. */
  lemma ProfileRequestProjects(body: J, checkEmail: string -> Option<string>)
    requires ValidateProfileRequest(body, checkEmail).Ok?
    ensures ValidateAuthRequest(body, checkEmail).Ok?
    ensures var p := ValidateProfileRequest(body, checkEmail).value;
            ValidateAuthRequest(body, checkEmail).value == AuthRequest(p.fullName, p.email, p.password, p.country)
  {
    var ps := ProfileChecks(body, checkEmail);
    assert Failing(ps) == [];
    assert ps[0].1 && ps[1].1 && ps[2].1 && ps[3].1;
    var cs := AuthChecks(body, checkEmail);
    assert cs == ps[..4];
    assert Failing(cs) == [];
  }

  /** The schema without preferences never yields the preference fields: they are outside its declared fields. */
  lemma AuthRequestIgnoresPreferences(body: J, checkEmail: string -> Option<string>, style: J)
    requires body.JObj? && ValidateAuthRequest(body, checkEmail).Ok?
    ensures ValidateAuthRequest(JObj(body.fields + [("travel_style", style)]), checkEmail) == ValidateAuthRequest(body, checkEmail)
  {
    var b2 := JObj(body.fields + [("travel_style", style)]);
    forall k | k in {"full_name", "email", "password", "country"}
      ensures Lookup(b2, k) == Lookup(body, k)
    {
      FieldOfAppend(body.fields, [("travel_style", style)], k);
    }
    assert Str(b2, "full_name") == Str(body, "full_name");
    assert Str(b2, "email") == Str(body, "email");
    assert Str(b2, "password") == Str(body, "password");
    assert Str(b2, "country") == Str(body, "country");
    assert AuthChecks(b2, checkEmail) == AuthChecks(body, checkEmail);
  }

  /** The sign-in schema accepts a password of any length, even an empty one. */
  lemma LoginAcceptsEmptyPassword(email: string, checkEmail: string -> Option<string>)
    requires checkEmail(email).Some?
    ensures ValidateLoginRequest(JObj([("email", JStr(email)), ("password", JStr(""))]), checkEmail) == Ok(LoginRequest(checkEmail(email).value, ""))
  {
    var fs := [("email", JStr(email)), ("password", JStr(""))];
    FieldsOfUnique(fs);
    assert fs[0].0 == "email" && fs[1].0 == "password";
  }

  // ---------------------------------------------------------------------
  // Profile response

  /** The optional `created_at`: absent or `None` gives no date, a string gives the date, anything else fails. */
  function OptionalStr(body: J, k: string): (r: Result<Option<string>, string>)
    ensures Lookup(body, k).None? ==> r == Ok(None)
    ensures Lookup(body, k) == Some(JNull) ==> r == Ok(None)
    ensures r.Ok? && r.value.Some? ==> Lookup(body, k) == Some(JStr(r.value.value))
  {
    match Lookup(body, k)
    case None => Ok(None)
    case Some(JNull) => Ok(None)
    case Some(JStr(s)) => Ok(Some(s))
    case Some(_) => Err(k)
  }

  /** Validation of a stored profile for the response: seven required fields and an optional creation date. */
  function ValidateProfileResponse(doc: J): (r: Result<ProfileResponse, seq<string>>)
    ensures r.Ok? ==> && Some(r.value.uid) == Str(doc, "uid") && Some(r.value.fullName) == Str(doc, "full_name")
                      && Some(r.value.email) == Str(doc, "email") && Some(r.value.country) == Str(doc, "country")
                      && Some(r.value.travelStyle) == StrList(doc, "travel_style")
                      && Some(r.value.interests) == StrList(doc, "interests")
                      && Some(r.value.budget) == Str(doc, "budget")
                      && Ok(r.value.createdAt) == OptionalStr(doc, "created_at")
    ensures r.Ok? <==> && Str(doc, "uid").Some? && Str(doc, "full_name").Some? && Str(doc, "email").Some?
                       && Str(doc, "country").Some? && StrList(doc, "travel_style").Some?
                       && StrList(doc, "interests").Some? && Str(doc, "budget").Some?
                       && OptionalStr(doc, "created_at").Ok?
    ensures r.Err? ==> r.error != []
  {
    var cs := [ ("uid", Str(doc, "uid").Some?), ("full_name", Str(doc, "full_name").Some?),
                ("email", Str(doc, "email").Some?), ("country", Str(doc, "country").Some?),
                ("travel_style", StrList(doc, "travel_style").Some?), ("interests", StrList(doc, "interests").Some?),
                ("budget", Str(doc, "budget").Some?), ("created_at", OptionalStr(doc, "created_at").Ok?) ];
    var errors := Failing(cs);
    if errors != [] then Err(errors)
    else
      assert cs[0].1 && cs[1].1 && cs[2].1 && cs[3].1 && cs[4].1 && cs[5].1 && cs[6].1 && cs[7].1;
      Ok(ProfileResponse(Str(doc, "uid").value, Str(doc, "full_name").value, Str(doc, "email").value,
                         Str(doc, "country").value, StrList(doc, "travel_style").value,
                         StrList(doc, "interests").value, Str(doc, "budget").value,
                         OptionalStr(doc, "created_at").value))
  }
}

=== FILE: Seqs.dfy ===
/** Sequence helpers: JavaScript `filter`, `indexOf`, `find` and `slice(0, n)`. */
module Seqs {
  import opened Wrappers

  /** `s.filter(p)`: the elements satisfying `p`, in their original order. */
  function Filter<T(!new)>(s: seq<T>, p: T -> bool): (r: seq<T>)
    ensures |r| <= |s|
    ensures forall i :: 0 <= i < |r| ==> r[i] in s && p(r[i])
    ensures forall i :: 0 <= i < |s| && p(s[i]) ==> s[i] in r
  {
    if s == [] then []
    else if p(s[0]) then [s[0]] + Filter(s[1..], p)
    else Filter(s[1..], p)
  }

  /** Every passing element is kept as often as it occurs, and no failing one is kept. */
  lemma {:induction false} FilterMultiset<T(!new)>(s: seq<T>, p: T -> bool)
    ensures forall x :: multiset(Filter(s, p))[x] == if p(x) then multiset(s)[x] else 0
  {
    if s != [] {
      FilterMultiset(s[1..], p);
      assert s == [s[0]] + s[1..];
    }
  }

  /** Filtering distributes over concatenation, so relative order is kept. */
  lemma {:induction false} FilterAppend<T(!new)>(a: seq<T>, b: seq<T>, p: T -> bool)
    ensures Filter(a + b, p) == Filter(a, p) + Filter(b, p)
    decreases |a|
  {
    if a != [] {
      assert (a + b)[0] == a[0];
      assert (a + b)[1..] == a[1..] + b;
      FilterAppend(a[1..], b, p);
    } else {
      assert a + b == b;
    }
  }

  /** An element that fails the test leaves no trace in the filtered sequence. */
  lemma FilterSkip<T(!new)>(a: seq<T>, x: T, b: seq<T>, p: T -> bool)
    requires !p(x)
    ensures Filter(a + [x] + b, p) == Filter(a + b, p)
  {
    FilterAppend(a + [x], b, p);
    FilterAppend(a, [x], p);
    FilterAppend(a, b, p);
    assert [x][1..] == [];
  }

  /** A filter that every element passes changes nothing. */
  lemma {:induction false} FilterAllPass<T(!new)>(s: seq<T>, p: T -> bool)
    requires forall i :: 0 <= i < |s| ==> p(s[i])
    ensures Filter(s, p) == s
  {
    if s != [] {
      FilterAllPass(s[1..], p);
    }
  }

  /** A filter that no element passes leaves nothing. */
  lemma {:induction false} FilterNone<T(!new)>(s: seq<T>, p: T -> bool)
    requires forall i :: 0 <= i < |s| ==> !p(s[i])
    ensures Filter(s, p) == []
  {
    if s != [] {
      FilterNone(s[1..], p);
    }
  }

  /** `s.indexOf(x)`: the first position holding `x`, or -1. */
  function IndexOf<T(==)>(s: seq<T>, x: T): (r: int)
    ensures -1 <= r < |s|
    ensures r == -1 <==> x !in s
    ensures r >= 0 ==> s[r] == x && x !in s[..r]
  {
    if s == [] then -1
    else if s[0] == x then 0
    else
      var k := IndexOf(s[1..], x);
      if k < 0 then -1
      else
        assert s[..k + 1] == [s[0]] + s[1..][..k];
        k + 1
  }

  /** `s.find(p)`: the first element satisfying `p`. */
  function Find<T>(s: seq<T>, p: T -> bool): (r: Option<T>)
    ensures r.None? <==> forall i :: 0 <= i < |s| ==> !p(s[i])
    ensures r.Some? ==> exists i :: 0 <= i < |s| && s[i] == r.value && p(s[i])
                          && forall j :: 0 <= j < i ==> !p(s[j])
  {
    if s == [] then None
    else if p(s[0]) then Some(s[0])
    else
      var r := Find(s[1..], p);
      if r.Some? then
        assert exists i :: 0 <= i < |s| && s[i] == r.value && p(s[i]) && forall j :: 0 <= j < i ==> !p(s[j]) by {
          var i :| 0 <= i < |s[1..]| && s[1..][i] == r.value && p(s[1..][i]) && forall j :: 0 <= j < i ==> !p(s[1..][j]);
          assert s[i + 1] == r.value;
          assert forall j :: 0 <= j < i + 1 ==> !p(s[j]) by {
            forall j | 0 <= j < i + 1 ensures !p(s[j]) {
              if j > 0 { assert s[j] == s[1..][j - 1]; }
            }
          }
        }
        r
      else r
  }

  function Min(a: int, b: int): int {
    if a <= b then a else b
  }

  /** `s.slice(0, n)` for `n >= 0`. */
  function Take<T>(s: seq<T>, n: nat): (r: seq<T>)
    ensures |r| == Min(n, |s|)
    ensures r == s[..|r|]
  {
    if n <= |s| then s[..n] else s
  }

  /** Python `s[-n:]` for `n >= 1`: the last `min(n, |s|)` elements. */
  function Last<T>(s: seq<T>, n: nat): (r: seq<T>)
    requires n >= 1
    ensures |r| == Min(n, |s|)
    ensures r == s[|s| - |r|..]
  {
    if n <= |s| then s[|s| - n..] else s
  }

  /** No element occurs twice. */
  predicate NoDuplicates<T(==)>(s: seq<T>) {
    forall i, j :: 0 <= i < j < |s| ==> s[i] != s[j]
  }

  /** The elements of the parts, part after part. */
  function Flatten<T>(parts: seq<seq<T>>): seq<T> {
    if parts == [] then [] else Flatten(parts[..|parts| - 1]) + parts[|parts| - 1]
  }

  /** Flattening distributes over concatenation. */
  lemma {:induction false} FlattenAppend<T>(a: seq<seq<T>>, b: seq<seq<T>>)
    ensures Flatten(a + b) == Flatten(a) + Flatten(b)
    decreases |b|
  {
    if b == [] {
      assert a + b == a;
    } else {
      assert (a + b)[..|a + b| - 1] == a + b[..|b| - 1];
      FlattenAppend(a, b[..|b| - 1]);
    }
  }
  /**
   * Applies a partial `f` to every element, in order, as a Python loop that
   * raises on the first failing element does: `None` when some application fails.
   */
  function MapAll<A, B>(s: seq<A>, f: A -> Option<B>): (r: Option<seq<B>>)
    ensures r.Some? <==> forall i :: 0 <= i < |s| ==> f(s[i]).Some?
    ensures r.Some? ==> |r.value| == |s| && forall i :: 0 <= i < |s| ==> Some(r.value[i]) == f(s[i])
    decreases |s|
  {
    if s == [] then Some([])
    else
      var n := |s| - 1;
      assert forall i :: 0 <= i < n ==> s[..n][i] == s[i];
      match (MapAll(s[..n], f), f(s[n]))
      case (Some(prev), Some(y)) =>
        assert forall i :: 0 <= i < n ==> (prev + [y])[i] == prev[i];
        Some(prev + [y])
      case (None, _) => None
      case (_, None) => None
  }

  /** Like `MapAll`, with each application giving several results, concatenated in order. */
  function FlatMapAll<A, B>(s: seq<A>, f: A -> Option<seq<B>>): (r: Option<seq<B>>)
    ensures r.Some? <==> forall i :: 0 <= i < |s| ==> f(s[i]).Some?
    decreases |s|
  {
    if s == [] then Some([])
    else
      var n := |s| - 1;
      assert forall i :: 0 <= i < n ==> s[..n][i] == s[i];
      match (FlatMapAll(s[..n], f), f(s[n]))
      case (Some(prev), Some(ys)) => Some(prev + ys)
      case (None, _) => None
      case (_, None) => None
  }

  /** A successful flat-map is the elements' results, each in its element's place, concatenated. */
  lemma {:induction false} FlatMapAllFlatten<A, B>(s: seq<A>, f: A -> Option<seq<B>>)
    requires FlatMapAll(s, f).Some?
    ensures MapAll(s, f).Some? && FlatMapAll(s, f).value == Flatten(MapAll(s, f).value)
    decreases |s|
  {
    if s != [] {
      var n := |s| - 1;
      FlatMapAllFlatten(s[..n], f);
      var parts := MapAll(s[..n], f).value;
      var ys := f(s[n]).value;
      assert MapAll(s, f).value == parts + [ys];
      assert (parts + [ys])[..n] == parts;
    }
  }

  /** Appending one pair to a run of pairs keeps every earlier pair in its place and puts the new one last. */
  lemma AppendPair<T>(prev: seq<T>, pair: seq<T>, n: nat)
    requires |prev| == 2 * n && |pair| == 2
    ensures forall i :: 0 <= i < n ==> (prev + pair)[2 * i..2 * i + 2] == prev[2 * i..2 * i + 2]
    ensures (prev + pair)[2 * n..2 * n + 2] == pair
  {
    forall i | 0 <= i < n
      ensures (prev + pair)[2 * i..2 * i + 2] == prev[2 * i..2 * i + 2]
    {
      assert (prev + pair)[2 * i] == prev[2 * i];
      assert (prev + pair)[2 * i + 1] == prev[2 * i + 1];
    }
  }

  /** Flat-mapping two runs one after the other is flat-mapping them together. */
  lemma {:induction false} FlatMapAllAppend<A, B>(a: seq<A>, b: seq<A>, f: A -> Option<seq<B>>)
    requires FlatMapAll(a + b, f).Some?
    ensures FlatMapAll(a, f).Some? && FlatMapAll(b, f).Some?
    ensures FlatMapAll(a + b, f).value == FlatMapAll(a, f).value + FlatMapAll(b, f).value
    decreases |b|
  {
    assert forall i :: 0 <= i < |a| ==> (a + b)[i] == a[i];
    assert forall i :: 0 <= i < |b| ==> (a + b)[|a| + i] == b[i];
    if b != [] {
      var b0 := b[..|b| - 1];
      assert (a + b)[..|a + b| - 1] == a + b0;
      FlatMapAllAppend(a, b0, f);
    } else {
      assert a + b == a;
    }
  }

  /** When every element maps to a pair, the result holds the pairs back to back in order. */
  lemma {:induction false} FlatMapPairs<A, B>(s: seq<A>, f: A -> Option<seq<B>>)
    requires forall i :: 0 <= i < |s| ==> f(s[i]).Some? && |f(s[i]).value| == 2
    ensures FlatMapAll(s, f).Some? && |FlatMapAll(s, f).value| == 2 * |s|
    ensures forall i :: 0 <= i < |s| ==> FlatMapAll(s, f).value[2 * i..2 * i + 2] == f(s[i]).value
    decreases |s|
  {
    if s != [] {
      var n := |s| - 1;
      var init := s[..n];
      assert forall i :: 0 <= i < n ==> init[i] == s[i];
      FlatMapPairs(init, f);
      var prev := FlatMapAll(init, f).value;
      AppendPair(prev, f(s[n]).value, n);
      assert FlatMapAll(s, f).value == prev + f(s[n]).value;
    }
  }
}

=== FILE: Sidebar.dfy ===
/** The sidebar: which navigation item is highlighted, and the recent-chats list with its delete buttons. */
module Sidebar {
  import opened Wrappers
  import opened Text
  import opened Seqs
  import opened ChatStore

  /** A navigation item is active on its own path and on paths below it, not on a path that merely extends its text. */
  predicate IsActive(pathname: string, href: string) {
    pathname == href || StartsWith(pathname, href + "/")
  }

  /** `IsActive` is exactly: equal, or `href` followed by a '/' then anything. */
  lemma IsActiveIff(pathname: string, href: string)
    ensures IsActive(pathname, href) <==> pathname == href || exists rest :: pathname == href + "/" + rest
  {
    if StartsWith(pathname, href + "/") {
      var rest := pathname[|href| + 1..];
      assert pathname == href + "/" + rest;
    }
  }

  /** "/chatx" does not activate "/chat"; "/chat/abc" does. */
  lemma BarePrefixInactive()
    ensures !IsActive("/chatx", "/chat")
    ensures IsActive("/chat/abc", "/chat")
  {
    assert "/chatx"[5] != "/chat/"[5];
    assert "/chat/abc"[..6] == "/chat/";
  }

  /** The recent-chats section is rendered only when there is at least one session. */
  predicate ShowRecent(sessions: seq<Session>) {
    |sessions| > 0
  }

  /** The recent list: the first five sessions, in order. */
  function Recent(sessions: seq<Session>): (r: seq<Session>)
    ensures |r| == Min(5, |sessions|)
    ensures forall i :: 0 <= i < |r| ==> r[i] == sessions[i]
  {
    Take(sessions, 5)
  }

  /** A recent entry is highlighted when the page is "/chat" and the URL's id is its id. */
  predicate RecentHighlighted(pathname: string, urlId: Option<string>, session: Session) {
    pathname == "/chat" && urlId == Some(session.convoId)
  }

  /** The id the `i`-th delete button passes: its own row's session id. */
  function DeleteTarget(sessions: seq<Session>, i: nat): (r: string)
    requires i < |Recent(sessions)|
    ensures r == sessions[i].convoId
  {
    Recent(sessions)[i].convoId
  }

  /** A successful delete from a row removes that row's session, and only sessions with its id, from the store. */
  lemma DeleteButtonRemovesRow(s: Store, i: nat)
    requires i < |Recent(s.sessions)|
    ensures var r := DeleteSessionComplete(s, DeleteTarget(s.sessions, i), Ok(()));
            s.sessions[i] !in r.sessions
            && forall j :: 0 <= j < |s.sessions| && s.sessions[j].convoId != s.sessions[i].convoId ==> s.sessions[j] in r.sessions
  {
    var r := DeleteSessionComplete(s, DeleteTarget(s.sessions, i), Ok(()));
    assert forall k :: 0 <= k < |r.sessions| ==> r.sessions[k].convoId != s.sessions[i].convoId;
  }
}

=== FILE: Sorting.dfy ===
/**
 * A stable sort by an integer key: JavaScript's `Array.prototype.sort` with a
 * comparator `(a, b) => key(a) - key(b)`, which the language requires to be
 * stable.
 */
module Sorting {

  /** Non-decreasing keys. */
  predicate SortedBy<T>(s: seq<T>, key: T -> int) {
    forall i, j :: 0 <= i < j < |s| ==> key(s[i]) <= key(s[j])
  }

  /** The elements of `s` whose key is `k`, in their order in `s`. */
  function WithKey<T>(s: seq<T>, key: T -> int, k: int): seq<T> {
    if s == [] then []
    else WithKey(s[..|s| - 1], key, k) + (if key(s[|s| - 1]) == k then [s[|s| - 1]] else [])
  }

  /** Stability: equal-key elements keep their relative order. */
  ghost predicate SameKeyOrder<T>(a: seq<T>, b: seq<T>, key: T -> int) {
    forall k :: WithKey(a, key, k) == WithKey(b, key, k)
  }

  /** `x` placed after every element whose key does not exceed its own. */
  function Insert<T>(s: seq<T>, x: T, key: T -> int): seq<T> {
    if s == [] then [x]
    else if key(x) < key(s[|s| - 1]) then Insert(s[..|s| - 1], x, key) + [s[|s| - 1]]
    else s + [x]
  }

  /** Stable insertion sort: each element is inserted after all earlier ones with a key at most its own. */
  function SortBy<T>(s: seq<T>, key: T -> int): seq<T> {
    if s == [] then [] else Insert(SortBy(s[..|s| - 1], key), s[|s| - 1], key)
  }

  lemma {:induction false} InsertMultiset<T>(s: seq<T>, x: T, key: T -> int)
    ensures multiset(Insert(s, x, key)) == multiset(s) + multiset{x}
    decreases |s|
  {
    if s != [] && key(x) < key(s[|s| - 1]) {
      var init, last := s[..|s| - 1], s[|s| - 1];
      assert s == init + [last];
      InsertMultiset(init, x, key);
    }
  }

  lemma {:induction false} InsertSorted<T>(s: seq<T>, x: T, key: T -> int)
    requires SortedBy(s, key)
    ensures SortedBy(Insert(s, x, key), key)
    decreases |s|
  {
    if s != [] && key(x) < key(s[|s| - 1]) {
      var init, last := s[..|s| - 1], s[|s| - 1];
      assert SortedBy(init, key);
      InsertSorted(init, x, key);
      InsertMultiset(init, x, key);
      var ins := Insert(init, x, key);
      var r := ins + [last];
      forall y | y in ins ensures key(y) <= key(last) {
        assert y in multiset(ins);
        if y != x {
          assert y in multiset(init);
          var i :| 0 <= i < |init| && init[i] == y;
          assert s[i] == y;
        }
      }
      forall i, j | 0 <= i < j < |r| ensures key(r[i]) <= key(r[j]) {
        if j == |r| - 1 {
          assert r[i] in ins;
        } else {
          assert r[i] == ins[i] && r[j] == ins[j];
        }
      }
    }
  }

  lemma {:induction false} InsertWithKey<T>(s: seq<T>, x: T, key: T -> int, k: int)
    ensures WithKey(Insert(s, x, key), key, k) == WithKey(s, key, k) + (if key(x) == k then [x] else [])
    decreases |s|
  {
    if s == [] {
    } else if key(x) < key(s[|s| - 1]) {
      var init, last := s[..|s| - 1], s[|s| - 1];
      InsertWithKey(init, x, key, k);
      var r := Insert(init, x, key) + [last];
      assert r[..|r| - 1] == Insert(init, x, key);
    } else {
      var r := s + [x];
      assert r[..|r| - 1] == s;
    }
  }

  /** The sort is a permutation, ordered by key, and stable. */
  lemma {:induction false} SortByFacts<T>(s: seq<T>, key: T -> int)
    ensures multiset(SortBy(s, key)) == multiset(s)
    ensures |SortBy(s, key)| == |s|
    ensures SortedBy(SortBy(s, key), key)
    ensures SameKeyOrder(SortBy(s, key), s, key)
    decreases |s|
  {
    if s != [] {
      var init, last := s[..|s| - 1], s[|s| - 1];
      assert s == init + [last];
      SortByFacts(init, key);
      InsertMultiset(SortBy(init, key), last, key);
      InsertSorted(SortBy(init, key), last, key);
      forall k ensures WithKey(SortBy(s, key), key, k) == WithKey(s, key, k) {
        InsertWithKey(SortBy(init, key), last, key, k);
      }
      assert |SortBy(s, key)| == |multiset(SortBy(s, key))|;
    }
  }

  /** A sequence already ordered by key is left as it is. */
  lemma {:induction false} SortBySorted<T>(s: seq<T>, key: T -> int)
    requires SortedBy(s, key)
    ensures SortBy(s, key) == s
    decreases |s|
  {
    if s != [] {
      var init, last := s[..|s| - 1], s[|s| - 1];
      assert SortedBy(init, key);
      SortBySorted(init, key);
      if init != [] {
        assert key(init[|init| - 1]) <= key(last);
      }
      assert init + [last] == s;
    }
  }

  /** Every element of the sorted sequence comes from the input, and vice versa. */
  lemma SortByMembers<T>(s: seq<T>, key: T -> int, x: T)
    ensures x in SortBy(s, key) <==> x in s
  {
    SortByFacts(s, key);
    assert x in SortBy(s, key) <==> x in multiset(SortBy(s, key));
    assert x in s <==> x in multiset(s);
  }

  /** The positions 0, 1, ..., n - 1 of a sequence of length n. */
  function Positions(n: nat): (r: seq<nat>)
    ensures |r| == n
    ensures forall i :: 0 <= i < n ==> r[i] == i
  {
    seq(n, i requires 0 <= i < n => i as nat)
  }

  /** Every position in `idx` is below `n`. */
  predicate Below(idx: seq<nat>, n: nat) {
    forall k :: 0 <= k < |idx| ==> idx[k] < n
  }

  /** `s` read at the positions `idx`, in that order. */
  function Pick<T>(s: seq<T>, idx: seq<nat>): (r: seq<T>)
    requires Below(idx, |s|)
    ensures |r| == |idx|
    ensures forall k :: 0 <= k < |idx| ==> r[k] == s[idx[k]]
  {
    seq(|idx|, k requires 0 <= k < |idx| => s[idx[k]])
  }

  /** A rearrangement of the positions of a sequence names only positions that exist. */
  lemma PositionsBound(idx: seq<nat>, n: nat)
    requires multiset(idx) == multiset(Positions(n))
    ensures Below(idx, n)
  {
    forall k | 0 <= k < |idx| ensures idx[k] < n {
      assert idx[k] in multiset(Positions(n));
      var i :| 0 <= i < n && Positions(n)[i] == idx[k];
    }
  }

  /** Reading every position in order gives the sequence back. */
  lemma PickAll<T>(s: seq<T>)
    ensures Pick(s, Positions(|s|)) == s
  {
  }

  /** A sequence's multiset is that of the sequence without position `j`, plus the element there. */
  lemma SplitAt<T>(t: seq<T>, j: nat)
    requires j < |t|
    ensures multiset(t) == multiset(t[..j] + t[j + 1..]) + multiset{t[j]}
  {
    assert t == t[..j] + [t[j]] + t[j + 1..];
  }

  /** Taking the same element out of two equal multisets leaves equal multisets. */
  lemma RemoveMatching<T>(a: seq<T>, b: seq<T>, j: nat)
    requires a != [] && j < |b| && b[j] == a[0]
    requires multiset(a) == multiset(b)
    ensures multiset(a[1..]) == multiset(b[..j] + b[j + 1..])
  {
    var rest := b[..j] + b[j + 1..];
    SplitAt(a, 0);
    SplitAt(b, j);
    assert a[..0] + a[1..] == a[1..];
    forall y ensures multiset(a[1..])[y] == multiset(rest)[y] {
      assert (multiset(a[1..]) + multiset{a[0]})[y] == (multiset(rest) + multiset{a[0]})[y];
    }
  }

  /** Reading without position `j` of `idx` is the reading without its element `j`. */
  lemma PickRemove<T>(s: seq<T>, idx: seq<nat>, j: nat)
    requires Below(idx, |s|)
    requires j < |idx|
    ensures Below(idx[..j] + idx[j + 1..], |s|)
    ensures Pick(s, idx[..j] + idx[j + 1..]) == Pick(s, idx)[..j] + Pick(s, idx)[j + 1..]
  {
    var rest := idx[..j] + idx[j + 1..];
    assert forall k :: 0 <= k < |rest| ==> rest[k] == if k < j then idx[k] else idx[k + 1];
  }

  /** Reading at two rearrangements of the same positions gives the same elements. */
  lemma {:induction false} PickMultiset<T>(s: seq<T>, a: seq<nat>, b: seq<nat>)
    requires Below(a, |s|)
    requires Below(b, |s|)
    requires multiset(a) == multiset(b)
    ensures multiset(Pick(s, a)) == multiset(Pick(s, b))
    decreases |a|
  {
    if a == [] {
      assert |b| == |multiset(b)|;
    } else {
      assert a[0] in multiset(b);
      var j :| 0 <= j < |b| && b[j] == a[0];
      var pa, pb := Pick(s, a), Pick(s, b);
      RemoveMatching(a, b, j);
      PickRemove(s, a, 0);
      PickRemove(s, b, j);
      assert a[..0] + a[1..] == a[1..];
      PickMultiset(s, a[1..], b[..j] + b[j + 1..]);
      assert pa[0] == pb[j];
      assert multiset(pa[1..]) == multiset(pb[..j] + pb[j + 1..]);
      SplitAt(pa, 0);
      SplitAt(pb, j);
      assert pa[..0] + pa[1..] == pa[1..];
    }
  }
}

=== FILE: Text.dfy ===
/**
 * String helpers with the exact semantics the application relies on:
 * JavaScript `trim` and Python `strip`, prefixes and substrings, `indexOf`,
 * `split`/`join` on one separator character, and decimal digits.
 */
module Text {

  /** The characters JavaScript's `trim` removes and `\s` matches (WhiteSpace and LineTerminator). */
  predicate IsJsSpace(c: char) {
    c in {' ', '\t', '\n', '\r', '\U{000B}', '\U{000C}', '\U{00A0}', '\U{FEFF}', '\U{1680}',
          '\U{2028}', '\U{2029}', '\U{202F}', '\U{205F}', '\U{3000}'}
    || '\U{2000}' <= c <= '\U{200A}'
  }

  /** The characters Python's `str.strip()` removes (`str.isspace`). */
  predicate IsPySpace(c: char) {
    c in {' ', '\t', '\n', '\r', '\U{000B}', '\U{000C}', '\U{001C}', '\U{001D}', '\U{001E}', '\U{001F}',
          '\U{0085}', '\U{00A0}', '\U{1680}', '\U{2028}', '\U{2029}', '\U{202F}', '\U{205F}', '\U{3000}'}
    || '\U{2000}' <= c <= '\U{200A}'
  }

  /** `s` with its leading characters satisfying `sp` removed. */
  function DropLeading(s: string, sp: char -> bool): (r: string)
    ensures |r| <= |s| && r == s[|s| - |r|..]
    ensures r == [] || !sp(r[0])
    ensures forall k :: 0 <= k < |s| - |r| ==> sp(s[k])
  {
    if s != [] && sp(s[0]) then DropLeading(s[1..], sp) else s
  }

  /** `s` with its trailing characters satisfying `sp` removed. */
  function DropTrailing(s: string, sp: char -> bool): (r: string)
    ensures |r| <= |s| && r == s[..|r|]
    ensures r == [] || !sp(r[|r| - 1])
    ensures forall k :: |r| <= k < |s| ==> sp(s[k])
  {
    if s != [] && sp(s[|s| - 1]) then DropTrailing(s[..|s| - 1], sp) else s
  }

  /** Both ends stripped of characters satisfying `sp`. */
  function Strip(s: string, sp: char -> bool): (r: string)
  {
    DropTrailing(DropLeading(s, sp), sp)
  }

  /** JavaScript `s.trim()`. */
  function Trim(s: string): string {
    Strip(s, IsJsSpace)
  }

  /** Python `s.strip()`. */
  function PyStrip(s: string): string {
    Strip(s, IsPySpace)
  }

  /** A prefix `r` of the suffix `a` of `s` starting at `i` is the slice of `s` from `i` to `j`, with spaces after it. */
  lemma NestedCut(s: string, a: string, r: string, i: nat, j: nat, sp: char -> bool)
    requires i + |a| == |s| && a == s[i..]
    requires j == i + |r| && |r| <= |a| && r == a[..|r|] && forall k :: |r| <= k < |a| ==> sp(a[k])
    ensures r == s[i..j]
    ensures forall k :: j <= k < |s| ==> sp(s[k])
  {
    forall k | j <= k < |s|
      ensures sp(s[k])
    {
      assert s[k] == a[k - i];
    }
  }

  /** The bounds of the stripped piece: what lies before `i` and from `j` on is space. */
  lemma StripBounds(s: string, sp: char -> bool) returns (i: nat, j: nat)
    ensures i <= j <= |s| && Strip(s, sp) == s[i..j]
    ensures forall k :: 0 <= k < i ==> sp(s[k])
    ensures forall k :: j <= k < |s| ==> sp(s[k])
  {
    var a := DropLeading(s, sp);
    var r := DropTrailing(a, sp);
    i := |s| - |a|;
    j := i + |r|;
    NestedCut(s, a, r, i, j, sp);
  }

  /**
   * Stripping yields a contiguous piece of the input whose ends are not
   * spaces, and everything cut away on either side is space.
   */
  lemma StripIsInnerSlice(s: string, sp: char -> bool)
    ensures var r := Strip(s, sp);
            exists i, j :: 0 <= i <= j <= |s| && r == s[i..j]
                           && (forall k :: 0 <= k < i ==> sp(s[k]))
                           && (forall k :: j <= k < |s| ==> sp(s[k]))
    ensures var r := Strip(s, sp); r == [] || (!sp(r[0]) && !sp(r[|r| - 1]))
  {
    var i, j := StripBounds(s, sp);
    var a := DropLeading(s, sp);
    var r := DropTrailing(a, sp);
    if r != [] {
      assert r[0] == a[0];
    }
  }

  /** Stripping twice strips nothing more. */
  lemma StripIdempotent(s: string, sp: char -> bool)
    ensures Strip(Strip(s, sp), sp) == Strip(s, sp)
  {
    var r := Strip(s, sp);
    StripIsInnerSlice(s, sp);
    if r != [] {
      assert DropLeading(r, sp) == r;
      assert DropTrailing(r, sp) == r;
    }
  }

  /** `s.startsWith(p)` / `s.startswith(p)`. */
  predicate StartsWith(s: string, p: string) {
    |p| <= |s| && s[..|p|] == p
  }

  /** A text that starts with `p + q` starts with `p`. */
  lemma StartsWithPrefix(s: string, p: string, q: string)
    requires StartsWith(s, p + q)
    ensures StartsWith(s, p)
  {
    assert s[..|p|] == s[..|p + q|][..|p|];
  }

  /** `s.includes(t)` / `t in s`. */
  predicate Contains(s: string, t: string)
    decreases |s|
  {
    StartsWith(s, t) || (s != [] && Contains(s[1..], t))
  }

  /** A text lacking a character of `t` cannot contain `t`. */
  lemma {:induction false} NotContainsMissingChar(s: string, t: string, k: int)
    requires 0 <= k < |t| && t[k] !in s
    ensures !Contains(s, t)
    decreases |s|
  {
    assert !StartsWith(s, t) by {
      if |t| <= |s| {
        assert s[k] in s;
        assert s[..|t|][k] != t[k];
      }
    }
    if s != [] {
      NotContainsMissingChar(s[1..], t, k);
    }
  }

  /** JavaScript `s.indexOf(c)`: the first position of `c`, or -1. */
  function IndexOfChar(s: string, c: char): (r: int)
    ensures -1 <= r < |s|
    ensures r == -1 <==> c !in s
    ensures r >= 0 ==> s[r] == c && c !in s[..r]
  {
    if s == [] then -1
    else if s[0] == c then 0
    else
      var k := IndexOfChar(s[1..], c);
      if k < 0 then -1
      else
        assert s[..k + 1] == [s[0]] + s[1..][..k];
        k + 1
  }

  /** A string is the part before position `i`, the character there, and the part after. */
  lemma CutAt(s: string, i: int)
    requires 0 <= i < |s|
    ensures s == s[..i] + [s[i]] + s[i + 1..]
  {
  }

  /** JavaScript `s.split(c)` for a one-character separator: never empty. */
  function Split(s: string, c: char): (r: seq<string>)
    ensures |r| >= 1
    ensures forall i :: 0 <= i < |r| ==> c !in r[i]
    decreases |s|
  {
    var i := IndexOfChar(s, c);
    if i < 0 then [s] else [s[..i]] + Split(s[i + 1..], c)
  }

  /** JavaScript `parts.join(c)`. */
  function Join(parts: seq<string>, c: char): string
    requires |parts| >= 1
  {
    if |parts| == 1 then parts[0] else parts[0] + [c] + Join(parts[1..], c)
  }

  /** Joining the pieces of a split restores the string. */
  lemma {:induction false} JoinSplit(s: string, c: char)
    ensures Join(Split(s, c), c) == s
    decreases |s|
  {
    var i := IndexOfChar(s, c);
    if i >= 0 {
      var rest := Split(s[i + 1..], c);
      assert Split(s, c) == [s[..i]] + rest;
      JoinSplit(s[i + 1..], c);
      assert Join([s[..i]] + rest, c) == s[..i] + [c] + Join(rest, c) by {
        assert ([s[..i]] + rest)[1..] == rest;
      }
      CutAt(s, i);
    }
  }

  /** Splitting a join of separator-free pieces gives the pieces back. */
  lemma {:induction false} SplitJoin(parts: seq<string>, c: char)
    requires |parts| >= 1
    requires forall i :: 0 <= i < |parts| ==> c !in parts[i]
    ensures Split(Join(parts, c), c) == parts
    decreases |parts|
  {
    if |parts| > 1 {
      var s := Join(parts, c);
      assert s == parts[0] + [c] + Join(parts[1..], c);
      assert s[..|parts[0]|] == parts[0];
      assert s[|parts[0]|] == c;
      assert IndexOfChar(s, c) == |parts[0]| by {
        assert c !in s[..|parts[0]|];
      }
      assert s[|parts[0]| + 1..] == Join(parts[1..], c);
      SplitJoin(parts[1..], c);
    }
  }

  /** Joining the first `k` pieces of a split gives a prefix of the string. */
  lemma {:induction false} JoinSplitPrefix(s: string, c: char, k: nat)
    requires 1 <= k <= |Split(s, c)|
    ensures StartsWith(s, Join(Split(s, c)[..k], c))
    decreases |s|
  {
    var i := IndexOfChar(s, c);
    var ps := Split(s, c);
    if i < 0 {
      assert ps[..k] == [s];
    } else if k == 1 {
      SplitAt(s, c, i);
      assert ps[..k] == [s[..i]];
    } else {
      var rest := s[i + 1..];
      JoinSplitPrefix(rest, c, k - 1);
      SplitPrefixCons(s, c, k, i);
      PrefixAfterCut(s, i, Join(Split(rest, c)[..k - 1], c));
    }
  }


  /** The number of occurrences of `c` in `s`. */
  function Count(s: string, c: char): nat {
    if s == [] then 0 else (if s[0] == c then 1 else 0) + Count(s[1..], c)
  }

  /** Occurrences in a concatenation add up. */
  lemma {:induction false} CountAppend(a: string, b: string, c: char)
    ensures Count(a + b, c) == Count(a, c) + Count(b, c)
  {
    if a == [] {
      assert a + b == b;
    } else {
      assert (a + b)[1..] == a[1..] + b;
      CountAppend(a[1..], b, c);
    }
  }

  /** A text without `c` has no occurrence of it. */
  lemma {:induction false} CountAbsent(s: string, c: char)
    requires c !in s
    ensures Count(s, c) == 0
  {
    if s != [] {
      assert s[0] in s;
      assert forall x :: x in s[1..] ==> x in s;
      CountAbsent(s[1..], c);
    }
  }

  /** A split that finds `c` at `i`: the part before `i`, then the split of the rest. */
  lemma SplitAt(s: string, c: char, i: int)
    requires 0 <= i && i == IndexOfChar(s, c)
    ensures Split(s, c) == [s[..i]] + Split(s[i + 1..], c)
  {
    var r := if i < 0 then [s] else [s[..i]] + Split(s[i + 1..], c);
    assert Split(s, c) == r;
  }

  /** The first `k > 1` parts of a split that finds `c` at `i`: the part before `i`, then the first `k - 1` parts after it. */
  lemma SplitPrefixCons(s: string, c: char, k: nat, i: nat)
    requires i == IndexOfChar(s, c) && 2 <= k <= |Split(s, c)|
    ensures Join(Split(s, c)[..k], c) == s[..i] + [c] + Join(Split(s[i + 1..], c)[..k - 1], c)
  {
    var ps := Split(s, c);
    var rs := Split(s[i + 1..], c);
    SplitAt(s, c, i);
    assert ps[..k] == [s[..i]] + rs[..k - 1];
    assert ps[..k][1..] == rs[..k - 1];
  }

  /** A separator put between a text without it and a tail adds one to the tail's count. */
  lemma CountAfterCut(a: string, tail: string, c: char)
    requires c !in a
    ensures Count(a + [c] + tail, c) == Count(tail, c) + 1
  {
    CountAbsent(a, c);
    CountAppend(a, [c], c);
    CountAppend(a + [c], tail, c);
  }

  /** Joining the first `k` parts of a split gives a text with `k - 1` separators. */
  lemma {:induction false} SplitPrefixCount(s: string, c: char, k: nat)
    requires 1 <= k <= |Split(s, c)|
    ensures Count(Join(Split(s, c)[..k], c), c) == k - 1
    decreases |s|
  {
    var i := IndexOfChar(s, c);
    var ps := Split(s, c);
    if i < 0 {
      assert ps[..k] == [s];
      CountAbsent(s, c);
    } else if k == 1 {
      SplitAt(s, c, i);
      assert ps[..k] == [s[..i]];
      CountAbsent(s[..i], c);
    } else {
      SplitPrefixCount(s[i + 1..], c, k - 1);
      SplitPrefixCons(s, c, k, i);
      CountAfterCut(s[..i], Join(Split(s[i + 1..], c)[..k - 1], c), c);
    }
  }

  /** A character found right after `tail` in the part after `i` sits right after `s[..i] + [c] + tail` in `s`. */
  lemma CharAfterCut(s: string, i: nat, tail: string, c: char)
    requires i < |s| && |tail| < |s[i + 1..]| && s[i + 1..][|tail|] == c
    ensures |s[..i] + [c] + tail| < |s| && s[|s[..i] + [c] + tail|] == c
  {
  }

  /** When parts remain after the first `k`, the character right after their join is the separator. */
  lemma {:induction false} SplitPrefixNext(s: string, c: char, k: nat)
    requires 1 <= k < |Split(s, c)|
    ensures var p := Join(Split(s, c)[..k], c); |p| < |s| && s[|p|] == c
    decreases |s|
  {
    var i := IndexOfChar(s, c);
    var ps := Split(s, c);
    assert i >= 0;
    var rest := s[i + 1..];
    SplitAt(s, c, i);
    if k == 1 {
      assert ps[..k] == [s[..i]];
    } else {
      SplitPrefixNext(rest, c, k - 1);
      SplitPrefixCons(s, c, k, i);
      CharAfterCut(s, i, Join(Split(rest, c)[..k - 1], c), c);
    }
  }

  /** A split has one more part than the text has separators. */
  lemma SplitCount(s: string, c: char)
    ensures |Split(s, c)| == Count(s, c) + 1
  {
    var ps := Split(s, c);
    SplitPrefixCount(s, c, |ps|);
    assert ps[..|ps|] == ps;
    JoinSplit(s, c);
  }

  /** A prefix of the part after position `i` extends the part up to `i` to a prefix of `s`. */
  lemma PrefixAfterCut(s: string, i: int, tail: string)
    requires 0 <= i < |s|
    requires StartsWith(s[i + 1..], tail)
    ensures StartsWith(s, s[..i] + [s[i]] + tail)
  {
    assert s[..i + 1 + |tail|] == s[..i] + [s[i]] + s[i + 1..][..|tail|];
  }

  predicate IsDigit(c: char) {
    '0' <= c <= '9'
  }

  function DigitValue(c: char): nat
    requires IsDigit(c)
  {
    c as int - '0' as int
  }

  /** `s.replace(/\D/g, "")`: the ASCII digits of `s`, in order. */
  function DigitsOf(s: string): (r: string)
    ensures |r| <= |s|
    ensures forall i :: 0 <= i < |r| ==> IsDigit(r[i])
  {
    if s == [] then []
    else if IsDigit(s[0]) then [s[0]] + DigitsOf(s[1..])
    else DigitsOf(s[1..])
  }

  /** The decimal value of a digit string (most significant digit first). */
  function DecimalValue(ds: string): nat
    requires forall i :: 0 <= i < |ds| ==> IsDigit(ds[i])
  {
    if ds == [] then 0
    else 10 * DecimalValue(ds[..|ds| - 1]) + DigitValue(ds[|ds| - 1])
  }

  /**
   * `parseInt(s.replace(/\D/g, "")) || 0`: the number formed by the digits of
   * `s`, and 0 when it has none (`parseInt("")` is NaN, which `|| 0` maps to 0).
   */
  function KeyNumber(s: string): nat {
    DecimalValue(DigitsOf(s))
  }

  /** The decimal digits of `n`, as `String(n)` and Python's `str(n)` write it. */
  function NatToString(n: nat): (r: string)
    ensures |r| >= 1
    ensures forall i :: 0 <= i < |r| ==> IsDigit(r[i])
  {
    if n < 10 then [('0' as int + n) as char]
    else NatToString(n / 10) + [('0' as int + n % 10) as char]
  }

  /** Reading back the decimal digits of `n` gives `n`. */
  lemma {:induction false} NatToStringRoundTrip(n: nat)
    ensures DecimalValue(NatToString(n)) == n
  {
    if n >= 10 {
      NatToStringRoundTrip(n / 10);
      var r := NatToString(n);
      assert r[..|r| - 1] == NatToString(n / 10);
    }
  }

  /** A string of digits carries its own digits through `DigitsOf`. */
  lemma {:induction false} DigitsOfDigits(s: string)
    requires forall i :: 0 <= i < |s| ==> IsDigit(s[i])
    ensures DigitsOf(s) == s
  {
    if s != [] {
      DigitsOfDigits(s[1..]);
    }
  }

  /** The digits of a concatenation are the digits of each part. */
  lemma {:induction false} DigitsOfAppend(a: string, b: string)
    ensures DigitsOf(a + b) == DigitsOf(a) + DigitsOf(b)
  {
    if a == [] {
      assert a + b == b;
    } else {
      assert (a + b)[0] == a[0] && (a + b)[1..] == a[1..] + b;
      DigitsOfAppend(a[1..], b);
    }
  }

  /** A text without digits has none to keep. */
  lemma {:induction false} DigitsOfNone(s: string)
    requires forall i :: 0 <= i < |s| ==> !IsDigit(s[i])
    ensures DigitsOf(s) == []
  {
    if s != [] {
      DigitsOfNone(s[1..]);
    }
  }

  /** A key without digits sorts and numbers as 0. */
  lemma KeyNumberWithoutDigits(s: string)
    requires forall i :: 0 <= i < |s| ==> !IsDigit(s[i])
    ensures KeyNumber(s) == 0
  {
    DigitsOfNone(s);
  }

  /** A key made of a digit-free prefix and the decimal text of `n`, as `day_12`, carries the number `n`. */
  lemma KeyNumberOfLabel(prefix: string, n: nat)
    requires forall i :: 0 <= i < |prefix| ==> !IsDigit(prefix[i])
    ensures KeyNumber(prefix + NatToString(n)) == n
  {
    DigitsOfAppend(prefix, NatToString(n));
    DigitsOfNone(prefix);
    DigitsOfDigits(NatToString(n));
    assert [] + NatToString(n) == NatToString(n);
    NatToStringRoundTrip(n);
  }
}

=== FILE: TravelAi.dfy ===
/**
 * The chat service's pure steps around the language model call: the message
 * chain sent to the model, the removal of a Markdown code fence around its
 * reply, and the fallback when the reply is not JSON.
 */
module TravelAi {
  import opened Wrappers
  import opened Json
  import opened Text
  import opened Seqs

  /** A message of the model's input. */
  datatype ChatMsg = System(content: J) | Human(content: J) | Ai(content: J)

  // ---------------------------------------------------------------------
  // Message chain

  /**
   * A past reply as context: a dict is rendered as text by `render`, anything
   * else is passed as it is. This service renders with `json.dumps`; the
   * agent renders with Python's `str`.
   */
  function AiContent(output: J, render: J -> string): (r: J)
    ensures output.JObj? ==> r == JStr(render(output))
    ensures !output.JObj? ==> r == output
  {
    if output.JObj? then JStr(render(output)) else output
  }

  /**
   * One stored exchange as a user message then an assistant message: the
   * `user_input` (default `''`) and the `ai_generated_output` (default
   * `''`). `None` when the exchange is not a dict, whose `.get` raises.
   */
  function ExchangeMessages(msg: J, dumps: J -> string): (r: Option<seq<ChatMsg>>)
    ensures r.Some? <==> msg.JObj?
    ensures r.Some? ==> r.value == [Human(PyGet(msg, "user_input", JStr(""))),
                                     Ai(AiContent(PyGet(msg, "ai_generated_output", JStr("")), dumps))]
  {
    if msg.JObj? then
      Some([Human(PyGet(msg, "user_input", JStr(""))),
            Ai(AiContent(PyGet(msg, "ai_generated_output", JStr("")), dumps))])
    else None
  }

  /** The exchanges of the history in order, two messages each. */
  function HistoryMessages(msgs: seq<J>, dumps: J -> string): (r: Option<seq<ChatMsg>>)
    ensures r.Some? <==> forall i :: 0 <= i < |msgs| ==> msgs[i].JObj?
    ensures r.Some? ==> |r.value| == 2 * |msgs|
    ensures r.Some? ==> forall i :: 0 <= i < |msgs| ==>
              r.value[2 * i..2 * i + 2] == ExchangeMessages(msgs[i], dumps).value
  {
    var f := (m: J) => ExchangeMessages(m, dumps);
    var r := FlatMapAll(msgs, f);
    assert r.Some? ==> forall i :: 0 <= i < |msgs| ==> f(msgs[i]).Some? && |f(msgs[i]).value| == 2;
    if r.Some? then FlatMapPairs(msgs, f); r else r
  }

  /**
   * What `for msg in history.get('messages', [])` visits: a missing key is
   * an empty history, and a dict or string is walked by its keys or
   * characters. `None` when the history is not a dict or its messages are
   * not iterable.
   */
  function PastMessages(history: J): (r: Option<seq<J>>)
    ensures r.Some? <==> history.JObj? && (Lookup(history, "messages").None? || Iterate(Lookup(history, "messages").value).Some?)
    ensures r.Some? && Lookup(history, "messages").None? ==> r.value == []
    ensures r.Some? && Lookup(history, "messages").Some? ==> r == Iterate(Lookup(history, "messages").value)
    ensures r.Some? && Lookup(history, "messages").Some? && Lookup(history, "messages").value.JArr? ==>
              r.value == Lookup(history, "messages").value.items
  {
    if !history.JObj? then None
    else Iterate(PyGet(history, "messages", JArr([])))
  }

  /**
   * The chain sent to the model: the system prompt, the history's exchanges
   * in order, then the new user input.
   */
  function BuildChain(systemPrompt: string, history: J, userInput: string, dumps: J -> string): (r: Option<seq<ChatMsg>>)
    ensures r.Some? <==> PastMessages(history).Some? && HistoryMessages(PastMessages(history).value, dumps).Some?
    ensures r.Some? ==> |r.value| == 2 * |PastMessages(history).value| + 2
    ensures r.Some? ==> r.value[0] == System(JStr(systemPrompt)) && r.value[|r.value| - 1] == Human(JStr(userInput))
    ensures r.Some? ==> r.value[1..|r.value| - 1] == HistoryMessages(PastMessages(history).value, dumps).value
  {
    match PastMessages(history)
    case None => None
    case Some(msgs) =>
      match HistoryMessages(msgs, dumps)
      case None => None
      case Some(hist) =>
        var r := [System(JStr(systemPrompt))] + hist + [Human(JStr(userInput))];
        assert r[1..|r| - 1] == hist;
        Some(r)
  }

  /** A history without a `messages` key gives the system prompt and the new input only. */
  lemma NoMessagesKeyMeansEmptyHistory(systemPrompt: string, userInput: string, dumps: J -> string)
    ensures BuildChain(systemPrompt, JObj([]), userInput, dumps) == Some([System(JStr(systemPrompt)), Human(JStr(userInput))])
  {
    assert Lookup(JObj([]), "messages") == None;
    assert PastMessages(JObj([])) == Some([]);
    assert HistoryMessages([], dumps) == Some([]);
    assert [System(JStr(systemPrompt))] + [] + [Human(JStr(userInput))] == [System(JStr(systemPrompt)), Human(JStr(userInput))];
  }

  /**
   * Empty messages of any iterable kind add nothing to the chain; a
   * non-empty dict or string of messages fails, because its keys or
   * characters are strings, which have no `.get`.
   */
  lemma MessagesIterated(systemPrompt: string, messages: J, userInput: string, dumps: J -> string)
    requires messages.JArr? || messages.JObj? || messages.JStr?
    ensures messages in {JArr([]), JObj([]), JStr("")} ==>
              BuildChain(systemPrompt, Single("messages", messages), userInput, dumps)
              == Some([System(JStr(systemPrompt)), Human(JStr(userInput))])
    ensures (messages.JObj? && messages.fields != []) || (messages.JStr? && messages.s != []) ==>
              BuildChain(systemPrompt, Single("messages", messages), userInput, dumps).None?
  {
    var h := Single("messages", messages);
    assert Lookup(h, "messages") == Some(messages);
    var msgs := Iterate(messages).value;
    assert PastMessages(h) == Some(msgs);
    if messages in {JArr([]), JObj([]), JStr("")} {
      assert msgs == [];
      assert HistoryMessages([], dumps) == Some([]);
      assert [System(JStr(systemPrompt))] + [] + [Human(JStr(userInput))] == [System(JStr(systemPrompt)), Human(JStr(userInput))];
    }
    if (messages.JObj? && messages.fields != []) || (messages.JStr? && messages.s != []) {
      assert msgs[0].JStr?;
    }
  }

  // ---------------------------------------------------------------------
  // Reply cleaning

  /** Python `s[a:-b]` for `a >= 0`, `b >= 1`: empty when the start is past the end. */
  function PySlice(s: string, a: nat, b: nat): (r: string)
    ensures a + b <= |s| ==> r == s[a..|s| - b]
    ensures a + b > |s| ==> r == ""
  {
    if a + b <= |s| then s[a..|s| - b] else ""
  }

  /**
   * The reply text after stripping: a leading "```json" drops the first
   * seven and the last three characters, else a leading "```" drops the
   * first and last three; the remainder is stripped again. The closing
   * fence is assumed, not checked.
   */
  function CleanReply(content: string): (r: string)
    ensures SliceOf(r, content) && PyTrimmed(r)
  {
    var raw := PyStrip(content);
    StripTrimmed(content, 0, |content|);
    assert content[0..|content|] == content;
    var r := Unfence(raw);
    if StartsWith(raw, "```") then SliceOfSlice(r, raw, content); r
    else r
  }

  /** `r` is a contiguous piece of `s`. */
  ghost predicate SliceOf(r: string, s: string) {
    exists i, j :: 0 <= i <= j <= |s| && r == s[i..j]
  }

  /** No Python whitespace at either end. */
  predicate PyTrimmed(r: string) {
    r == [] || (!IsPySpace(r[0]) && !IsPySpace(r[|r| - 1]))
  }

  /** Stripping a piece of `s` leaves a trimmed piece of `s`. */
  lemma StripTrimmed(s: string, a: nat, b: nat)
    requires a <= b <= |s|
    ensures SliceOf(PyStrip(s[a..b]), s) && PyTrimmed(PyStrip(s[a..b]))
  {
    var t := s[a..b];
    var i, j := StripBounds(t, IsPySpace);
    assert PyStrip(t) == t[i..j];
    assert SliceOf(t, s);
    SliceOfSlice(PyStrip(t), t, s);
    StripIsInnerSlice(t, IsPySpace);
  }

  /** Dropping `a` characters in front and `b` behind and stripping leaves a shorter trimmed piece. */
  lemma CutPiece(raw: string, a: nat, b: nat)
    requires a + b > 0
    ensures var r := PyStrip(PySlice(raw, a, b));
            SliceOf(r, raw) && PyTrimmed(r) && (|raw| > 0 ==> |r| < |raw|)
  {
    if a + b <= |raw| {
      StripTrimmed(raw, a, |raw| - b);
      var i, j := StripBounds(raw[a..|raw| - b], IsPySpace);
    } else {
      assert PySlice(raw, a, b) == "";
      var i, j := StripBounds("", IsPySpace);
      assert raw[0..0] == "";
    }
  }

  /** A piece of a piece of `s` is a piece of `s`. */
  lemma SliceOfSlice(r: string, m: string, s: string)
    requires SliceOf(r, m) && SliceOf(m, s)
    ensures SliceOf(r, s)
  {
    var i, j :| 0 <= i <= j <= |m| && r == m[i..j];
    var a, b :| 0 <= a <= b <= |s| && m == s[a..b];
    assert |r| == j - i;
    forall k | 0 <= k < j - i ensures r[k] == s[a + i + k] {
      assert r[k] == m[i + k] && m[i + k] == s[a + i + k];
    }
    assert r == s[a + i..a + j];
  }

  /**
   * The fence handling of `CleanReply` on the already stripped text: an
   * unfenced text is kept, and a fenced one loses its fence and is
   * stripped again, leaving a shorter trimmed piece of it.
   */
  function Unfence(raw: string): (r: string)
    ensures !StartsWith(raw, "```") ==> r == raw
    ensures StartsWith(raw, "```") ==> SliceOf(r, raw) && PyTrimmed(r) && |r| < |raw|
  {
    if StartsWith(raw, "```json") then
      StartsWithPrefix(raw, "```", "json");
      CutPiece(raw, 7, 3);
      PyStrip(PySlice(raw, 7, 3))
    else if StartsWith(raw, "```") then CutPiece(raw, 3, 3); PyStrip(PySlice(raw, 3, 3))
    else raw
  }

  /** A text that starts and ends with a backtick is left as it is by stripping. */
  lemma StripFenced(s: string)
    requires |s| >= 1 && s[0] == '`' && s[|s| - 1] == '`'
    ensures PyStrip(s) == s
  {
    assert !IsPySpace('`');
    assert DropLeading(s, IsPySpace) == s;
  }

  /** A fenced reply is cleaned by its fence handling alone. */
  lemma CleanFenced(s: string)
    requires |s| >= 1 && s[0] == '`' && s[|s| - 1] == '`'
    ensures CleanReply(s) == Unfence(s)
  {
    StripFenced(s);
  }

  /** A text opening with "```json" loses seven characters in front and three behind. */
  lemma UnfenceJson(s: string)
    requires |s| >= 7 && s[..7] == "```json"
    ensures Unfence(s) == PyStrip(PySlice(s, 7, 3))
  {
    assert StartsWith(s, "```json");
  }

  /** A text opening with "```" but not "```json" loses three characters at each end. */
  lemma UnfencePlain(s: string)
    requires |s| >= 3 && s[..3] == "```" && !StartsWith(s, "```json")
    ensures Unfence(s) == PyStrip(PySlice(s, 3, 3))
  {
    assert StartsWith(s, "```");
  }

  /** A reply fenced as "```json ... ```" comes back as its stripped body. */
  lemma JsonFenceRoundTrip(body: string)
    ensures CleanReply("```json" + body + "```") == PyStrip(body)
  {
    var s := "```json" + body + "```";
    CleanFenced(s);
    assert s[..7] == "```json";
    UnfenceJson(s);
    assert PySlice(s, 7, 3) == body;
  }

  /** A plain fence opens with "```json" only when its body opens with "json". */
  lemma PlainFenceNotJson(body: string)
    requires !StartsWith(body, "json")
    ensures !StartsWith("```" + body + "```", "```json")
  {
    var s := "```" + body + "```";
    if |body| >= 4 {
      assert s[3..7] == body[..4];
    } else {
      assert s[3 + |body|] == '`' != "json"[|body|];
    }
  }

  /** A reply fenced as "``` ... ```" whose body does not start with "json" comes back as its stripped body. */
  lemma PlainFenceRoundTrip(body: string)
    requires !StartsWith(body, "json")
    ensures CleanReply("```" + body + "```") == PyStrip(body)
  {
    var s := "```" + body + "```";
    CleanFenced(s);
    PlainFenceNotJson(body);
    assert s[..3] == "```";
    UnfencePlain(s);
    assert PySlice(s, 3, 3) == body;
  }

  /** A reply that does not open with a fence is only stripped. */
  lemma UnfencedReplyIsStripped(content: string)
    requires !StartsWith(PyStrip(content), "```")
    ensures CleanReply(content) == PyStrip(content)
  {
    var x := PyStrip(content);
    if StartsWith(x, "```json") {
      StartsWithPrefix(x, "```", "json");
    }
  }

  /**
   * The cleaned reply parsed as JSON, or a plain-text reply carrying the
   * cleaned text with no form and no itinerary.
   */
  function ParseReply(cleaned: string, loads: string -> Option<J>): (r: J)
    ensures loads(cleaned).Some? ==> r == loads(cleaned).value
    ensures loads(cleaned).None? ==>
              && Get(r, "text") == JStr(cleaned)
              && Lookup(r, "ui_elements") == Some(JNull)
              && Lookup(r, "itinerary") == Some(JNull)
  {
    match loads(cleaned)
    case Some(v) => v
    case None =>
      var fs := [("text", JStr(cleaned)), ("ui_elements", JNull), ("itinerary", JNull)];
      FieldsOfUnique(fs);
      assert fs[0].0 == "text" && fs[1].0 == "ui_elements" && fs[2].0 == "itinerary";
      JObj(fs)
  }

  /** The service's answer for a model reply: the reply cleaned of its fence, then parsed or wrapped. */
  function Answer(content: string, loads: string -> Option<J>): (r: J)
    ensures loads(CleanReply(content)).Some? ==> r == loads(CleanReply(content)).value
    ensures loads(CleanReply(content)).None? ==>
              && Get(r, "text") == JStr(CleanReply(content))
              && Lookup(r, "ui_elements") == Some(JNull)
              && Lookup(r, "itinerary") == Some(JNull)
  {
    ParseReply(CleanReply(content), loads)
  }
}

=== FILE: TripPlanner.dfy ===
/**
 * The trip planner view shown after a confirmation: the lists read from the
 * route data, the map markers, the route polyline's path, the place list's
 * order, and the letter labels and colours of legs, places and markers.
 */
module TripPlanner {
  import opened Wrappers
  import opened Json
  import opened Seqs
  import opened Sorting
  import ChatStore

  /**
   * `routeData?.key || []`: a missing or falsy list reads as empty. For the
   * lists the view maps or filters unguarded (`legs` at line 95, and the
   * lists read at lines 176-178 and 303-305), a truthy value that is not an
   * array has no `filter` or `map`, so the first call on it throws; that is
   * None. `transport_options` is guarded by `length > 0` instead, so there an
   * object, number or `true` renders nothing (a non-empty string still throws
   * at `map`); the model only reads it on the fallback route, where it is `[]`.
   */
  function ListOf(routeData: J, key: string): (r: Option<seq<J>>)
    ensures r.None? <==> JsTruthy(Get(routeData, key)) && !Get(routeData, key).JArr?
    ensures Get(routeData, key).JArr? ==> r == Some(Get(routeData, key).items)
    ensures !JsTruthy(Get(routeData, key)) ==> r == Some([])
  {
    match JsOr(Get(routeData, key), JArr([]))
    case JArr(xs) => Some(xs)
    case _ => None
  }

  // ---------------------------------------------------------------------
  // Labels and colours

  /**
   * `getMarkerLabel(i)` as a UTF-16 code unit: `String.fromCharCode(65 + i)`
   * reduces its argument modulo 2^16, so -1 gives 64 ('@').
   */
  function MarkerLabelCode(i: int): (r: nat)
    ensures r < 0x1_0000
    ensures 0 <= i < 26 ==> r == 'A' as nat + i
    ensures i == -1 ==> r == '@' as nat
  {
    (65 + i) % 0x1_0000
  }

  /** JavaScript's quotient for `b > 0`, rounded toward zero. */
  function JsQuot(a: int, b: int): int
    requires b > 0
  {
    if a >= 0 then a / b else -((-a) / b)
  }

  /**
   * JavaScript `a % b` for `b > 0`: the remainder of the quotient rounded
   * toward zero, so it takes the sign of `a`.
   */
  function JsRem(a: int, b: int): (r: int)
    requires b > 0
    ensures a >= 0 ==> 0 <= r < b && r == a % b
    ensures a < 0 ==> -b < r <= 0
    ensures a == b * JsQuot(a, b) + r
  {
    if a >= 0 then a % b
    else
      assert b * -((-a) / b) == -(b * ((-a) / b));
      -((-a) % b)
  }

  const RouteColors := ["#6366f1", "#ec4899", "#f59e0b", "#10b981", "#8b5cf6", "#ef4444", "#06b6d4"]

  /** `routeColors[i % routeColors.length]`, which is `undefined` for a negative index. */
  function RouteColour(i: int): (r: Option<string>)
    ensures i >= 0 ==> r == Some(RouteColors[i % 7])
    ensures i < 0 && i % 7 != 0 ==> r == None
    ensures i < 0 && i % 7 == 0 ==> r == Some(RouteColors[0])
  {
    var k := JsRem(i, |RouteColors|);
    if 0 <= k then Some(RouteColors[k]) else None
  }

  /** Leg colours cycle through the seven route colours. */
  lemma LegColoursCycle(i: nat)
    ensures RouteColour(i).Some? && RouteColour(i + 7) == RouteColour(i)
  {
  }

  /** A place tile's colour: its route colour, or the first colour when it has none. */
  function PlaceColour(routeIdx: int): (r: string)
    ensures routeIdx >= 0 ==> r == RouteColors[routeIdx % 7]
    ensures routeIdx < 0 ==> r == "#6366f1"
  {
    RouteColour(routeIdx).GetOr(RouteColors[0])
  }

  /** The badge of a place tile or map marker. */
  datatype Label = Letter(code: nat) | Question | HotelMark

  // ---------------------------------------------------------------------
  // Which route entry a name is

  /**
   * Where the route data came from, which decides what `===` finds. A
   * `Served` route is parsed JSON, so none of its arrays or objects is
   * another's very object. The `Fallback` route is built in the browser
   * from the confirmed day groups: place stub i's `name` is route entry i
   * itself, and the entries are distinct arrays.
   */
  datatype Origin = Served | Fallback

  /** A value `===` compares by content: anything but an array or an object. */
  predicate IsPrimitive(v: J) {
    !v.JArr? && !v.JObj?
  }

  /** `a === b` for two distinct nodes of parsed JSON: equal primitives. */
  predicate StrictEq(a: J, b: J) {
    IsPrimitive(a) && a == b
  }

  /**
   * `orderedRoute.indexOf(name)` for a name that is not itself a route
   * entry, as is every name read from a served route: only a primitive can
   * be found.
   */
  function ServedIndex(route: seq<J>, name: J): (r: int)
    ensures -1 <= r < |route|
    ensures r == -1 <==> forall j :: 0 <= j < |route| ==> !StrictEq(name, route[j])
    ensures r >= 0 ==> StrictEq(name, route[r]) && forall j :: 0 <= j < r ==> !StrictEq(name, route[j])
    ensures IsPrimitive(name) ==> r == IndexOf(route, name)
  {
    if IsPrimitive(name) then
      var k := IndexOf(route, name);
      assert k >= 0 ==> forall j :: 0 <= j < k ==> route[..k][j] == route[j];
      k
    else -1
  }

  /** `place.name === route[j]`, where the place is `places[i]`. */
  predicate SameEntry(route: seq<J>, places: seq<J>, origin: Origin, i: nat, j: nat) {
    i < |places| && j < |route|
    && (StrictEq(Get(places[i], "name"), route[j])
        || (origin.Fallback? && j == i && route[j] == Get(places[i], "name")))
  }

  /** `orderedRoute.indexOf(places[i].name)`: the first route entry that is the place's name, or -1. */
  function RouteIndex(route: seq<J>, places: seq<J>, origin: Origin, i: nat): (r: int)
    ensures -1 <= r < |route|
    ensures r == -1 <==> forall j :: 0 <= j < |route| ==> !SameEntry(route, places, origin, i, j)
    ensures r >= 0 ==> SameEntry(route, places, origin, i, r)
                       && forall j :: 0 <= j < r ==> !SameEntry(route, places, origin, i, j)
  {
    if i >= |places| then -1
    else
      var name := Get(places[i], "name");
      if IsPrimitive(name) || origin.Served? then
        assert forall j :: 0 <= j < |route| ==> (SameEntry(route, places, origin, i, j) <==> StrictEq(name, route[j]));
        ServedIndex(route, name)
      else
        assert forall j :: 0 <= j < |route| ==> (SameEntry(route, places, origin, i, j) <==> j == i && route[j] == name);
        if i < |route| && route[i] == name then i else -1
  }

  /** On a served route a place is found by content when its name is a primitive, and never otherwise. */
  lemma ServedRouteIndex(route: seq<J>, places: seq<J>, i: nat)
    requires i < |places|
    ensures IsPrimitive(Get(places[i], "name")) ==> RouteIndex(route, places, Served, i) == IndexOf(route, Get(places[i], "name"))
    ensures !IsPrimitive(Get(places[i], "name")) ==> RouteIndex(route, places, Served, i) == -1
  {
    var name := Get(places[i], "name");
    if !IsPrimitive(name) {
      assert forall j :: 0 <= j < |route| ==> !SameEntry(route, places, Served, i, j);
    }
  }

  // ---------------------------------------------------------------------
  // Labels and colours of places and markers

  /** A place's tile badge: the letter of its route index, or "?" when its name is no route entry. */
  function PlaceLabel(route: seq<J>, places: seq<J>, origin: Origin, i: nat): (r: Label)
    ensures r.Letter? <==> exists j :: 0 <= j < |route| && SameEntry(route, places, origin, i, j)
    ensures r.Letter? ==> r.code == MarkerLabelCode(RouteIndex(route, places, origin, i))
    ensures !r.Letter? ==> r == Question
  {
    var idx := RouteIndex(route, places, origin, i);
    if idx >= 0 then Letter(MarkerLabelCode(idx)) else Question
  }

  /** A map marker's badge: "H" for a hotel, else the letter of its name's route position. */
  function MarkerBadge(route: seq<J>, m: Marker): (r: Label)
    ensures m.isHotel <==> r.HotelMark?
    ensures !m.isHotel ==> r == Letter(MarkerLabelCode(ServedIndex(route, m.name)))
    ensures !m.isHotel && !IsPrimitive(m.name) ==> r == Letter('@' as nat)
    ensures !m.isHotel && IsPrimitive(m.name) && m.name in route && |route| <= 26 ==>
              r.Letter? && 'A' as nat <= r.code <= 'Z' as nat && route[r.code - 'A' as nat] == m.name
  {
    if m.isHotel then HotelMark else Letter(MarkerLabelCode(ServedIndex(route, m.name)))
  }

  /** A map marker's fill: amber for a hotel, else the route colour of its name (none when off the route). */
  function MarkerColour(route: seq<J>, m: Marker): (r: Option<string>)
    ensures m.isHotel ==> r == Some("#f59e0b")
    ensures !m.isHotel && IsPrimitive(m.name) && m.name in route ==> r == Some(RouteColors[IndexOf(route, m.name) % 7])
    ensures !m.isHotel && (!IsPrimitive(m.name) || m.name !in route) ==> r == None
  {
    if m.isHotel then Some("#f59e0b") else RouteColour(ServedIndex(route, m.name))
  }

  // ---------------------------------------------------------------------
  // Markers and the route path

  datatype Marker = Marker(lat: J, lng: J, name: J, isHotel: bool)

  /** An entry is mapped only when both coordinates are truthy: a zero coordinate hides it. */
  predicate HasCoordinates(v: J) {
    JsTruthy(Get(v, "lat")) && JsTruthy(Get(v, "lng"))
  }

  /**
   * The markers of the entries that have coordinates, in order. Reading
   * `lat` of a null entry throws, which is None; any other entry without an
   * object's fields reads as `undefined` and is skipped.
   */
  function MarkersOf(entries: seq<J>, isHotel: bool): (r: Option<seq<Marker>>)
    ensures r.None? <==> JNull in entries
    ensures r.Some? ==> |r.value| == |Filter(entries, HasCoordinates)|
    ensures r.Some? ==> forall i :: 0 <= i < |r.value| ==>
              var e := Filter(entries, HasCoordinates)[i];
              r.value[i] == Marker(Get(e, "lat"), Get(e, "lng"), Get(e, "name"), isHotel)
    ensures r.Some? ==> forall i :: 0 <= i < |r.value| ==> r.value[i].isHotel == isHotel && JsTruthy(r.value[i].lat) && JsTruthy(r.value[i].lng)
    ensures r.Some? ==> forall i :: 0 <= i < |r.value| ==> exists e :: e in entries && HasCoordinates(e) && r.value[i].name == Get(e, "name")
  {
    if JNull in entries then None
    else
      var mapped := Filter(entries, HasCoordinates);
      var ms := seq(|mapped|, i requires 0 <= i < |mapped| => Marker(Get(mapped[i], "lat"), Get(mapped[i], "lng"), Get(mapped[i], "name"), isHotel));
      assert forall i :: 0 <= i < |ms| ==> ms[i].name == Get(mapped[i], "name") && mapped[i] in entries && HasCoordinates(mapped[i]);
      Some(ms)
  }

  /** `allMarkers`: the mapped hotels first, then the mapped places; a null entry in either list throws. */
  function AllMarkers(hotels: seq<J>, places: seq<J>): (r: Option<seq<Marker>>)
    ensures r.None? <==> JNull in hotels || JNull in places
    ensures r.Some? ==> |r.value| == |Filter(hotels, HasCoordinates)| + |Filter(places, HasCoordinates)|
    ensures r.Some? ==> forall i :: 0 <= i < |r.value| ==> (r.value[i].isHotel <==> i < |Filter(hotels, HasCoordinates)|)
  {
    match (MarkersOf(hotels, true), MarkersOf(places, false))
    case (Some(hs), Some(ps)) => Some(hs + ps)
    case _ => None
  }

  /**
   * An entry with a falsy coordinate (0, missing) adds no marker wherever
   * it stands in the list, and the other markers are unchanged; a null
   * entry makes the whole list throw.
   */
  lemma UnmappedEntryHidden(a: seq<J>, e: J, b: seq<J>, hotels: seq<J>, isHotel: bool)
    requires !HasCoordinates(e)
    ensures e != JNull ==> MarkersOf(a + [e] + b, isHotel) == MarkersOf(a + b, isHotel)
    ensures e != JNull ==> AllMarkers(hotels, a + [e] + b) == AllMarkers(hotels, a + b)
    ensures e == JNull ==> MarkersOf(a + [e] + b, isHotel) == None && AllMarkers(hotels, a + [e] + b) == None
  {
    assert e in a + [e] + b;
    if e != JNull {
      assert JNull in a + [e] + b <==> JNull in a + b;
      FilterSkip(a, e, b, HasCoordinates);
    }
  }

  /** A place at latitude 0 gets no marker. */
  lemma ZeroCoordinateHidden(name: J, lng: J)
    ensures AllMarkers([], [JObj([("name", name), ("lat", JNum(0.0)), ("lng", lng)])]) == Some([])
  {
    var fs := [("name", name), ("lat", JNum(0.0)), ("lng", lng)];
    FieldOfAt(fs, 1);
    var p := JObj(fs);
    assert Get(p, "lat") == JNum(0.0);
    assert [p][1..] == [];
    assert Filter([p], HasCoordinates) == [];
  }

  /** The position of the first marker whose name is `name` under `===`. */
  function PointFor(name: J, markers: seq<Marker>): (r: Option<(J, J)>)
    ensures r.None? <==> forall i :: 0 <= i < |markers| ==> !StrictEq(markers[i].name, name)
    ensures r.Some? ==> exists i :: 0 <= i < |markers| && StrictEq(markers[i].name, name) && r.value == (markers[i].lat, markers[i].lng)
                          && forall j :: 0 <= j < i ==> !StrictEq(markers[j].name, name)
  {
    match Find(markers, (m: Marker) => StrictEq(m.name, name))
    case None => None
    case Some(m) => Some((m.lat, m.lng))
  }

  /** The test of `.filter(Boolean)` after the map: the name has a point. */
  function HasPoint(markers: seq<Marker>): J -> bool {
    (name: J) => PointFor(name, markers).Some?
  }

  /** When every route name has a marker, none is filtered out. */
  lemma AllNamesPlaced(route: seq<J>, markers: seq<Marker>)
    ensures (forall i :: 0 <= i < |route| ==> PointFor(route[i], markers).Some?) ==> Filter(route, HasPoint(markers)) == route
  {
    if forall i :: 0 <= i < |route| ==> PointFor(route[i], markers).Some? {
      FilterAllPass(route, HasPoint(markers));
    }
  }

  /** `routePath`: one point per route name that has a marker, in route order. */
  function RoutePath(route: seq<J>, markers: seq<Marker>): (r: seq<(J, J)>)
    ensures |r| == |Filter(route, HasPoint(markers))|
    ensures forall i :: 0 <= i < |r| ==> Some(r[i]) == PointFor(Filter(route, HasPoint(markers))[i], markers)
    ensures |r| <= |route|
    ensures (forall i :: 0 <= i < |route| ==> PointFor(route[i], markers).Some?) ==> |r| == |route|
  {
    var named := Filter(route, HasPoint(markers));
    AllNamesPlaced(route, markers);
    seq(|named|, i requires 0 <= i < |named| => PointFor(named[i], markers).value)
  }

  /** The polyline is drawn only through at least two points. */
  predicate ShowPolyline(path: seq<(J, J)>) {
    |path| > 1
  }

  /** With no markers there is no path and so no polyline. */
  lemma NoMarkersNoPolyline(route: seq<J>)
    ensures RoutePath(route, []) == [] && !ShowPolyline(RoutePath(route, []))
  {
    FilterNone(route, HasPoint([]));
  }

  // ---------------------------------------------------------------------
  // Place order

  /** Place i's sort key: its route index, or 999 when its name is no route entry. */
  function RouteKey(route: seq<J>, places: seq<J>, origin: Origin, i: nat): (r: int)
    ensures RouteIndex(route, places, origin, i) >= 0 ==> r == RouteIndex(route, places, origin, i) && 0 <= r < |route|
    ensures RouteIndex(route, places, origin, i) == -1 ==> r == 999
  {
    var idx := RouteIndex(route, places, origin, i);
    if idx == -1 then 999 else idx
  }

  /** The comparator's key, as a function of a place's position in `places`. */
  function KeyOf(route: seq<J>, places: seq<J>, origin: Origin): nat -> int {
    (i: nat) => RouteKey(route, places, origin, i)
  }

  /** The positions of the places in the order the list shows them. */
  function PlaceOrder(places: seq<J>, route: seq<J>, origin: Origin): (r: seq<nat>)
    ensures |r| == |places|
    ensures multiset(r) == multiset(Positions(|places|))
    ensures Below(r, |places|)
  {
    var key := KeyOf(route, places, origin);
    SortByFacts(Positions(|places|), key);
    var r := SortBy(Positions(|places|), key);
    PositionsBound(r, |places|);
    r
  }

  /** `sortedPlaces`: a copy of the places sorted by route key, stably. */
  function SortedPlaces(places: seq<J>, route: seq<J>, origin: Origin): (r: seq<J>)
    ensures |r| == |places|
    ensures multiset(r) == multiset(places)
    ensures forall k :: 0 <= k < |r| ==> r[k] == places[PlaceOrder(places, route, origin)[k]]
  {
    var order := PlaceOrder(places, route, origin);
    PositionsBound(Positions(|places|), |places|);
    PickMultiset(places, order, Positions(|places|));
    PickAll(places);
    Pick(places, order)
  }

  /**
   * The place list is a permutation of `places_detail` ordered by route
   * key; places with the same key keep their input order; and when the
   * route has at most 999 names, no unrouted place precedes a routed one.
   */
  lemma SortedPlacesOrder(places: seq<J>, route: seq<J>, origin: Origin)
    ensures var order := PlaceOrder(places, route, origin);
            && SortedBy(order, KeyOf(route, places, origin))
            && SameKeyOrder(order, Positions(|places|), KeyOf(route, places, origin))
    ensures |route| <= 999 ==>
              var order := PlaceOrder(places, route, origin);
              forall k, l :: 0 <= k < l < |order| && RouteIndex(route, places, origin, order[l]) >= 0 ==>
                RouteIndex(route, places, origin, order[k]) >= 0
  {
    var key := KeyOf(route, places, origin);
    SortByFacts(Positions(|places|), key);
    var order := PlaceOrder(places, route, origin);
    if |route| <= 999 {
      forall k, l | 0 <= k < l < |order| && RouteIndex(route, places, origin, order[l]) >= 0
        ensures RouteIndex(route, places, origin, order[k]) >= 0
      {
        assert key(order[k]) <= key(order[l]);
      }
    }
  }

  /** A tile of the place list: the place, its badge and its colour. */
  datatype Tile = Tile(place: J, badge: Label, colour: string)

  /** The place list as drawn: each tile is labelled and coloured by the route index of its own place. */
  function PlaceTiles(places: seq<J>, route: seq<J>, origin: Origin): (r: seq<Tile>)
    ensures |r| == |places|
    ensures forall k :: 0 <= k < |r| ==> r[k].place == SortedPlaces(places, route, origin)[k]
    ensures forall k :: 0 <= k < |r| ==>
              var i := PlaceOrder(places, route, origin)[k];
              r[k].badge == PlaceLabel(route, places, origin, i)
              && r[k].colour == PlaceColour(RouteIndex(route, places, origin, i))
  {
    var order := PlaceOrder(places, route, origin);
    var shown := SortedPlaces(places, route, origin);
    seq(|order|, k requires 0 <= k < |order| =>
      Tile(shown[k], PlaceLabel(route, places, origin, order[k]), PlaceColour(RouteIndex(route, places, origin, order[k]))))
  }

  /** A marker for a place whose name is no route entry is labelled '@' (code 64) and has no fill colour. */
  lemma UnroutedMarkerLabel(route: seq<J>, m: Marker)
    requires !m.isHotel && (m.name !in route || !IsPrimitive(m.name))
    ensures MarkerBadge(route, m) == Letter('@' as nat)
    ensures MarkerColour(route, m) == None
  {
  }

  // ---------------------------------------------------------------------
  // The view of a fallback route

  /** A name stub has no coordinates. */
  lemma StubsUnmapped(names: seq<J>)
    ensures forall i :: 0 <= i < |names| ==> !HasCoordinates(ChatStore.NameStubs(names)[i])
  {
    forall i | 0 <= i < |names|
      ensures !HasCoordinates(ChatStore.NameStubs(names)[i])
    {
      assert ChatStore.NameStubs(names)[i] == Single("name", names[i]);
      assert Get(Single("name", names[i]), "lat") == JNull;
    }
  }

  /** The lists the view reads from the fallback route. */
  lemma FallbackLists(names: seq<J>, hotelName: J)
    ensures var rd := ChatStore.FallbackRoute(names, hotelName);
            && ListOf(rd, "ordered_route") == Some(names)
            && ListOf(rd, "places_detail") == Some(ChatStore.NameStubs(names))
            && ListOf(rd, "hotels_detail") == Some(if JsTruthy(hotelName) then [Single("name", hotelName)] else [])
            && ListOf(rd, "legs") == Some([]) && ListOf(rd, "transport_options") == Some([])
  {
  }

  /** Each route entry is found at its own position: an array or object is itself, and a primitive occurs there first. */
  predicate OwnPositions(names: seq<J>) {
    forall i :: 0 <= i < |names| ==> !IsPrimitive(names[i]) || IndexOf(names, names[i]) == i
  }

  /** On the fallback route stub i is found at position i when its name is an array, else where its name first occurs. */
  lemma FallbackRouteIndex(names: seq<J>, i: nat)
    requires i < |names|
    ensures RouteIndex(names, ChatStore.NameStubs(names), Fallback, i)
            == if IsPrimitive(names[i]) then IndexOf(names, names[i]) else i
  {
    assert Get(Single("name", names[i]), "name") == names[i];
  }

  /** When every entry is found at its own position, the fallback stubs are already in route order and keep their letters A, B, C, ... */
  lemma StubsInRouteOrder(names: seq<J>)
    requires OwnPositions(names)
    ensures var stubs := ChatStore.NameStubs(names);
            && PlaceOrder(stubs, names, Fallback) == Positions(|names|)
            && SortedPlaces(stubs, names, Fallback) == stubs
    ensures var stubs := ChatStore.NameStubs(names);
            forall k :: 0 <= k < |names| ==>
              PlaceTiles(stubs, names, Fallback)[k] == Tile(stubs[k], Letter(MarkerLabelCode(k)), PlaceColour(k))
  {
    var stubs := ChatStore.NameStubs(names);
    var key := KeyOf(names, stubs, Fallback);
    forall i | 0 <= i < |names| ensures RouteIndex(names, stubs, Fallback, i) == i {
      FallbackRouteIndex(names, i);
    }
    assert SortedBy(Positions(|names|), key);
    SortBySorted(Positions(|names|), key);
    PickAll(stubs);
  }

  /** Distinct names are each found at their own position. */
  lemma DistinctOwnPositions(names: seq<J>)
    requires NoDuplicates(names)
    ensures OwnPositions(names)
  {
    forall i | 0 <= i < |names| ensures IndexOf(names, names[i]) == i {
      var k := IndexOf(names, names[i]);
      assert names[k] == names[i];
    }
  }

  /** Entries none of which has coordinates give no marker, unless one is null and the list throws. */
  lemma NoMarkers(hotels: seq<J>, places: seq<J>)
    requires forall i :: 0 <= i < |hotels| ==> !HasCoordinates(hotels[i])
    requires forall i :: 0 <= i < |places| ==> !HasCoordinates(places[i])
    ensures AllMarkers(hotels, places) == if JNull in hotels || JNull in places then None else Some([])
  {
    FilterNone(places, HasCoordinates);
    FilterNone(hotels, HasCoordinates);
  }

  /**
   * The place list of the route built when planning fails holds one stub
   * per confirmed name. The day groups the itinerary panel confirms are
   * distinct arrays, so each stub keeps its own position and the list is
   * exactly the stubs in the given order, even when two groups are equal.
   */
  lemma FallbackPlaceList(names: seq<J>, hotelName: J)
    ensures var rd := ChatStore.FallbackRoute(names, hotelName);
            ListOf(rd, "places_detail").Some? && ListOf(rd, "ordered_route").Some?
    ensures var rd := ChatStore.FallbackRoute(names, hotelName);
            var shown := SortedPlaces(ListOf(rd, "places_detail").value, ListOf(rd, "ordered_route").value, Fallback);
            && multiset(shown) == multiset(ChatStore.NameStubs(names))
            && (OwnPositions(names) ==> shown == ChatStore.NameStubs(names))
            && ((forall i :: 0 <= i < |names| ==> names[i].JArr?) ==> shown == ChatStore.NameStubs(names))
            && (NoDuplicates(names) ==> shown == ChatStore.NameStubs(names))
  {
    FallbackLists(names, hotelName);
    if OwnPositions(names) {
      StubsInRouteOrder(names);
    }
    if NoDuplicates(names) {
      DistinctOwnPositions(names);
      StubsInRouteOrder(names);
    }
    if forall i :: 0 <= i < |names| ==> names[i].JArr? {
      StubsInRouteOrder(names);
    }
  }

  /** Two days with the same single place keep their own tiles, lettered A, B, C in day order. */
  lemma RepeatedGroupKeepsItsLetter()
    ensures var names := [JArr([JStr("Marina Beach")]), JArr([JStr("Fort")]), JArr([JStr("Marina Beach")])];
            var stubs := ChatStore.NameStubs(names);
            && SortedPlaces(stubs, names, Fallback) == stubs
            && PlaceTiles(stubs, names, Fallback)[2].badge == Letter('C' as nat)
  {
    var names := [JArr([JStr("Marina Beach")]), JArr([JStr("Fort")]), JArr([JStr("Marina Beach")])];
    StubsInRouteOrder(names);
  }

  /** A hotel stub carries only a name, so it is not mapped either. */
  lemma HotelStubUnmapped(hotelName: J)
    ensures !HasCoordinates(Single("name", hotelName))
  {
    assert Get(Single("name", hotelName), "lat") == JNull;
  }

  /** Neither the place stubs nor the hotel stub of the fallback route is mapped. */
  lemma FallbackMarkers(names: seq<J>, hotelName: J)
    ensures var rd := ChatStore.FallbackRoute(names, hotelName);
            ListOf(rd, "hotels_detail").Some? && ListOf(rd, "places_detail").Some?
    ensures var rd := ChatStore.FallbackRoute(names, hotelName);
            AllMarkers(ListOf(rd, "hotels_detail").value, ListOf(rd, "places_detail").value) == Some([])
  {
    var places := ChatStore.NameStubs(names);
    var hotels := if JsTruthy(hotelName) then [Single("name", hotelName)] else [];
    StubsUnmapped(names);
    HotelStubUnmapped(hotelName);
    assert JNull !in places;
    assert JNull !in hotels;
    NoMarkers(hotels, places);
    FallbackLists(names, hotelName);
  }

  /**
   * The route built when planning fails shows no marker, no polyline and
   * no legs.
   */
  lemma FallbackView(names: seq<J>, hotelName: J)
    ensures var rd := ChatStore.FallbackRoute(names, hotelName);
            ListOf(rd, "hotels_detail").Some? && ListOf(rd, "places_detail").Some? && ListOf(rd, "ordered_route").Some?
    ensures var rd := ChatStore.FallbackRoute(names, hotelName);
            var markers := AllMarkers(ListOf(rd, "hotels_detail").value, ListOf(rd, "places_detail").value);
            && markers == Some([])
            && !ShowPolyline(RoutePath(ListOf(rd, "ordered_route").value, markers.value))
            && ListOf(rd, "legs") == Some([]) && ListOf(rd, "transport_options") == Some([])
  {
    FallbackLists(names, hotelName);
    FallbackMarkers(names, hotelName);
    NoMarkersNoPolyline(names);
  }
}

=== FILE: UserRoutes.dfy ===
/** The profile update endpoint: only whitelisted fields of the request body reach the stored profile. */
module UserRoutes {
  import opened Wrappers
  import opened Json
  import opened AuthService

  /** The profile fields a user may change. */
  const AllowedFields: set<string> := {"full_name", "country", "travel_style", "interests", "budget"}

  /** The reply of every accepted update. */
  const UpdatedMessage: string := "Profile updated successfully."

  /** The update body restricted to the allowed fields, in the body's order. */
  function FilterUpdates(updates: seq<(string, J)>): (r: seq<(string, J)>)
    ensures |r| <= |updates|
    ensures forall i :: 0 <= i < |r| ==> r[i].0 in AllowedFields && r[i] in updates
  {
    if updates == [] then []
    else
      var rest := FilterUpdates(updates[1..]);
      assert forall i :: 0 <= i < |rest| ==> rest[i] in updates[1..];
      if updates[0].0 in AllowedFields then [updates[0]] + rest else rest
  }

  /** An allowed field reads in the filtered body as in the request; any other field is absent. */
  lemma {:induction false} FilterUpdatesFields(updates: seq<(string, J)>, k: string)
    ensures k in AllowedFields ==> FieldOf(FilterUpdates(updates), k) == FieldOf(updates, k)
    ensures k !in AllowedFields ==> FieldOf(FilterUpdates(updates), k).None?
  {
    if updates != [] {
      FilterUpdatesFields(updates[1..], k);
      var rest := FilterUpdates(updates[1..]);
      if updates[0].0 in AllowedFields {
        assert ([updates[0]] + rest)[1..] == rest;
      }
    }
  }

  /** Filtering an already filtered body changes nothing. */
  lemma {:induction false} FilterUpdatesIdempotent(updates: seq<(string, J)>)
    ensures FilterUpdates(FilterUpdates(updates)) == FilterUpdates(updates)
  {
    if updates != [] {
      FilterUpdatesIdempotent(updates[1..]);
      if updates[0].0 in AllowedFields {
        var r := FilterUpdates(updates);
        assert r[0] == updates[0] && r[1..] == FilterUpdates(updates[1..]);
      }
    }
  }

  /** The detail of a failed write, followed by the store's error text. */
  const UpdateFailedPrefix: string := "Failed to update profile: "

  /** What `update_user_profile` writes: the allowed fields of the body and the stamp `updated_at`. */
  function Written(updates: seq<(string, J)>, now: string): (r: seq<(string, J)>)
    ensures forall k :: k != "updated_at" && FieldOf(r, k).Some? ==> k in AllowedFields && FieldOf(r, k) == FieldOf(updates, k)
    ensures forall k :: k in AllowedFields ==> FieldOf(r, k) == FieldOf(updates, k)
    ensures FieldOf(r, "updated_at") == Some(JStr(now))
  {
    var kept := FilterUpdates(updates);
    var r := SetField(kept, "updated_at", JStr(now));
    forall k ensures k != "updated_at" && FieldOf(r, k).Some? ==> k in AllowedFields && FieldOf(r, k) == FieldOf(updates, k)
      ensures k in AllowedFields ==> FieldOf(r, k) == FieldOf(updates, k)
    {
      FilterUpdatesFields(updates, k);
    }
    r
  }

  /**
   * `update_profile`: the write, and the reply, which is the fixed message,
   * or a 500 carrying the error when the store's update raises (`write`).
   */
  function UpdateProfile(updates: seq<(string, J)>, now: string, write: Result<(), string>)
    : (r: (seq<(string, J)>, Result<string, HttpError>))
    ensures r.0 == Written(updates, now)
    ensures write.Ok? ==> r.1 == Ok(UpdatedMessage)
    ensures write.Err? ==> r.1 == Err(HttpError(500, UpdateFailedPrefix + write.error))
  {
    match write
    case Ok(_) => (Written(updates, now), Ok(UpdatedMessage))
    case Err(e) => (Written(updates, now), Err(HttpError(500, UpdateFailedPrefix + e)))
  }

  /** A body of identity fields only writes just the timestamp, and a successful write still reports success. */
  lemma IdentityFieldsDropped(email: J, uid: J, now: string)
    ensures UpdateProfile([("email", email), ("uid", uid)], now, Ok(())) == ([("updated_at", JStr(now))], Ok(UpdatedMessage))
  {
    assert "email" !in AllowedFields && "uid" !in AllowedFields;
  }
}

=== FILE: Wrappers.dfy ===
/** Optional values and results shared by every module of the model. */
module Wrappers {

  /** A value that may be absent: JavaScript's `null`/`undefined`, Python's `None`. */
  datatype Option<+T> = None | Some(value: T) {

    /** The carried value, or `default` when absent. */
    function GetOr(default: T): T {
      match this
      case Some(v) => v
      case None => default
    }
  }

  /** The outcome of a call that may fail: a payload or an error. */
  datatype Result<+T, +E> = Ok(value: T) | Err(error: E)
}
